=== FILE: README.md ===
# LinguaChat, modelled in Dafny

LinguaChat is a multilingual chat application. Users sign up and log in, create or join
rooms, and exchange messages that a translation provider (lingo.dev) renders into each
reader's language. This project models the parts of it that decide things: the
validation, authorisation, translation, persistence and client-state rules. It does not
model the transport that carries them. Every component is a Dafny module of pure
functions over immutable values. Requests, socket events and client actions are inputs.
Responses, emitted events and new states are results.

The modules follow the repository's structure:

- **Translation (TypeScript backend).**
  - `Locales`: language codes to provider locales.
  - `TranslationCache`: a bounded map with a one-hour time-to-live.
  - `LingoClient`: classification of the provider's HTTPS exchange.
  - `TranslationService`: retry classification, the per-language attempt loop with
    exponential backoff, `translateText` and `translateSingle`.
- **Chat persistence and sockets.**
  - `MessageModel`: the message collection with its unique `msgId`.
  - `ChatService`: saving, and the 50-message history window.
  - `ChatSocket`: the `join_Room` and `send_message` handlers, each returning the events it emits.
- **Rooms.**
  - `RoomModel`: schema and `Room.create`.
  - `RoomService`: create, mode change, and owner-only cascading delete.
  - `RoomController`: public list, lookup by id, owner-or-admin mode change.
- **Accounts.**
  - `UserModel`: the user collection.
  - `AuthService`: register, login, token issuance.
  - `AuthController`: zod schemas and status codes.
  - `AuthMiddleware`: HTTP bearer authentication.
  - `SocketAuth`: socket handshake authentication.
- **Configuration.**
  - `CorsConfig`: the allowed-origin lists.
  - `UploadConfig`: stored file names, the MIME filter and the size limit.
- **Legacy backend.** `LegacyServer` models the in-memory socket server of `Backend/index.js`: sessions, a 50-entry history per room, memoised history translation and fan-out per recipient language.
- **TypeScript client.**
  - `Scripts`: language detection.
  - `RoomView`: room page reducers and guards.
  - `Dashboard`: room list, roles, search, room creation.
  - `MessageBubble`: reaction badges.
  - `RegisterPage`: sign-up checks and the email pattern.
  - `AuthContext`: session store mirrored in `localStorage`.
- **Older React client.**
  - `ChatClient`: optimistic message list with msgId de-duplication.
  - `Helper`: message ids, URL parameters, share links.
  - `Theme`: light/dark/system mode.

`Base` (options, results, filtering) and `Text` (JavaScript string semantics: white space,
`trim`, `split`, `includes`, ASCII lower-casing, decimal rendering) are shared helpers.

Some things are parameters of the functions that use them:

- the clock, `Math.random`, and generated document ids;
- the provider's and the database's answers;
- bcrypt, `jsonwebtoken`, and zod's email check;
- `JSON.parse`/`JSON.stringify`, `localStorage`, `navigator.language`, and the colour-scheme media query;
- `encodeURIComponent` and URL decoding;
- `path.extname`/`path.basename`.

A contract over such a parameter holds for every value the parameter might take.

## Model

| member | source | states |
|---|---|---|
| Locales.Resolve | Backend_TS/src/services/translation.service.ts:37-40 | a falsy code or `auto` gives the fallback; any other code gives its own table entry when it has one and is passed through unchanged otherwise (tables are own-key maps: inherited `Object.prototype` names are not represented, see Left out) |
| Locales.ToLocaleCases | Backend_TS/src/services/translation.service.ts:27-40 | the whole mapping: the fallback for `''`/`auto`, `hi-IN`, `bn-IN`, `es-ES`, `fr-FR`, `de-DE`, `ja-JP` and `en` for the seven table codes, and the code itself for every other code that is not an inherited `Object.prototype` property name (those are not represented, see Left out) |
| Locales.ToLocaleIdempotent | Backend_TS/src/services/translation.service.ts:37-40 | a locale produced from a real code maps to itself again |
| Locales.LegacyAgreesExceptDeJa | Backend/index.js:31-44 | the legacy five-entry `toLocale` agrees with the current one on every code except `de` and `ja`, which only the current table turns into `de-DE`/`ja-JP` |
| TranslationCache.CacheKey | Backend_TS/src/services/translation.service.ts:52 | the key joins text, source locale (or `auto`) and target with colons, so it is never empty |
| TranslationCache.Insert | Backend_TS/src/services/translation.service.ts:51-58 | the new entry expires one hour after `now`; the map stays duplicate-free and within 1000 keys; no other entry changes; the only key that can disappear is the earliest-inserted one, and only when a new key arrives in a full map |
| TranslationCache.Lookup | Backend_TS/src/services/translation.service.ts:60-68 | a value comes back exactly when its key is present and unexpired, and then nothing changes; otherwise that key, and only that key, is deleted |
| TranslationCache.LookupAfterInsert | Backend_TS/src/services/translation.service.ts:51-68 | a translation just stored is found by every lookup strictly before its one-hour expiry and by none after it |
| TranslationCache.InsertEvictsOldest | Backend_TS/src/services/translation.service.ts:54-57 | a new key in a full cache evicts exactly the earliest-inserted key and is appended at the end; the size stays 1000 |
| TranslationCache.CacheKeyCollides | Backend_TS/src/services/translation.service.ts:52 | the key is not injective: a colon in the text or the source locale lets two different requests share one entry |
| LingoClient.BuildRequest | Backend_TS/src/services/lingoClient.ts:92-96 | the request carries the text, target and `fast` flag unchanged, and its source is `auto` exactly when no source locale (or `auto` itself) is given |
| LingoClient.Classify | Backend_TS/src/services/lingoClient.ts:57-68 | the promise resolves exactly for a 2xx status whose body parses; every rejection quotes at most the first 200 characters of the body, prefixed `Invalid JSON response: ` for a 2xx, `Server error (` for 500 and up, and `HTTP ` otherwise |
| LingoClient.PostI18n | Backend_TS/src/services/lingoClient.ts:33-81 | a missing or empty API key rejects with `Lingo API key not initialized`; a timeout rejects with `Request timed out`; a transport error rejects with that error |
| LingoClient.NoKeyNoRequest | Backend_TS/src/services/lingoClient.ts:35-38 | without a key the outcome is a rejection that does not depend on the transport, so no request is made |
| LingoClient.LocalizeText | Backend_TS/src/services/lingoClient.ts:86-98 | the call succeeds exactly when the request does; the result is the reply's non-empty `data.text`, and otherwise the input text, so a non-empty input never translates to `''`; a rejection propagates unchanged |
| LingoClient.BatchLocalizeText | Backend_TS/src/services/lingoClient.ts:104-116 | on success one result per target, in input order, each the result of `localizeText` for that target; on failure the error of the first target that failed, all earlier targets having succeeded |
| TranslationService.TimeoutIsRetryable | Backend_TS/src/services/translation.service.ts:75-81 | the client's `Request timed out` rejection counts as retryable, because its message contains `timed out` |
| TranslationService.ServerErrorRetryableIff | Backend_TS/src/services/translation.service.ts:75-81 | a 5xx rejection is retryable exactly when the first 200 characters of the body contain `terminated`, `timed out` or `ECONNRESET`; the `Server error (N): ` prefix never supplies one |
| TranslationService.Backoff | Backend_TS/src/services/translation.service.ts:132-136 | the loop sleeps exactly after a retryable failure of an attempt before the last, for `1500 * 2^attempt` ms, and not at all otherwise |
| TranslationService.Attempts | Backend_TS/src/services/translation.service.ts:116-138 | the attempts are numbered from 0 and at most four; each failure except the last is followed by another attempt made after that failure's sleep; the loop stops at the first success or after attempt 3 |
| TranslationService.TotalSleepBound | Backend_TS/src/services/translation.service.ts:71-72 | one language's backoff sleeps add up to at most 1500 + 3000 + 6000 ms |
| TranslationService.SleepsBounded | Backend_TS/src/services/translation.service.ts:132-136 | the sleeps of attempts numbered from `attempt` add up to at most `1500 * (2^3 - 2^attempt)` ms |
| TranslationService.AttemptsClock | Backend_TS/src/services/translation.service.ts:116-138 | the last attempt is made at the start time plus all the sleeps before it |
| TranslationService.NoKeyNeverSucceeds | Backend_TS/src/services/lingoClient.ts:35-38 | without an API key every attempt is rejected, so all four attempts run and none succeeds |
| TranslationService.TargetLocale | Backend_TS/src/services/translation.service.ts:103 | a target locale is empty exactly when the language code is |
| TranslationService.Remember | Backend_TS/src/services/translation.service.ts:125-126 | a translation the loop obtained is cached for one hour from the clock reading after the loop; with no translation the cache is unchanged |
| TranslationService.Fetch | Backend_TS/src/services/translation.service.ts:115-141 | a provider lookup runs the attempt loop from the current clock and caches the translation it obtains at the clock reading after the loop |
| TranslationService.Step | Backend_TS/src/services/translation.service.ts:106-113 | a target that is not skipped is a cache hit exactly when the lookup finds a non-empty unexpired value, which is then used unchanged; otherwise the provider is asked, after the lookup has dropped any expired entry |
| TranslationService.Advance | Backend_TS/src/services/translation.service.ts:102-142 | one iteration appends exactly one log entry for its language, and adds that language to the map and to the `onChunk` calls exactly when it obtained a translation |
| TranslationService.TranslateInv | Backend_TS/src/services/translation.service.ts:97-144 | the loop invariant holds after any prefix of the target languages: every log entry obeys the skip, cache and retry rules, and the map and the chunks agree with the log |
| TranslationService.TranslateText | Backend_TS/src/services/translation.service.ts:90-145 | the call logs one outcome per target language and leaves a valid cache |
| TranslationService.TranslateTextSkips | Backend_TS/src/services/translation.service.ts:103-104 | exactly the targets whose locale equals the source locale are skipped; every other target is served by a non-empty cached value or by the attempt loop for its locale |
| TranslationService.TranslateTextResults | Backend_TS/src/services/translation.service.ts:102-144 | the returned map holds exactly the languages for which some entry of `targetLangs` obtained a translation; a language that failed every attempt is absent |
| TranslationService.TranslateTextChunks | Backend_TS/src/services/translation.service.ts:108-127 | `onChunk` is called with each language of the map and its final text, and only for those; with no repeated target language, exactly once per language |
| TranslationService.TranslateTextNoKey | Backend_TS/src/services/translation.service.ts:13-24 | without an API key every language in the map came from the cache |
| TranslationService.SingleFor | Backend_TS/src/services/translation.service.ts:161-164 | an empty target, or one equal to the source locale, returns the input and changes nothing; a non-empty unexpired cached value is returned as is |
| TranslationService.SingleForProvider | Backend_TS/src/services/translation.service.ts:166-183 | otherwise the result is the loop's first translation, cached for one hour from the clock after the loop, or the input text when every attempt failed |
| TranslationService.TranslateSingle | Backend_TS/src/services/translation.service.ts:151-161 | an empty target language, or one whose locale equals the source locale, returns the input untouched |
| TranslationService.TranslateSingleThenCached | Backend_TS/src/services/translation.service.ts:163-171 | a non-empty translation from the provider is served from the cache by the next call for the same text and languages within one hour, whatever the provider would answer then |
| MessageModel.Create | Backend_TS/src/models/message.model.ts:20-56 | creation fails exactly when the database is down, a required field (room, author, original, msgId) is empty, or the msgId is already stored; otherwise the message is appended with the given fields, an empty translation map, `sourceLocale` defaulting to `auto` and `createdAt` the current clock, and the collection stays valid |
| MessageModel.CreateTwiceKeepsOne | Backend_TS/src/models/message.model.ts:44-48 | once a message is stored, creating it again is refused as a duplicate key, and exactly one message with that msgId remains |
| MessageModel.MsgIdsIn | Backend_TS/src/models/message.model.ts:44-48 | an id is among the collection's ids exactly when some stored message carries it |
| MessageModel.ValidUniqueIds | Backend_TS/src/models/message.model.ts:44-48 | in a valid collection each msgId occurs at most once |
| MessageModel.ValidTail | Backend_TS/src/models/message.model.ts:20-56 | dropping the oldest message keeps a collection valid |
| MessageModel.ValidCons | Backend_TS/src/models/message.model.ts:20-56 | a stored message that is older than every message of a valid collection, and has a fresh msgId, can precede it |
| ChatService.ToDraft | Backend_TS/src/services/chat.service.ts:19-29 | the text is stored as `original` and the language as `sourceLocale`; `replyTo` is present in the document exactly when the input has one |
| ChatService.SaveMessage | Backend_TS/src/services/chat.service.ts:4-35 | the save fails, always with `Failed to save message`, exactly when `Message.create` rejects; otherwise the message is appended with the input's fields, an empty translation map and `auto` as the default source locale |
| ChatService.InRoom | Backend_TS/src/services/chat.service.ts:40 | the selection holds exactly the stored messages of that room |
| ChatService.InRoomAscending | Backend_TS/src/services/chat.service.ts:40-43 | selecting one room's messages keeps them in `createdAt` order |
| ChatService.GetRoomHistory | Backend_TS/src/services/chat.service.ts:38-48 | the read fails, always with `Failed to fetch room history`, exactly when the database does; otherwise it returns min(50, n) messages of that room, where n is the room's message count |
| ChatService.HistoryIsNewest | Backend_TS/src/services/chat.service.ts:40-43 | the history is in chronological order and is the tail of the room's messages; every message left out is no newer than every message shown |
| ChatService.SaveThenHistory | Backend_TS/src/services/chat.service.ts:4-48 | a message just saved is the last entry of its room's history, which is the previous history with the new message appended, trimmed back to the newest 50 |
| ChatSocket.JoinRoom | Backend_TS/src/sockets/chat.socket.ts:9-28 | the socket joins the room and records it, the language and the name `Anonymous`; it alone gets the room's history, or `error_event` with `Failed to fetch room history`; then the whole room hears `user_joined` |
| ChatSocket.NestedOf | Backend_TS/src/models/message.model.ts:49-53 | a stored reply reads back field by field; without one, the nested `replyTo` path still reads back as an object, with every field undefined |
| ChatSocket.PayloadOf | Backend_TS/src/sockets/chat.socket.ts:46-71 | the broadcast carries the stored original as both message and original, the author and msgId, the source locale as `lang`, the ISO time of `createdAt`, no reactions, and always a `replyTo` object: the stored reply, or one with every field undefined when none was stored, since the nested path reads back as an object |
| ChatSocket.SendMessage | Backend_TS/src/sockets/chat.socket.ts:30-77 | at most one event; an event goes out exactly when the collection grows; it is a `receive_message` to the room named by the client, built from the new document |
| ChatSocket.SendBroadcastsWhatWasSent | Backend_TS/src/sockets/chat.socket.ts:30-77 | the room hears a message exactly when the database is up, the required fields are non-empty and the msgId is new; it then hears the client's own text, author and id, the source language or `auto`, the save time, and a `replyTo` that is the client's reply, or a field-less object exactly when the client sent none |
| ChatSocket.ResendIsSilent | Backend_TS/src/sockets/chat.socket.ts:44-76 | re-sending a msgId that was already broadcast stores nothing and emits nothing |
| RoomModel.ParseMode | Backend_TS/src/models/room.model.ts:53-57 | the `mode` enum accepts exactly `Global` and `Native` |
| RoomModel.ModeName | Backend_TS/src/models/room.model.ts:53-57 | a mode's name parses back to the same mode |
| RoomModel.FindByName | Backend_TS/src/models/room.model.ts:19-27 | a name lookup matches on the trimmed name and finds a room exactly when one carries that trimmed name |
| RoomModel.FindById | Backend_TS/src/models/room.model.ts:4-15 | an id lookup returns the first room with that id, and nothing exactly when no room has it |
| RoomModel.Create | Backend_TS/src/models/room.model.ts:18-60 | creation is refused by validation exactly when the trimmed name is not 3-50 characters long, the description exceeds 200, the owner is missing or the mode is not an enum value; it is refused as a duplicate exactly when an admissible name is taken; otherwise the room is appended with the trimmed name and the defaults `''`, public and `Global` |
| RoomModel.CreateKeepsValid | Backend_TS/src/models/room.model.ts:18-60 | a successful create keeps every room conforming to the schema, with distinct ids and distinct names |
| RoomService.CreateRoom | Backend_TS/src/services/rom.service.ts:4-22 | a database failure is reported as such and writes nothing; a taken name is refused with `Room name already exists` before anything is written; a created room is appended, public, with the trimmed name, the requested mode, and its owner as the only admin and the only member |
| RoomService.CreateRoomCases | Backend_TS/src/services/rom.service.ts:4-22 | creation succeeds exactly when the database answers, the trimmed name is free and has 3-50 characters, and the owner is set; a created room keeps every collection invariant, including owner-is-admin and admins-are-members |
| RoomService.UpdateRoomMode | Backend_TS/src/services/rom.service.ts:28-36 | a database failure changes nothing; an unknown name is refused with `Room not found`; with the database up, the update succeeds exactly when some room has the trimmed name, and then exactly the first such room gets the new mode and every other room is unchanged |
| RoomService.UpdateRoomModeKeeps | Backend_TS/src/services/rom.service.ts:28-36 | changing the mode keeps every collection invariant |
| RoomService.UpdateRoomModeIdempotent | Backend_TS/src/services/rom.service.ts:28-36 | repeating a mode change succeeds and changes nothing more |
| RoomService.WithoutRoom | Backend_TS/src/services/rom.service.ts:50 | deleting by room name keeps exactly the messages of the other rooms |
| RoomService.WithoutRoomHistories | Backend_TS/src/services/rom.service.ts:50 | after the deletion every other room's messages are exactly as before, in order, and the deleted room has none |
| RoomService.DeleteRoom | Backend_TS/src/services/rom.service.ts:38-56 | an id that is not an `ObjectId` fails with a cast error and a database failure with the driver's error; then an unknown id is refused with `Room not found`, and a requester other than the owner, admins included, with `Only the room owner can delete this room`; each of these outcomes happens in exactly its own case, with nothing deleted; the deletion succeeds exactly when the id casts, the database is up, the room exists and the requester owns it, and then the room's messages and then the room are deleted and its name is returned |
| RoomService.DeleteRoomKeeps | Backend_TS/src/services/rom.service.ts:38-56 | a deletion removes exactly the room with that id, keeps every other room, and keeps both collections valid |
| RoomService.RemoveAtKeeps | Backend_TS/src/services/rom.service.ts:53 | removing one room leaves exactly the rooms with another id, with the invariants intact |
| RoomService.WithoutRoomValid | Backend_TS/src/services/rom.service.ts:50 | deleting one room's messages keeps the message collection valid |
| RoomController.View | Backend_TS/src/controllers/roomControllers.ts:8-9 | the projection keeps id, name, mode, admins, members and creation time; the owner is populated as `{_id, username}` exactly when the user still exists |
| RoomController.InsertNewestFirst | Backend_TS/src/controllers/roomControllers.ts:10 | inserting one view into a newest-first list keeps it newest first and adds exactly that view |
| RoomController.SortNewestFirst | Backend_TS/src/controllers/roomControllers.ts:10 | the sort returns a permutation of its input, ordered by descending creation time |
| RoomController.PublicViews | Backend_TS/src/controllers/roomControllers.ts:7-9 | the query returns exactly the projected views of the public rooms |
| RoomController.GetPublicRooms | Backend_TS/src/controllers/roomControllers.ts:5-17 | the handler answers 500 with `Failed to fetch public rooms` exactly when the database fails; otherwise 200 with the public rooms, newest first, each once per stored room |
| RoomController.PublicRoomsAreThePublicOnes | Backend_TS/src/controllers/roomControllers.ts:7 | a view is listed exactly when it is the view of a public room |
| RoomController.GetRoomById | Backend_TS/src/controllers/roomControllers.ts:19-35 | the handler answers 500 exactly when the id does not cast or the database fails; 404 exactly when no room has the id; and 200 with the view of the room with that id whenever the room exists |
| RoomController.UpdateRoomMode | Backend_TS/src/controllers/roomControllers.ts:37-71 | a mode other than `Global`/`Native` is refused with 400, exactly then and before any lookup; 500 exactly when the id does not cast or the database fails; 404 exactly for an unknown id; 403 exactly when the requester is neither the owner nor a listed admin; 200 exactly when the requester is the owner or a listed admin, and only then is the mode saved; every refusal leaves the collection unchanged |
| RoomController.UpdateRoomModeOnlyMode | Backend_TS/src/controllers/roomControllers.ts:63-64 | an authorised change alters only the mode, and only of the room with that id |
| RoomController.UpdateRoomModeRepeat | Backend_TS/src/controllers/roomControllers.ts:37-71 | repeating an authorised change answers the same 200 and leaves the same collection |
| UserModel.ParseRole | Backend_TS/src/models/user.model.ts:29-33 | the `role` enum accepts exactly `user` and `admin` |
| UserModel.RoleName | Backend_TS/src/models/user.model.ts:29-33 | a role's name parses back to the same role |
| UserModel.FindByUsername | Backend_TS/src/models/user.model.ts:15-19 | a lookup returns the first account with exactly that username, and nothing exactly when none has it |
| UserModel.Create | Backend_TS/src/models/user.model.ts:14-40 | creation is refused by validation exactly when a required path is empty or the role is not an enum value; as a duplicate exactly when an admissible draft's username or email is taken; otherwise the account is appended with the role defaulting to `user` and the default picture |
| UserModel.CreateKeepsValid | Backend_TS/src/models/user.model.ts:14-40 | a successful create keeps ids, usernames and emails distinct, and the new account is what a lookup of its username finds |
| UserModel.CreateTwiceRejected | Backend_TS/src/models/user.model.ts:18-23 | creating the same draft a second time is refused as a duplicate |
| UserModel.FindAfterAppend | Backend_TS/src/models/user.model.ts:15-19 | an account appended under a username nobody has is what a lookup of that username finds |
| AuthService.GenerateToken | Backend_TS/src/services/auth.services.ts:71-86 | token issuance fails with the missing-secret error exactly when `JWT_SECRET` is unset or empty, and otherwise signs the account's id, username and role for one hour |
| AuthService.Register | Backend_TS/src/services/auth.services.ts:16-43 | a taken username is refused with nothing written; a success appends exactly one account holding the hashed password and the default role and returns it with its token; a missing secret still leaves the account stored |
| AuthService.RegisterCases | Backend_TS/src/services/auth.services.ts:16-43 | each failure happens exactly in its own situation (taken username, refused create, missing secret), and the stored collection stays valid |
| AuthService.Login | Backend_TS/src/services/auth.services.ts:45-69 | login fails with the one credentials error exactly when the username is unknown or the password does not match; when the password matches, a missing or empty `JWT_SECRET` gives exactly the secret error and any other secret gives the session of that account with a one-hour token signed over its id, username and role; a success is always such a session |
| AuthService.LoginHidesWhichCheckFailed | Backend_TS/src/services/auth.services.ts:48-57 | an unknown username and a wrong password give the caller the same error |
| AuthService.RegisterThenLogin | Backend_TS/src/services/auth.services.ts:16-69 | after a successful registration, logging in with the same password returns the same session |
| AuthController.StringIssues | Backend_TS/src/controllers/auth.controller.ts:5-14 | a `z.string()` field with one refinement reports at most one issue, and none exactly when the value is a string that passes the refinement |
| AuthController.RegisterSchemaExact | Backend_TS/src/controllers/auth.controller.ts:5-9 | the register schema accepts exactly a username and password of at least six characters and a string the email check accepts |
| AuthController.Register | Backend_TS/src/controllers/auth.controller.ts:16-24 | a body the schema refuses gets 400 with the rendered issues and writes nothing; otherwise the answer is 201 exactly when the service succeeds, with its session, or 400 with the failure's message |
| AuthController.RegisterCreatedOnlyForValidInput | Backend_TS/src/controllers/auth.controller.ts:16-24 | a 201 implies a schema-valid body, one new stored account with that username, and a session for it with the `user` role |
| AuthController.Login | Backend_TS/src/controllers/auth.controller.ts:26-35 | a body the schema refuses gets 400 with the rendered issues; otherwise 200 exactly when the service succeeds, with its session, or 400 with the failure's message |
| AuthController.LoginResponseHidesWhichCheckFailed | Backend_TS/src/controllers/auth.controller.ts:26-35 | a well-formed login with an unknown username and one with a wrong password get the same 400 response |
| AuthMiddleware.SecondWord | Backend_TS/src/middlewares/auth.middleware.ts:19 | `split(" ")[1]` exists exactly when the header holds a space, and never contains one |
| AuthMiddleware.BearerToken | Backend_TS/src/middlewares/auth.middleware.ts:15-19 | for a header that passes the `Bearer ` prefix check, the token is what follows the prefix up to the next space |
| AuthMiddleware.Authenticate | Backend_TS/src/middlewares/auth.middleware.ts:13-49 | every refusal is a 401; "No token provided" exactly when the header is missing or lacks the prefix; "Token missing" exactly when the token after the prefix is empty |
| AuthMiddleware.AuthenticateNextExactly | Backend_TS/src/middlewares/auth.middleware.ts:25-41 | the request proceeds exactly when a non-empty bearer token verifies under a set secret to an object payload, and `req.user` is then that payload's id and role |
| AuthMiddleware.BearerRoundTrip | Backend_TS/src/middlewares/auth.middleware.ts:13-49 | a space-free token sent as `Bearer <token>` is the one verified, and the outcome is decided by verification alone |
| SocketAuth.MakeAuthError | Backend_TS/src/middlewares/socketAuth.middleware.ts:12-18 | every `AuthError` carries its message and the same login prompt as its content |
| SocketAuth.TokenOf | Backend_TS/src/middlewares/socketAuth.middleware.ts:23 | the token is never empty, and a non-empty `auth.token` takes precedence over the header |
| SocketAuth.HeaderTokenIgnoresScheme | Backend_TS/src/middlewares/socketAuth.middleware.ts:23 | without `auth.token`, any scheme word is accepted in the header and the token is what follows its first space up to the next |
| SocketAuth.Authenticate | Backend_TS/src/middlewares/socketAuth.middleware.ts:22-48 | no token, then no secret, then a failed verification each refuse with an `AuthError` carrying that message; the socket is admitted exactly otherwise, under the placeholder name and the payload's id |
| SocketAuth.BearerAgreesWithHttp | Backend_TS/src/middlewares/socketAuth.middleware.ts:22-48 | for a well-formed bearer header and a non-string payload, the socket check admits exactly when the HTTP check lets the request proceed, with the same user id |
| CorsConfig.TrimAll | Backend_TS/src/config/cors.ts:11 | trimming the entries keeps the list's length and trims each entry in place |
| CorsConfig.NonEmptyMembers | Backend_TS/src/config/cors.ts:14 | `.filter(Boolean)` keeps exactly the non-empty entries and introduces no duplicates |
| CorsConfig.DedupMembers | Backend_TS/src/config/cors.ts:14 | `[...new Set(..)]` has no duplicates and the same members as its input |
| CorsConfig.EnvOrigins | Backend_TS/src/config/cors.ts:10-12 | the environment's origins are each trimmed, and a set, non-empty variable yields at least one entry |
| CorsConfig.CorsOrigins | Backend_TS/src/config/cors.ts:1-14 | the allowed origins are distinct and non-empty, include every default, and are exactly the non-empty environment origins and defaults |
| CorsConfig.CorsOriginsOrder | Backend_TS/src/config/cors.ts:10-14 | the environment's origins come first in first-occurrence order, followed by the defaults the environment did not already name |
| CorsConfig.MergeOrder | Backend_TS/src/config/cors.ts:14 | de-duplicating a list followed by distinct non-empty defaults appends exactly the defaults not already present |
| CorsConfig.ServerOriginsClean | Backend_TS/src/server.ts:13-16 | every origin handed to socket.io is trimmed and non-empty |
| CorsConfig.ServerOriginsRoundTrip | Backend_TS/src/server.ts:13-16 | a comma-separated list of trimmed, non-empty, comma-free origins set in `CORS_ORIGINS` comes back unchanged and in order |
| CorsConfig.ServerDefaultOrigins | Backend_TS/src/server.ts:13 | without the variable, socket.io allows exactly the first four defaults of `cors.ts` |
| UploadConfig.Sanitize | Backend_TS/src/config/multer.config.ts:31 | the sanitised name has one character per UTF-16 code unit of the original and holds only lower-case letters, digits and `_` |
| UploadConfig.SanitizeSafe | Backend_TS/src/config/multer.config.ts:31 | a name made only of safe characters is left unchanged |
| UploadConfig.SanitizeIdempotent | Backend_TS/src/config/multer.config.ts:31 | sanitising twice gives the same name as sanitising once |
| UploadConfig.StoredName | Backend_TS/src/config/multer.config.ts:22-33 | the stored name starts with the decimal timestamp and a dash, ends with the original extension, and has the length those parts and the sanitised base add up to |
| UploadConfig.StoredNameRoundTrip | Backend_TS/src/config/multer.config.ts:28-32 | the stored name splits back at its first dash into the upload time and, up to the extension, the sanitised base name |
| UploadConfig.HandleUpload | Backend_TS/src/config/multer.config.ts:36-46 | an upload is accepted exactly when its MIME type is one of the five image types and it is at most 5 MiB; the wrong type is refused first, then the size; an accepted file gets the generated name |
| UploadConfig.MimeFilterExamples | Backend_TS/src/config/multer.config.ts:40 | the filter is case-sensitive and anchored: `image/PNG`, `image/svg+xml` and a padded type are refused |
| LegacyServer.RoomMembers | Backend/index.js:60-65 | the member list has one entry per socket in the room, in joining order, naming `Anonymous` and `en` where the socket's session says nothing |
| LegacyServer.TargetLocale | Backend/index.js:72 | an empty or `auto` language resolves to `en` |
| LegacyServer.Localize | Backend/index.js:67-89 | without an engine the text comes back untouched; an error is reported exactly when the engine was called and failed; the text changes only to the engine's non-empty output |
| LegacyServer.Memo | Backend/index.js:112-119 | one join step stores a translation for the language only when none is held, and changes nothing else of the entry (the translations object is an own-key map: inherited `Object.prototype` names are not represented, see Left out) |
| LegacyServer.MemoAfterFailure | Backend/index.js:113-119 | after a failed translation the stored value is the original text |
| LegacyServer.MemoOnce | Backend/index.js:111-127 | an entry with a non-empty original is translated at most once per language: a later join leaves it unchanged whatever the engine does then |
| LegacyServer.HistoryNotices | Backend/index.js:111-127 | there is at most one notice per history entry, and none without an engine |
| LegacyServer.MemoisedHistoryQuiet | Backend/index.js:111-127 | a history already translated into the language raises no notice |
| LegacyServer.Join | Backend/index.js:94-138 | joining writes the session with the language (`en` when none), adds the socket to the room and keeps the others, sends the member list to the joiner and then the others, and for a non-empty history memoises it and ends with the translated history sent to the joiner; validity is kept |
| LegacyServer.HistoryEvents | Backend/index.js:121-136 | everything after the member list goes to the joiner alone and ends with the history |
| LegacyServer.JoinHistoryTranslated | Backend/index.js:111-136 | each history line the joiner gets shows the translation just memoised for its language, and every entry with a non-empty original now holds one |
| LegacyServer.SetUsername | Backend/index.js:140-142 | only the socket's own name changes |
| LegacyServer.NameShownAfterJoin | Backend/index.js:94-104 | a name set before joining is what the room's member list shows for the socket |
| LegacyServer.SetLanguage | Backend/index.js:144-152 | a socket with a session gets the new language, nothing else changes and the whole room hears the member list; a socket without a session changes nothing and nobody hears anything |
| LegacyServer.Disconnect | Backend/index.js:154-161 | the socket leaves every room and loses its session, everyone else stays where they were, and only a socket that had a session makes the rest of its room hear the member list |
| LegacyServer.DisconnectedNotListed | Backend/index.js:154-161 | the member list sent on a disconnect does not name the socket |
| LegacyServer.MsgIdOf | Backend/index.js:167 | a non-empty client id is kept as it is |
| LegacyServer.GeneratedMsgId | Backend/index.js:167 | a generated id splits back into the author, a dash and the decimal timestamp, which holds no dash |
| LegacyServer.SourceLocaleOf | Backend/index.js:164-165 | a missing, empty or `auto` source language gives no source locale |
| LegacyServer.Ring | Backend/index.js:173-183 | the history grows by the new entry at its end and never past fifty; it is the last fifty of the previous history plus the entry |
| LegacyServer.RingIsWindow | Backend/index.js:173-183 | the kept history after any number of sends is the last fifty entries of everything sent, in arrival order |
| LegacyServer.RecipientLang | Backend/index.js:187 | a recipient's language is never empty, `en` standing in |
| LegacyServer.DeliverTo | Backend/index.js:186-218 | each recipient gets one or two events, all to itself: a notice exactly when the engine failed, then its copy, which keeps author, original, time, id and `lang`, and whose text differs from the original only as the engine's output for its locale |
| LegacyServer.Deliver | Backend/index.js:186-218 | the copies reach exactly the room's sockets, in order, each faithful to the client's data; without an engine every copy carries the original text |
| LegacyServer.Send | Backend/index.js:163-219 | a room without sockets gets nothing and nothing is stored; otherwise the entry goes into the room's ring, every socket including the sender gets one faithful copy, and validity is kept |
| LegacyServer.SendKeepsRecent | Backend/index.js:173-183 | after a send the room's history is the fifty most recent entries ending with the new message |
| Scripts.FirstHit | Frontend_TS/src/pages/Chat/RoomPage.tsx:322-324 | the pattern found is one whose class occurs in the text, and no earlier pattern's class does |
| Scripts.Detect | Frontend_TS/src/pages/Chat/RoomPage.tsx:311-327 | the answer is `auto` or the language of a pattern in the table |
| Scripts.DetectPicksFirst | Frontend_TS/src/pages/Chat/RoomPage.tsx:322-324 | the answer is the language of the first pattern, in table order, whose class occurs in the text |
| Scripts.DetectNoHit | Frontend_TS/src/pages/Chat/RoomPage.tsx:322-326 | when no class occurs in the text the answer is `auto` |
| Scripts.DetectTrimmed | Frontend_TS/src/pages/Chat/RoomPage.tsx:385 | detecting on the trimmed input gives the same answer as on the raw input, since no class matches white space |
| Scripts.RoomPageDetect | Frontend_TS/src/pages/Chat/RoomPage.tsx:311-327 | the room page answers one of its six languages or `auto` |
| Scripts.HelperDetect | Frontend_React/src/utils/helper.js:1-25 | the older client answers one of its ten languages or `auto`, with its four accent classes as abstract character sets |
| Scripts.SharedAccentsAreSpanish | Frontend_TS/src/pages/Chat/RoomPage.tsx:314-320 | a text holding `é` or `ü` (either case) and no Devanagari or Bengali is detected as Spanish, never French or German |
| Scripts.HelperScriptsFirst | Frontend_React/src/utils/helper.js:4-22 | the Indic scripts are tried first, in the order hi, bn, ta, te, kn, ml: a text holding one is detected by the first such script, whatever the accent classes hold |
| Scripts.DevanagariWins | Frontend_React/src/utils/helper.js:4-22 | Devanagari anywhere in the text makes both detectors answer `hi` |
| Scripts.AsciiIsAuto | Frontend_React/src/utils/helper.js:1-25 | a plain ASCII text is `auto` in both detectors, given accent classes without ASCII letters |
| RoomView.OriginalText | Frontend_TS/src/pages/Chat/RoomPage.tsx:124-127 | the original text is empty only when both the original and the delivered text are |
| RoomView.DisplayText | Frontend_TS/src/pages/Chat/RoomPage.tsx:129-142 | a `Native` room or the original toggle shows the original; otherwise the text shown is one of the reader's translation, the English one, the delivered text or the original, and is empty only when the original is |
| RoomView.DisplayPreference | Frontend_TS/src/pages/Chat/RoomPage.tsx:133-139 | outside `Native` mode the reader's translation wins, then the English one, then the delivered text, then the original |
| RoomView.MergeTranslations | Frontend_TS/src/pages/Chat/RoomPage.tsx:225-239 | only the message with the event's id changes, and only its translations: the incoming ones win and the others it held stay |
| RoomView.MergeIdempotent | Frontend_TS/src/pages/Chat/RoomPage.tsx:225-239 | a repeated `translations_ready` event changes nothing more |
| RoomView.MergedTranslationShown | Frontend_TS/src/pages/Chat/RoomPage.tsx:129-142 | once a translation into the reader's language arrives, a message in a `Global` room shows it |
| RoomView.ReplaceReactions | Frontend_TS/src/pages/Chat/RoomPage.tsx:242-253 | the message with the event's id gets the new reaction record wholesale, and every other message is left unchanged |
| RoomView.LatestReactionsWin | Frontend_TS/src/pages/Chat/RoomPage.tsx:242-253 | two reaction updates for one message leave only the later record |
| RoomView.TypingStart | Frontend_TS/src/pages/Chat/RoomPage.tsx:256-260 | a typing start adds the author, keeps everyone else, adds no one else and introduces no repetition |
| RoomView.TypingStop | Frontend_TS/src/pages/Chat/RoomPage.tsx:261-270 | a typing stop or the safety timer removes the author and keeps exactly everyone else |
| RoomView.TypingNeverRepeats | Frontend_TS/src/pages/Chat/RoomPage.tsx:256-270 | any sequence of typing events keeps the list of typists free of repetitions |
| RoomView.TypingBanner | Frontend_TS/src/pages/Chat/RoomPage.tsx:466-472 | there is a banner exactly when someone types; it starts with the first typist's name, and from three typists on counts the others |
| RoomView.BannerNamesTypists | Frontend_TS/src/pages/Chat/RoomPage.tsx:466-472 | after one and then a second typist start, the banner names them in order |
| RoomView.InitialLang | Frontend_TS/src/pages/Chat/RoomPage.tsx:45-53 | the initial language is always one of the options, and a stored option is kept |
| RoomView.InitialLangFromBrowser | Frontend_TS/src/pages/Chat/RoomPage.tsx:50-52 | without a usable stored value, a browser language `xx-YY` whose lower-cased `xx` is an option selects it |
| RoomView.HandleSend | Frontend_TS/src/pages/Chat/RoomPage.tsx:360-400 | a blank input does nothing; a missing room id is reported; with a room id the message goes out exactly when connected, and otherwise `Socket not connected` is reported; a message that goes out is untrimmed and carries the language detected from it, the author or `Anonymous`, the reply draft, a typing stop exactly when the user was marked as typing, and an id made of the decimal time, a dash and the random text |
| RoomView.ToggleRoomMode | Frontend_TS/src/pages/Chat/RoomPage.tsx:445-460 | the server is asked to change the mode exactly when the room id is set, the socket connected and the user an admin, and then for the other mode; a connected non-admin gets the admin notice |
| RoomView.ToggleTwice | Frontend_TS/src/pages/Chat/RoomPage.tsx:445-460 | two granted toggles ask for the original mode again |
| Dashboard.OwnerName | Frontend_TS/src/pages/Dashboard/HomePage.tsx:230-235 | the owner shown is never empty: the populated owner's non-empty username, and `Unknown` exactly otherwise |
| Dashboard.UserRole | Frontend_TS/src/pages/Dashboard/HomePage.tsx:237-249 | nobody signed in is a member; the user is owner exactly when the owner's id is theirs, and admin exactly when it is not but the admin list names them |
| Dashboard.RoleIgnoresPopulation | Frontend_TS/src/pages/Dashboard/HomePage.tsx:241-244 | an owner arriving populated or as a bare id gives everyone the same role |
| Dashboard.FromView | Frontend_TS/src/pages/Dashboard/HomePage.tsx:75-79 | the listed room keeps the id, name, mode and admins the room listing returned, has no description, and has an empty owner id exactly when the owner was missing |
| Dashboard.ElevatedRoleMatchesServer | Frontend_TS/src/pages/Dashboard/HomePage.tsx:237-249 | whoever the dashboard calls owner or admin passes the server's mode-change check, and while the owner's account exists everyone who passes it is owner or admin on the dashboard |
| Dashboard.FilteredRooms | Frontend_TS/src/pages/Dashboard/HomePage.tsx:251-259 | a blank query shows every room; otherwise exactly the rooms whose name or non-empty description contains the lower-cased, untrimmed query are kept |
| Dashboard.FilteredRoomsIdempotent | Frontend_TS/src/pages/Dashboard/HomePage.tsx:251-259 | searching a search result again with the same query changes nothing |
| Dashboard.NameQueryFindsRoom | Frontend_TS/src/pages/Dashboard/HomePage.tsx:251-259 | a room whose name equals the query up to ASCII case is always found |
| Dashboard.PaddedQueryMisses | Frontend_TS/src/pages/Dashboard/HomePage.tsx:252-253 | a leading space in the query hides a room the unpadded query finds, since only the blank test trims |
| Dashboard.RefusalMessage | Frontend_TS/src/pages/Dashboard/HomePage.tsx:104-119 | the refusal shown is never empty, and for a missing connection is the connection's own error when it has one |
| Dashboard.HandleCreateRoom | Frontend_TS/src/pages/Dashboard/HomePage.tsx:100-153 | a blank name, then a trimmed name under three characters, then a missing connection each refuse in exactly their case; otherwise the request carries the trimmed name and the chosen mode |
| Dashboard.OnCreateReply | Frontend_TS/src/pages/Dashboard/HomePage.tsx:124-151 | a room is opened exactly when the server confirms, under the name it gives or else the requested one; a rejection shows its message or the fallback; the timer shows the timeout message |
| Dashboard.RequestedNameMeetsSchema | Frontend_TS/src/pages/Dashboard/HomePage.tsx:100-153 | a name the dashboard sends is accepted by the room service exactly when it is free and at most 50 characters long |
| Dashboard.UpdateModeInList | Frontend_TS/src/pages/Dashboard/HomePage.tsx:184-200 | after a successful PATCH only the room with that id takes the new mode; a failed PATCH leaves the list unchanged |
| Dashboard.UpdateModeInListLocal | Frontend_TS/src/pages/Dashboard/HomePage.tsx:190-193 | the update changes nothing but the mode of the rooms with that id, and applying it twice is applying it once |
| MessageBubble.Badges | Frontend_TS/src/components/MessageBubble.tsx:60-64 | the badges are exactly the record's entries whose value is a non-empty list, each with its emoji and reactors |
| MessageBubble.BadgesAppend | Frontend_TS/src/components/MessageBubble.tsx:60-64 | badges keep the record's key order: a record built in two parts gives the badges of each part, in order |
| MessageBubble.ReactionEntries | Frontend_TS/src/components/MessageBubble.tsx:59-65 | a message without reactions shows no badge, and every badge shown counts at least one reactor |
| MessageBubble.HighlightedBadge | Frontend_TS/src/components/MessageBubble.tsx:191-193 | a highlighted badge is one the message's record lists the user under, and its count includes the user |
| MessageBubble.SignedOutSeesNoHighlight | Frontend_TS/src/components/MessageBubble.tsx:191-193 | with nobody signed in no badge is highlighted |
| RegisterPage.EmailRegexExact | Frontend_TS/src/pages/Auth/RegisterPage.tsx:33 | the email check accepts exactly the strings `/^[^\s@]+@[^\s@]+\.[^\s@]+$/` matches: no white space, one `@` not first, and a `.` inside the domain that is neither its first nor its last character |
| RegisterPage.ShortestEmail | Frontend_TS/src/pages/Auth/RegisterPage.tsx:33 | `a@b.c` is accepted |
| RegisterPage.NotEmails | Frontend_TS/src/pages/Auth/RegisterPage.tsx:33 | an empty local part, a dot right after the `@` or at the end, a second `@` and a space are each refused |
| RegisterPage.HandleSubmit | Frontend_TS/src/pages/Auth/RegisterPage.tsx:18-51 | a blank field, then an untrimmed username under six characters, then an email the pattern refuses, then a password under six characters each refuse in exactly their case; otherwise the fields are posted as typed |
| RegisterPage.EmailNotBlank | Frontend_TS/src/pages/Auth/RegisterPage.tsx:23-36 | an email the pattern accepts is never blank |
| RegisterPage.PostedFormMeetsServerLengths | Frontend_TS/src/pages/Auth/RegisterPage.tsx:18-51 | a form the page posts passes the server's schema exactly when the server's own email check accepts the email |
| RegisterPage.OnReply | Frontend_TS/src/pages/Auth/RegisterPage.tsx:53-65 | the user is signed in exactly when registration succeeded, with the returned user and tokens; a failure shows the server's error or the fallback and leaves the session unchanged |
| AuthContext.ParseStoredUser | Frontend_TS/src/context/AuthContext.tsx:29-39 | a missing or empty entry gives no user; otherwise the parsed user or `null`, and text that does not parse is removed from storage and nothing else is |
| AuthContext.ParseStoredUserStable | Frontend_TS/src/context/AuthContext.tsx:29-39 | reading the stored user a second time finds the same user and changes nothing more |
| AuthContext.Init | Frontend_TS/src/context/AuthContext.tsx:41-45 | the initial token is the stored one exactly when one is stored, even if empty, and the initial user is one the stored text parses to |
| AuthContext.Login | Frontend_TS/src/context/AuthContext.tsx:47-59 | the token and user are set in memory and in storage; the refresh token is stored only when given and non-empty, otherwise the stored one stays; other keys are untouched; a non-empty token authenticates |
| AuthContext.Logout | Frontend_TS/src/context/AuthContext.tsx:61-67 | memory and the three storage entries are cleared, other keys are untouched, and the session is not authenticated |
| AuthContext.ReloadAfterLogin | Frontend_TS/src/context/AuthContext.tsx:29-59 | a reload after logging in restores the same user, token and storage, provided parsing undoes stringifying |
| AuthContext.ReloadAfterLogout | Frontend_TS/src/context/AuthContext.tsx:29-67 | a reload after logging out is signed out, whatever parsing does |
| AuthContext.RefreshAccessToken | Frontend_TS/src/context/AuthContext.tsx:69-84 | without a stored refresh token nothing changes; a new token replaces the old one in memory and in storage and keeps the user and refresh token; a failed request logs out |
| AuthContext.FailedRefreshIsFinal | Frontend_TS/src/context/AuthContext.tsx:69-84 | after a failed refresh, the next refresh changes nothing whatever the server answers, and the session is either unchanged or signed out |
| AuthContext.RefreshKeepsSession | Frontend_TS/src/context/AuthContext.tsx:69-105 | a successful refresh with a non-empty token keeps a signed-in user signed in |
| ChatClient.Received | Frontend_React/src/context/ChatContext.jsx:65-68 | an incoming message keeps the payload's author, text, original and id, carries the local time and no status |
| ChatClient.OnReceiveMessage | Frontend_React/src/context/ChatContext.jsx:61-82 | the new message always ends the list and the status line names its author; an echo of the user's own message with an id leaves exactly one entry with that id, dropping only entries with that id; anything else is appended |
| ChatClient.OwnEchoIdempotent | Frontend_React/src/context/ChatContext.jsx:70-74 | receiving the same echo of one's own message twice leaves the list as after the first |
| ChatClient.OnRoomHistory | Frontend_React/src/context/ChatContext.jsx:84-98 | the list becomes the history line by line, each keeping its time or taking the local one; only a non-empty history is reported |
| ChatClient.OnMessageStatus | Frontend_React/src/context/ChatContext.jsx:105-125 | exactly the entries with the given id take the status and error; only a failure changes the status line |
| ChatClient.MessageStatusIdempotent | Frontend_React/src/context/ChatContext.jsx:105-125 | a repeated status update changes nothing more and never touches entries with another id |
| ChatClient.OnTranslationError | Frontend_React/src/context/ChatContext.jsx:127-140 | the list grows by one system entry naming the failure, and the status line says the same |
| ChatClient.SendChatMessage | Frontend_React/src/context/ChatContext.jsx:165-191 | nothing happens exactly for a blank message or without a connection; otherwise one pending entry with a fresh id, the trimmed text and the given source language (or `auto` when none is passed) is appended, and exactly that data is sent |
| ChatClient.AsSendData | Backend/index.js:163-167 | what the server reads from the client's data keeps its author, text and id |
| ChatClient.EchoReplacesPending | Frontend_React/src/context/ChatContext.jsx:61-82 | when the server's copy of a sent message comes back, it keeps the generated id and replaces the pending entry, leaving one entry with that id, no longer pending, whose original is the text sent |
| ChatClient.RetryMessage | Frontend_React/src/context/ChatContext.jsx:193-219 | without a connection only the status line changes; otherwise every entry with the failed id becomes the failed entry, pending with a new time, and that is sent |
| ChatClient.RetryKeepsPlace | Frontend_React/src/context/ChatContext.jsx:207-212 | a retried entry stays in place, pending, with its id and text |
| ChatClient.ChangeLanguage | Frontend_React/src/context/ChatContext.jsx:222-230 | the language always changes, and the server is told only inside a joined room |
| ChatClient.JoinChatRoom | Frontend_React/src/context/ChatContext.jsx:150-162 | the name, room and language are set and the room joined, messages unchanged; the server hears the name and then the join exactly when connected |
| ChatClient.LeaveRoom | Frontend_React/src/context/ChatContext.jsx:233-241 | leaving resets name, room, messages, users and language and reports it, keeping the connection |
| ChatClient.LeaveThenRejoin | Frontend_React/src/context/ChatContext.jsx:150-241 | after leaving, changing the language tells the server nothing, and joining again emits what the first join did |
| Helper.Substring | Frontend_React/src/utils/helper.js:35 | `substring` with clamped ends returns at most `to - from` characters, the slice when `from` is within the string and nothing past its end |
| Helper.GenerateMessageId | Frontend_React/src/utils/helper.js:34-36 | a message id starts with the author and a dash, and is at most seven characters longer than author, time and two dashes |
| Helper.MessageIdParts | Frontend_React/src/utils/helper.js:34-36 | an id splits back after the author into the decimal time, a dash and the random part of at most seven characters |
| Helper.Get | Frontend_React/src/utils/helper.js:41-42 | `params.get` finds a value exactly when some pair has that key, and the value is the one of the first such pair |
| Helper.ParseUrlParams | Frontend_React/src/utils/helper.js:38-45 | both parameters come back trimmed: each is the trimmed value of the first pair with its key, and empty when no pair has that key |
| Helper.SearchOf | Frontend_React/src/utils/helper.js:39 | the search part of a URL is empty or starts with `?` |
| Helper.ShareLinkRoundTrip | Frontend_React/src/utils/helper.js:55-57 | opening a share link gives back the room and user name it was made from, trimmed, when encoding leaves no `&` and decoding undoes it |
| Helper.ShareLinkParams | Frontend_React/src/utils/helper.js:55-57 | the search part of `origin?k1=v1&k2=v2` reads as exactly the two decoded pairs, in order |
| Theme.InitialMode | Frontend_React/src/context/ThemeContext.jsx:11-15 | the initial mode is the stored value whenever it is non-empty, whatever it is, and `system` otherwise |
| Theme.ToggleTheme | Frontend_React/src/context/ThemeContext.jsx:42-46 | a known mode is taken and anything else leaves the mode unchanged |
| Theme.EffectiveTheme | Frontend_React/src/context/ThemeContext.jsx:34-36 | `system` mode applies the operating system's preference and any other mode applies itself |
| Theme.Persist | Frontend_React/src/context/ThemeContext.jsx:39 | the mode is written under `theme-mode` and every other stored key is kept |
| Theme.KnownModesApplyLightOrDark | Frontend_React/src/context/ThemeContext.jsx:5-53 | a known mode always applies light or dark, and toggling keeps the mode known |
| Theme.UnknownStoredModeIsApplied | Frontend_React/src/context/ThemeContext.jsx:11-15 | a stored value that is not a mode is applied as it is, as a theme that is neither light nor dark |
| Theme.ModePersists | Frontend_React/src/context/ThemeContext.jsx:11-46 | the mode chosen survives a reload: what is persisted is what is read back |
| Theme.SystemPreference | Frontend_React/src/context/ThemeContext.jsx:17-27 | the operating system's preference is always light or dark |

## Left out

- Transport and wiring are not modelled. This covers the Express app and routers, socket.io connection management, `useSocket.js`, `Frontend_TS/src/context/chatContext.tsx`, the HTTPS agent of `lingoClient.ts`, and JSX rendering. Their decisions arrive as parameters or events.
- Timers are not modelled: `sleep`, `setTimeout`/`setInterval` and the 23-hour refresh. Backoff advances an explicit clock instead of waiting.
- Concurrency is not modelled. Each handler runs to completion, and `translateText` is sequential, as written.
- Foreign libraries are uninterpreted functions: bcrypt, `jsonwebtoken`, zod's email check, Mongoose queries and indexes, and `path.extname`/`path.basename`.
- The only uniqueness modelled is the schema's `unique` index, as a check on insert. Collections are insertion-ordered sequences.
- Mongo leaves the order of history entries with equal `createdAt` unspecified. The model takes insertion order.
- Lengths (zod `min`, Mongoose `minlength`/`maxlength`, `slice`, and the client-side `.length` checks in Frontend_TS/src/pages/Dashboard/HomePage.tsx:108 and Frontend_TS/src/pages/Auth/RegisterPage.tsx:28,39) count Unicode code points, not UTF-16 code units. The exception is the upload file-name sanitiser, where UTF-16 code units matter and are modelled.
- `toLowerCase` is modelled on ASCII letters only. Other letters keep their case.
- The order of keys in a message's `reactions` object is modelled as the order of a sequence of entries.
- Console logging is not modelled, nor `initClient` and the provider's engine set-up.
- `helper.js` `formatTime` and `updateUrlParams` (locale formatting, the History API) are not modelled.
- URL fragments in share links are not modelled.
- Not modelled from `HomePage.tsx`: `handleJoinById`, `handleDeleteRoom`, `copyToClipboard` and `startDemoMode` (navigation, clipboard, demo data).
- The refresh-token, logout-session, room-search and image-upload endpoints that the routers name are not part of this model.
- The backend's auth replies are `{user, token}`, while the clients read `accessToken`/`refreshToken`. Each side is modelled as written: the client receives its reply as a value.
- None of the backend files here contain per-connection rate limiting, markup sanitisation, a 2000-character message limit, a reaction store or streamed translation fan-out, so none are modelled.
- Backend_TS has no `create_room` socket handler, although the TypeScript client's event types declare one. The dashboard's request and reply are modelled from the client side only.
- Some behaviour is modelled as written rather than as intended:
  - `send_message` stores the author the client sends (`chat.socket.ts:34`).
  - A failure `isRetryableError` rejects is still re-attempted, without sleeping.
  - 5xx responses are retryable only when their message carries one of the network keywords.
- Scripts.HelperDetect: the four accent classes of `helper.js` (es, fr, pt, de) are not legible as letters in the file's text. They are abstract character sets, and the helper's lemmas hold for any such sets, or for any sets without ASCII letters.
- TranslationService.AttemptsClock: the clock advances only by the backoff sleeps. The source's `Date.now()` also moves while each request is in flight, and request duration is not modelled.
- TranslationService.Remember: the expiry stamp is the modelled clock after the attempt loop, which is the start time plus the sleeps. Request time is not counted, as for AttemptsClock.
- TranslationService.Fetch: the cache stamp uses the modelled clock, which does not count request time, as for AttemptsClock.
- TranslationService.SingleForProvider: the cache stamp uses the modelled clock, which does not count request time, as for AttemptsClock.
- ChatService.GetRoomHistory: the model assumes that the clock never runs backwards. Every store operation requires a `now` no earlier than any stored `createdAt`, and the store's invariant keeps `createdAt` ascending in insertion order. Under that assumption the source's `sort({createdAt: -1}).limit(50)` followed by `reverse()` is the last 50 of the room's messages in insertion order. Nothing in the source guarantees such a clock.
- ChatService.HistoryIsNewest: proved from the ascending-`createdAt` invariant of the store, as for GetRoomHistory, not from a modelled sort.
- RoomService.DeleteRoom: a database that answers some calls and then fails (after `deleteMany`, say) is not modelled. The database either answers every call or fails before anything is written. The same holds for CreateRoom and UpdateRoomMode.
- ChatClient.OnMessageStatus: modelled as written, but unreachable in the program: Frontend_React/src/hooks/useSocket.js:50-65 subscribes no `message_status` event and the server emits none.
- Locales.Resolve: the locale tables are plain JS objects, so `localeMap[code] ?? code` on a code naming an inherited `Object.prototype` property (`constructor`, `toString`, `valueOf`, `hasOwnProperty`, `__proto__`, …) yields that inherited value, a function or object, not a string. The model looks codes up as own keys only and passes such a code through unchanged, because a non-string locale has no place in the string-typed model.
- Locales.ToLocaleCases: its last clause, "the code itself for every other code", holds in the source only for codes that are not inherited `Object.prototype` property names; for those the source returns the inherited member (see `Locales.Resolve`).
- LegacyServer.Memo: the legacy history entry starts with `translations: {}` (Backend/index.js:177), so for a language code naming an inherited `Object.prototype` property the test `!entry.translations[targetLang]` (index.js:112) sees a truthy value and skips translating, and `entry.translations[targetLang] ?? entry.original` (index.js:131) sends that inherited value as the line. The model's translations map has own keys only, so it translates and stores under such a code; this also applies to `LegacyServer.JoinHistoryTranslated` and `LegacyServer.MemoOnce`.
- ChatClient.JoinChatRoom: whether the socket object exists is folded into `isConnected`.
- ChatClient.ChangeLanguage: whether the socket object exists is folded into `isConnected`.
- `MessageBubble.ShowsReplyPreview` and `AuthContext.IsAuthenticated` are predicates that other members' contracts use. They carry no contract of their own. `IsAuthenticated` follows the code's truthiness, so an empty token is not signed in.

=== FILE: auth_context.dfy ===
/** The session store of `Frontend_TS/src/context/AuthContext.tsx`: the signed-in user and
    access token held in memory and mirrored in `localStorage` under `accessToken`, `user`
    and `refreshToken`. Storage is a map from keys to strings; `JSON.stringify`/`JSON.parse`
    of a user and the reply of the refresh endpoint are parameters. */
module AuthContext {
  import opened Base

  const AccessTokenKey := "accessToken"
  const UserKey := "user"
  const RefreshTokenKey := "refreshToken"

  datatype User = User(id: string, username: string, role: string)

  /** `localStorage`: `getItem` of a missing key is `null`, written `k !in storage`. */
  type Storage = map<string, string>

  /** What `JSON.parse` of the stored text gives: a user, `null`, or a thrown `SyntaxError`. */
  datatype Parsed = ParsedUser(user: User) | ParsedNull | Malformed

  datatype AuthState = AuthState(user: Option<User>, token: Option<string>, storage: Storage)

  /** `parseStoredUser`: nothing for a missing or empty entry; an entry that does not parse
      is removed from storage. */
  function ParseStoredUser(storage: Storage, parse: string -> Parsed): (r: (Option<User>, Storage))
    ensures UserKey !in storage || storage[UserKey] == "" ==> r == (None, storage)
    ensures UserKey in storage && storage[UserKey] != "" ==>
              match parse(storage[UserKey])
              case ParsedUser(u) => r == (Some(u), storage)
              case ParsedNull => r == (None, storage)
              case Malformed => r.0.None? && r.1.Keys == storage.Keys - {UserKey}
    ensures forall k :: k in r.1 ==> k in storage && r.1[k] == storage[k]
    ensures forall k :: k in storage && k != UserKey ==> k in r.1
  {
    if UserKey !in storage || storage[UserKey] == "" then (None, storage)
    else match parse(storage[UserKey])
      case ParsedUser(u) => (Some(u), storage)
      case ParsedNull => (None, storage)
      case Malformed => (None, storage - {UserKey})
  }

  /** Reading the stored user a second time finds what the first reading found, and
      changes nothing more. */
  lemma ParseStoredUserStable(storage: Storage, parse: string -> Parsed)
    ensures var (u, s1) := ParseStoredUser(storage, parse);
            ParseStoredUser(s1, parse) == (u, s1)
  {
  }

  /** The provider's initial state: the stored user as parsed, and the stored access token
      as it is, even when empty. */
  function Init(storage: Storage, parse: string -> Parsed): (st: AuthState)
    ensures st.token.Some? <==> AccessTokenKey in storage
    ensures st.token.Some? ==> st.token.value == storage[AccessTokenKey]
    ensures st.user.Some? ==> UserKey in storage && parse(storage[UserKey]) == ParsedUser(st.user.value)
  {
    var (user, storage') := ParseStoredUser(storage, parse);
    var token := if AccessTokenKey in storage then Some(storage[AccessTokenKey]) else None;
    AuthState(user, token, storage')
  }

  /** `isAuthenticated`: a non-empty token and a user. */
  predicate IsAuthenticated(st: AuthState) {
    st.token.Some? && st.token.value != "" && st.user.Some?
  }

  /** `login`: the token and user in memory and in storage; the refresh token only when
      one is given and non-empty, otherwise the stored one stays. */
  function Login(st: AuthState, token: string, user: User, refreshToken: Option<string>,
                 stringify: User -> string): (r: AuthState)
    ensures r.token == Some(token) && r.user == Some(user)
    ensures token != "" ==> IsAuthenticated(r)
    ensures AccessTokenKey in r.storage && r.storage[AccessTokenKey] == token
    ensures UserKey in r.storage && r.storage[UserKey] == stringify(user)
    ensures refreshToken.Some? && refreshToken.value != "" ==>
              RefreshTokenKey in r.storage && r.storage[RefreshTokenKey] == refreshToken.value
    ensures refreshToken.None? || refreshToken.value == "" ==>
              (RefreshTokenKey in r.storage <==> RefreshTokenKey in st.storage)
              && (RefreshTokenKey in st.storage ==> r.storage[RefreshTokenKey] == st.storage[RefreshTokenKey])
    ensures forall k :: k !in {AccessTokenKey, UserKey, RefreshTokenKey} ==>
              (k in r.storage <==> k in st.storage) && (k in st.storage ==> r.storage[k] == st.storage[k])
  {
    var s := st.storage[AccessTokenKey := token][UserKey := stringify(user)];
    var s' := if refreshToken.Some? && refreshToken.value != "" then s[RefreshTokenKey := refreshToken.value] else s;
    AuthState(Some(user), Some(token), s')
  }

  /** `logout`: memory and the three storage entries cleared; other keys stay. */
  function Logout(st: AuthState): (r: AuthState)
    ensures !IsAuthenticated(r) && r.user.None? && r.token.None?
    ensures AccessTokenKey !in r.storage && UserKey !in r.storage && RefreshTokenKey !in r.storage
    ensures forall k :: k !in {AccessTokenKey, UserKey, RefreshTokenKey} ==>
              (k in r.storage <==> k in st.storage) && (k in st.storage ==> r.storage[k] == st.storage[k])
  {
    AuthState(None, None, st.storage - {AccessTokenKey, UserKey, RefreshTokenKey})
  }

  /** A reload after logging in restores the same session, provided parsing undoes
      stringifying. */
  lemma ReloadAfterLogin(st: AuthState, token: string, user: User, refreshToken: Option<string>,
                         stringify: User -> string, parse: string -> Parsed)
    requires stringify(user) != "" && parse(stringify(user)) == ParsedUser(user)
    ensures var r := Login(st, token, user, refreshToken, stringify);
            var reloaded := Init(r.storage, parse);
            reloaded.user == r.user && reloaded.token == r.token && reloaded.storage == r.storage
  {
  }

  /** A reload after logging out is signed out, whatever parsing does. */
  lemma ReloadAfterLogout(st: AuthState, parse: string -> Parsed)
    ensures var r := Init(Logout(st).storage, parse);
            r.user.None? && r.token.None? && !IsAuthenticated(r)
  {
  }

  /** The reply of `POST /auth/refresh-token`: the new access token, or a failure. */
  type RefreshReply = Result<string, string>

  /** `refreshAccessToken`: without a stored (non-empty) refresh token nothing happens and no
      request is made; a new token replaces the old one in memory and in storage; a failed
      request logs out. */
  function RefreshAccessToken(st: AuthState, reply: RefreshReply): (r: AuthState)
    ensures RefreshTokenKey !in st.storage || st.storage[RefreshTokenKey] == "" ==> r == st
    ensures RefreshTokenKey in st.storage && st.storage[RefreshTokenKey] != "" && reply.Ok? ==>
              && r.user == st.user && r.token == Some(reply.value)
              && r.storage == st.storage[AccessTokenKey := reply.value]
              && RefreshTokenKey in r.storage && r.storage[RefreshTokenKey] == st.storage[RefreshTokenKey]
    ensures RefreshTokenKey in st.storage && st.storage[RefreshTokenKey] != "" && reply.Err? ==>
              r == Logout(st)
  {
    if RefreshTokenKey !in st.storage || st.storage[RefreshTokenKey] == "" then st
    else match reply
      case Ok(newToken) => AuthState(st.user, Some(newToken), st.storage[AccessTokenKey := newToken])
      case Err(_) => Logout(st)
  }

  /** A session that loses its refresh token to a failed refresh cannot refresh again: the
      next attempt is a no-op whatever the server would answer. */
  lemma FailedRefreshIsFinal(st: AuthState, first: RefreshReply, second: RefreshReply)
    requires first.Err?
    ensures var r := RefreshAccessToken(st, first);
            RefreshAccessToken(r, second) == r && (r == st || !IsAuthenticated(r))
  {
  }

  /** A successful refresh keeps a signed-in user signed in when the new token is not
      empty. */
  lemma RefreshKeepsSession(st: AuthState, newToken: string)
    requires IsAuthenticated(st) && newToken != ""
    ensures IsAuthenticated(RefreshAccessToken(st, Ok(newToken)))
  {
  }
}

=== FILE: auth_controller.dfy ===
/** The HTTP handlers of `Backend_TS/src/controllers/auth.controller.ts`: the request body is
    checked against a zod schema (every field, issues collected in field order), then the
    service is called; success answers 201 (register) or 200 (login), and any failure 400
    with the error's message. zod's email check, the rendering of a `ZodError` into its
    message, and the messages of the database's own errors are parameters. */
module AuthController {
  import opened Base
  import opened UserModel
  import AuthService

  const MinLength: nat := 6
  const UsernameTooShort := "Username must be at least 6 characters long"
  const PasswordTooShort := "Password must be at least 6 characters long"
  const InvalidEmail := "Invalid email address"
  const RequiredMessage := "Required"

  /** A property of the JSON body: absent, a string, or a value of another JSON type. */
  datatype Field = Absent | Text(text: string) | NotText(typeName: string)

  datatype RegisterBody = RegisterBody(username: Field, email: Field, password: Field)
  datatype LoginBody = LoginBody(username: Field, password: Field)

  /** One entry of `ZodError.issues`. */
  datatype Issue = Issue(path: string, message: string)

  datatype Reply = SessionReply(session: AuthService.Session) | ErrorReply(error: string)
  datatype Response = Response(status: nat, reply: Reply)

  /** `z.string()` followed by one refinement: an absent or non-string value fails the type
      check alone; a string fails only the refinement. */
  function StringIssues(path: string, f: Field, ok: string -> bool, message: string): (r: seq<Issue>)
    ensures |r| <= 1
    ensures r == [] <==> f.Text? && ok(f.text)
  {
    match f
    case Absent => [Issue(path, RequiredMessage)]
    case NotText(t) => [Issue(path, "Expected string, received " + t)]
    case Text(s) => if ok(s) then [] else [Issue(path, message)]
  }

  predicate LongEnough(s: string) {
    |s| >= MinLength
  }

  /** `registerSchema`'s issues, in the order of the schema's keys. */
  function RegisterIssues(b: RegisterBody, isEmail: string -> bool): seq<Issue> {
    StringIssues("username", b.username, LongEnough, UsernameTooShort)
    + StringIssues("email", b.email, isEmail, InvalidEmail)
    + StringIssues("password", b.password, LongEnough, PasswordTooShort)
  }

  /** `loginSchema`'s issues. */
  function LoginIssues(b: LoginBody): seq<Issue> {
    StringIssues("username", b.username, LongEnough, UsernameTooShort)
    + StringIssues("password", b.password, LongEnough, PasswordTooShort)
  }

  /** The register schema accepts exactly a username and a password of at least six
      characters and a string zod takes for an email address. */
  lemma RegisterSchemaExact(b: RegisterBody, isEmail: string -> bool)
    ensures RegisterIssues(b, isEmail) == [] <==>
              && b.username.Text? && |b.username.text| >= MinLength
              && b.email.Text? && isEmail(b.email.text)
              && b.password.Text? && |b.password.text| >= MinLength
  {
  }

  /** The message a failure carries to the client. */
  function FailureMessage(f: AuthService.Failure, dbMessage: CreateError -> string): string {
    match f
    case Thrown(m) => m
    case Rejected(e) => dbMessage(e)
  }

  /** `register`: 400 with the rendered issues when the schema refuses (nothing is written),
      otherwise the service's outcome as 201 or 400. */
  function Register(us: Users, b: RegisterBody, isEmail: string -> bool, render: seq<Issue> -> string,
                    dbMessage: CreateError -> string, hash: (string, nat) -> string,
                    secret: Option<string>, sign: AuthService.Signer, id: string, now: nat)
    : (r: (Response, Users))
    ensures r.0.status == 201 || r.0.status == 400
    ensures RegisterIssues(b, isEmail) != [] ==> r == (Response(400, ErrorReply(render(RegisterIssues(b, isEmail)))), us)
    ensures RegisterIssues(b, isEmail) == [] ==>
              var (s, us') := AuthService.Register(us, b.username.text, b.email.text, b.password.text,
                                                   hash, secret, sign, id, now);
              && r.1 == us'
              && (r.0.status == 201 <==> s.Ok?)
              && (s.Ok? ==> r.0.reply == SessionReply(s.value))
              && (s.Err? ==> r.0.reply == ErrorReply(FailureMessage(s.error, dbMessage)))
  {
    var issues := RegisterIssues(b, isEmail);
    if issues != [] then (Response(400, ErrorReply(render(issues))), us)
    else
      var (s, us') := AuthService.Register(us, b.username.text, b.email.text, b.password.text,
                                           hash, secret, sign, id, now);
      match s
      case Ok(session) => (Response(201, SessionReply(session)), us')
      case Err(f) => (Response(400, ErrorReply(FailureMessage(f, dbMessage))), us')
  }

  /** A 201 is only ever given for a body the schema accepts, and then names the account
      just stored, with the `user` role. */
  lemma RegisterCreatedOnlyForValidInput(us: Users, b: RegisterBody, isEmail: string -> bool,
                                         render: seq<Issue> -> string, dbMessage: CreateError -> string,
                                         hash: (string, nat) -> string, secret: Option<string>,
                                         sign: AuthService.Signer, id: string, now: nat)
    requires Register(us, b, isEmail, render, dbMessage, hash, secret, sign, id, now).0.status == 201
    ensures b.username.Text? && |b.username.text| >= MinLength
    ensures b.email.Text? && isEmail(b.email.text)
    ensures b.password.Text? && |b.password.text| >= MinLength
    ensures var (resp, us') := Register(us, b, isEmail, render, dbMessage, hash, secret, sign, id, now);
            && |us'| == |us| + 1 && us'[|us|].username == b.username.text
            && resp.reply == SessionReply(AuthService.Session(AuthService.PublicUser(id, b.username.text, UserRole), resp.reply.session.token))
  {
    RegisterSchemaExact(b, isEmail);
  }

  /** `login`: 400 with the rendered issues when the schema refuses (the accounts are not
      consulted), otherwise the service's outcome as 200 or 400. */
  function Login(us: Users, b: LoginBody, render: seq<Issue> -> string, compare: (string, string) -> bool,
                 secret: Option<string>, sign: AuthService.Signer): (r: Response)
    ensures r.status == 200 || r.status == 400
    ensures LoginIssues(b) != [] ==> r == Response(400, ErrorReply(render(LoginIssues(b))))
    ensures LoginIssues(b) == [] ==>
              var s := AuthService.Login(us, b.username.text, b.password.text, compare, secret, sign);
              && (r.status == 200 <==> s.Ok?)
              && (s.Ok? ==> r.reply == SessionReply(s.value))
              && (s.Err? ==> r.reply == ErrorReply(s.error.message))
  {
    var issues := LoginIssues(b);
    if issues != [] then Response(400, ErrorReply(render(issues)))
    else match AuthService.Login(us, b.username.text, b.password.text, compare, secret, sign)
      case Ok(session) => Response(200, SessionReply(session))
      case Err(f) => Response(400, ErrorReply(f.message))
  }

  /** Through the handler too, an unknown username and a wrong password are answered by the
      same response. */
  lemma LoginResponseHidesWhichCheckFailed(us: Users, known: string, unknown: string, password: string,
                                           render: seq<Issue> -> string, compare: (string, string) -> bool,
                                           secret: Option<string>, sign: AuthService.Signer)
    requires |known| >= MinLength && |unknown| >= MinLength && |password| >= MinLength
    requires FindByUsername(us, known).Some?
    requires !compare(password, us[FindByUsername(us, known).value].password)
    requires FindByUsername(us, unknown).None?
    ensures Login(us, LoginBody(Text(known), Text(password)), render, compare, secret, sign)
            == Login(us, LoginBody(Text(unknown), Text(password)), render, compare, secret, sign)
            == Response(400, ErrorReply(AuthService.BadCredentialsMessage))
  {
    AuthService.LoginHidesWhichCheckFailed(us, known, unknown, password, compare, secret, sign);
  }
}

=== FILE: auth_middleware.dfy ===
/** `authenticateJwt` of `Backend_TS/src/middlewares/auth.middleware.ts`: the bearer token is
    taken from the `Authorization` header, verified with `JWT_SECRET`, and either the request
    proceeds with `req.user = {id, role}` or a 401 answers it. `jwt.verify` and the
    environment variable are parameters. */
module AuthMiddleware {
  import opened Base
  import opened Text

  const BearerPrefix := "Bearer "
  const NoTokenMessage := "Unauthorized: No token provided"
  const TokenMissingMessage := "Unauthorized: Token missing"
  const InvalidTokenMessage := "Unauthorized: Invalid token"
  const InvalidFormatMessage := "Invalid token format"

  /** What `jwt.verify(token, secret)` does: throws (with its message), returns a string
      payload, or returns an object payload whose `id` and `role` may be missing. */
  datatype Verified = VerifyFailed(message: string) | StringPayload(payload: string)
                    | ObjectPayload(id: Option<string>, role: Option<string>)

  type Verifier = (string, string) -> Verified

  /** `req.user`. */
  datatype RequestUser = RequestUser(id: Option<string>, role: Option<string>)

  /** The middleware either answers 401 with an error body, or calls `next()` once. */
  datatype Outcome = Deny(status: nat, error: string) | Next(user: RequestUser)

  /** `s.split(" ")[1]`: the second space-separated segment, `None` (`undefined`) when the
      string has no space. */
  function SecondWord(s: string): (r: Option<string>)
    ensures r.Some? <==> ' ' in s
    ensures r.Some? ==> ' ' !in r.value
  {
    var parts := Split(s, ' ');
    if |parts| >= 2 then Some(parts[1]) else None
  }

  /** The characters of `s` up to its first space. */
  function UpToSpace(s: string): (r: string)
    ensures ' ' !in r && StartsWith(s, r)
    ensures r == s <==> ' ' !in s
  {
    match IndexOf(s, ' ')
    case None => s
    case Some(i) => s[..i]
  }

  /** After a space-free `w` and a space, the second word is what follows up to the next
      space. */
  lemma SecondWordAfter(w: string, rest: string)
    requires ' ' !in w
    ensures SecondWord(w + [' '] + rest) == Some(UpToSpace(rest))
  {
    var s := w + [' '] + rest;
    assert s[|w|] == ' ';
    assert s[..|w|] == w;
    assert IndexOf(s, ' ') == Some(|w|);
    assert s[|w| + 1..] == rest;
    assert Split(s, ' ') == [w] + Split(rest, ' ');
    match IndexOf(rest, ' ')
    case None => {}
    case Some(i) => {
      assert Split(rest, ' ')[0] == rest[..i];
    }
  }

  /** The token of a header that passes the prefix check: what follows `"Bearer "` up to the
      next space. */
  lemma BearerToken(header: string)
    requires StartsWith(header, BearerPrefix)
    ensures SecondWord(header) == Some(UpToSpace(header[|BearerPrefix|..]))
  {
    assert header == "Bearer" + [' '] + header[|BearerPrefix|..];
    SecondWordAfter("Bearer", header[|BearerPrefix|..]);
  }

  /** `authenticateJwt`: the prefix check, then the token, then the secret, then
      verification and the payload's shape. */
  function Authenticate(header: Option<string>, secret: Option<string>, verify: Verifier): (r: Outcome)
    ensures r.Deny? ==> r.status == 401
    ensures (header.None? || !StartsWith(header.value, BearerPrefix)) <==> r == Deny(401, NoTokenMessage)
    ensures r == Deny(401, TokenMissingMessage) <==>
              header.Some? && StartsWith(header.value, BearerPrefix) && UpToSpace(header.value[|BearerPrefix|..]) == ""
  {
    match header
    case None => Deny(401, NoTokenMessage)
    case Some(h) =>
      if !StartsWith(h, BearerPrefix) then Deny(401, NoTokenMessage)
      else
        BearerToken(h);
        var token := SecondWord(h).value;
        if token == "" then Deny(401, TokenMissingMessage)
        else if secret.None? || secret.value == "" then Deny(401, InvalidTokenMessage)
        else match verify(token, secret.value)
          case VerifyFailed(_) => Deny(401, InvalidTokenMessage)
          case StringPayload(_) => Deny(401, InvalidFormatMessage)
          case ObjectPayload(id, role) => Next(RequestUser(id, role))
  }

  /** The request proceeds exactly when a non-empty bearer token verifies, under a set
      secret, to an object payload, and `req.user` then carries that payload's id and role. */
  lemma AuthenticateNextExactly(header: Option<string>, secret: Option<string>, verify: Verifier)
    ensures var r := Authenticate(header, secret, verify);
            r.Next? <==>
              && header.Some? && StartsWith(header.value, BearerPrefix)
              && var token := UpToSpace(header.value[|BearerPrefix|..]);
              && token != "" && secret.Some? && secret.value != ""
              && verify(token, secret.value).ObjectPayload?
    ensures var r := Authenticate(header, secret, verify);
            r.Next? ==>
              var v := verify(UpToSpace(header.value[|BearerPrefix|..]), secret.value);
              r.user == RequestUser(v.id, v.role)
  {
    if header.Some? && StartsWith(header.value, BearerPrefix) {
      BearerToken(header.value);
    }
  }

  /** A token without spaces sent as `"Bearer " + token` is the one verified. */
  lemma BearerRoundTrip(token: string, secret: string, verify: Verifier)
    requires token != "" && ' ' !in token && secret != ""
    ensures Authenticate(Some(BearerPrefix + token), Some(secret), verify)
            == match verify(token, secret)
               case VerifyFailed(_) => Deny(401, InvalidTokenMessage)
               case StringPayload(_) => Deny(401, InvalidFormatMessage)
               case ObjectPayload(id, role) => Next(RequestUser(id, role))
  {
    var h := BearerPrefix + token;
    assert StartsWith(h, BearerPrefix) by { assert h[..|BearerPrefix|] == BearerPrefix; }
    assert h[|BearerPrefix|..] == token;
    BearerToken(h);
  }
}

=== FILE: auth_service.dfy ===
/** `Backend_TS/src/services/auth.services.ts`: registration (unique username, hashed
    password, default role), login (one error for an unknown name and a wrong password)
    and token issuance. bcrypt's `hash`/`compare`, `jwt.sign` and the `JWT_SECRET`
    environment variable are parameters; document ids and the clock too. */
module AuthService {
  import opened Base
  import opened UserModel

  const UsernameTakenMessage := "Username already exists"
  const BadCredentialsMessage := "Invalid username or password"
  const NoSecretMessage := "JWT_SECRET is not defined in environment variables"
  /** bcrypt's cost factor. */
  const SaltRounds: nat := 10
  /** `expiresIn: '1h'`, in seconds. */
  const TokenLifetimeSeconds: nat := 3600

  /** The payload `jwt.sign` receives. */
  datatype Claims = Claims(id: string, username: string, role: Role)

  /** `jwt.sign(payload, secret, {expiresIn})`. */
  type Signer = (Claims, string, nat) -> string

  /** The `{user: {id, username, role}, token}` the service resolves with. */
  datatype PublicUser = PublicUser(id: string, username: string, role: Role)
  datatype Session = Session(user: PublicUser, token: string)

  /** A thrown `Error` with its message, or a rejection from `User.create`. */
  datatype Failure = Thrown(message: string) | Rejected(error: CreateError)

  /** `generateToken`: fails unless `JWT_SECRET` is set to a non-empty string; otherwise signs
      the account's id, username and role for one hour. */
  function GenerateToken(u: User, secret: Option<string>, sign: Signer): (r: Result<string, Failure>)
    ensures (secret.None? || secret == Some("")) <==> r == Err(Thrown(NoSecretMessage))
    ensures r.Ok? ==> r.value == sign(Claims(u.id, u.username, u.role), secret.value, TokenLifetimeSeconds)
  {
    if secret.None? || secret.value == "" then Err(Thrown(NoSecretMessage))
    else Ok(sign(Claims(u.id, u.username, u.role), secret.value, TokenLifetimeSeconds))
  }

  /** The session handed back for an account and its token. */
  function SessionOf(u: User, token: string): Session {
    Session(PublicUser(u.id, u.username, u.role), token)
  }

  /** `registerUser`: a taken username is refused before anything is written; otherwise the
      account is created with the hashed password, then the token is issued. A missing
      secret therefore fails the call after the account was stored. */
  function Register(us: Users, username: string, email: string, password: string,
                    hash: (string, nat) -> string, secret: Option<string>, sign: Signer,
                    id: string, now: nat): (r: (Result<Session, Failure>, Users))
    ensures FindByUsername(us, username).Some? ==> r == (Err(Thrown(UsernameTakenMessage)), us)
    ensures r.0.Ok? ==> |r.1| == |us| + 1 && r.1[..|us|] == us
    ensures r.0.Ok? ==> var u := r.1[|us|];
            && u.id == id && u.username == username && u.email == email
            && u.password == hash(password, SaltRounds) && u.role == UserRole
            && r.0.value.user == PublicUser(id, username, UserRole)
            && secret.Some? && r.0.value.token == sign(Claims(id, username, UserRole), secret.value, TokenLifetimeSeconds)
    ensures r.0 == Err(Thrown(NoSecretMessage)) ==> |r.1| == |us| + 1
    ensures r.0.Err? && r.0 != Err(Thrown(NoSecretMessage)) ==> r.1 == us
  {
    if FindByUsername(us, username).Some? then (Err(Thrown(UsernameTakenMessage)), us)
    else
      var d := Draft(username, email, hash(password, SaltRounds), None, None);
      match Create(us, d, id, now)
      case Err(e) => (Err(Rejected(e)), us)
      case Ok((u, us')) =>
        match GenerateToken(u, secret, sign)
        case Err(f) => (Err(f), us')
        case Ok(token) => (Ok(SessionOf(u, token)), us')
  }

  /** Registration outcomes, completely: a taken username, then a draft `User.create`
      refuses, then a missing secret; otherwise success. The collection stays valid. */
  lemma RegisterCases(us: Users, username: string, email: string, password: string,
                      hash: (string, nat) -> string, secret: Option<string>, sign: Signer,
                      id: string, now: nat)
    requires Valid(us) && !HasId(us, id)
    ensures var (r, us') := Register(us, username, email, password, hash, secret, sign, id, now);
            var d := Draft(username, email, hash(password, SaltRounds), None, None);
            && Valid(us')
            && (r == Err(Thrown(UsernameTakenMessage)) <==> FindByUsername(us, username).Some?)
            && (r.Err? && r.error.Rejected? <==> FindByUsername(us, username).None? && Create(us, d, id, now).Err?)
            && (r == Err(Thrown(NoSecretMessage)) <==>
                  FindByUsername(us, username).None? && Create(us, d, id, now).Ok? && (secret.None? || secret == Some("")))
  {
    var d := Draft(username, email, hash(password, SaltRounds), None, None);
    if FindByUsername(us, username).None? && Create(us, d, id, now).Ok? {
      CreateKeepsValid(us, d, id, now);
    }
  }

  /** `loginUser`: the same error when no account has the username and when the password
      does not match the stored hash; otherwise a token for the stored account. */
  function Login(us: Users, username: string, password: string, compare: (string, string) -> bool,
                 secret: Option<string>, sign: Signer): (r: Result<Session, Failure>)
    ensures (FindByUsername(us, username).None? || !compare(password, us[FindByUsername(us, username).value].password))
              <==> r == Err(Thrown(BadCredentialsMessage))
    ensures r.Err? ==> r.error.Thrown?
    ensures (FindByUsername(us, username).Some? && compare(password, us[FindByUsername(us, username).value].password))
              ==> var u := us[FindByUsername(us, username).value];
                  && ((secret.None? || secret == Some("")) <==> r == Err(Thrown(NoSecretMessage)))
                  && (secret.Some? && secret.value != "" ==>
                        r == Ok(SessionOf(u, sign(Claims(u.id, username, u.role), secret.value, TokenLifetimeSeconds))))
    ensures r.Ok? ==> exists i :: 0 <= i < |us| && us[i].username == username && compare(password, us[i].password)
                        && secret.Some? && r.value == SessionOf(us[i], sign(Claims(us[i].id, username, us[i].role), secret.value, TokenLifetimeSeconds))
  {
    match FindByUsername(us, username)
    case None => Err(Thrown(BadCredentialsMessage))
    case Some(i) =>
      var u := us[i];
      if !compare(password, u.password) then Err(Thrown(BadCredentialsMessage))
      else match GenerateToken(u, secret, sign)
        case Err(f) => Err(f)
        case Ok(token) => Ok(SessionOf(u, token))
  }

  /** A caller cannot tell an unknown username from a wrong password: both give the one
      error value. */
  lemma LoginHidesWhichCheckFailed(us: Users, known: string, unknown: string, password: string,
                                   compare: (string, string) -> bool, secret: Option<string>, sign: Signer)
    requires FindByUsername(us, known).Some?
    requires !compare(password, us[FindByUsername(us, known).value].password)
    requires FindByUsername(us, unknown).None?
    ensures Login(us, known, password, compare, secret, sign) == Login(us, unknown, password, compare, secret, sign)
    ensures Login(us, unknown, password, compare, secret, sign) == Err(Thrown(BadCredentialsMessage))
  {
  }

  /** Whoever registers can log in with the same password, provided bcrypt's `compare`
      accepts a password against its own hash, and gets back the account just created. */
  lemma RegisterThenLogin(us: Users, username: string, email: string, password: string,
                          hash: (string, nat) -> string, compare: (string, string) -> bool,
                          secret: Option<string>, sign: Signer, id: string, now: nat)
    requires Valid(us) && !HasId(us, id)
    requires compare(password, hash(password, SaltRounds))
    requires Register(us, username, email, password, hash, secret, sign, id, now).0.Ok?
    ensures var (r, us') := Register(us, username, email, password, hash, secret, sign, id, now);
            Login(us', username, password, compare, secret, sign) == r
  {
    var d := Draft(username, email, hash(password, SaltRounds), None, None);
    CreateKeepsValid(us, d, id, now);
  }
}

=== FILE: base.dfy ===
/** Small value types shared by every component: optional values, results, and the
    sequence operations (filtering, counting, de-duplicated lists) the handlers rely on. */
module Base {

  /** `undefined` / `null` in the source become `None`. */
  datatype Option<T> = None | Some(value: T) {
    function GetOr(default: T): T {
      if Some? then value else default
    }
  }

  /** A resolved or rejected promise, a returned value or a thrown error. */
  datatype Result<T, E> = Ok(value: T) | Err(error: E)

  /** The elements of `s` for which `keep` holds, in their original order
      (JavaScript's `Array.prototype.filter`). */
  function Filter<T>(s: seq<T>, keep: T -> bool): (r: seq<T>)
    ensures |r| <= |s|
    ensures forall x :: x in r ==> x in s && keep(x)
    ensures forall x :: x in s && keep(x) ==> x in r
    decreases |s|
  {
    if |s| == 0 then []
    else (if keep(s[0]) then [s[0]] else []) + Filter(s[1..], keep)
  }

  /** `Filter` distributes over concatenation. */
  lemma {:induction false} FilterAppend<T>(a: seq<T>, b: seq<T>, keep: T -> bool)
    ensures Filter(a + b, keep) == Filter(a, keep) + Filter(b, keep)
    decreases |a|
  {
    if |a| == 0 {
      assert a + b == b;
    } else {
      assert (a + b)[1..] == a[1..] + b;
      FilterAppend(a[1..], b, keep);
    }
  }

  /** Filtering keeps a sequence of which `keep` holds everywhere unchanged. */
  lemma {:induction false} FilterAllKept<T>(s: seq<T>, keep: T -> bool)
    requires forall i :: 0 <= i < |s| ==> keep(s[i])
    ensures Filter(s, keep) == s
    decreases |s|
  {
    if |s| > 0 {
      FilterAllKept(s[1..], keep);
    }
  }

  /** The number of occurrences of `x` in `s`. */
  function Count<T(==)>(s: seq<T>, x: T): (n: nat)
    ensures n <= |s|
    ensures n == 0 <==> x !in s
    decreases |s|
  {
    if |s| == 0 then 0
    else (if s[0] == x then 1 else 0) + Count(s[1..], x)
  }

  lemma {:induction false} CountAppend<T>(a: seq<T>, b: seq<T>, x: T)
    ensures Count(a + b, x) == Count(a, x) + Count(b, x)
    decreases |a|
  {
    if |a| == 0 {
      assert a + b == b;
    } else {
      assert (a + b)[1..] == a[1..] + b;
      CountAppend(a[1..], b, x);
    }
  }

  /** The first index at or after `from` of an element with the property, as a query for
      the first matching document scans a collection in insertion order. */
  function FirstIndex<T>(s: seq<T>, p: T -> bool, from: nat := 0): (r: Option<nat>)
    requires from <= |s|
    ensures r.Some? ==> from <= r.value < |s| && p(s[r.value])
    ensures r.Some? ==> forall k :: from <= k < r.value ==> !p(s[k])
    ensures r.None? <==> forall i :: from <= i < |s| ==> !p(s[i])
    decreases |s| - from
  {
    if from == |s| then None
    else if p(s[from]) then Some(from)
    else FirstIndex(s, p, from + 1)
  }

  predicate NoDuplicates<T(==)>(s: seq<T>) {
    forall i, j :: 0 <= i < j < |s| ==> s[i] != s[j]
  }

  /** Filtering a list without repetitions yields one without repetitions. */
  lemma {:induction false} FilterNoDuplicates<T>(s: seq<T>, keep: T -> bool)
    requires NoDuplicates(s)
    ensures NoDuplicates(Filter(s, keep))
    decreases |s|
  {
    if |s| > 0 {
      FilterNoDuplicates(s[1..], keep);
      assert s[0] !in s[1..];
    }
  }

  /** The last `n` elements of `s` (all of `s` when it is shorter). */
  function LastN<T>(s: seq<T>, n: nat): (r: seq<T>)
    ensures |r| == if |s| <= n then |s| else n
    ensures r == s[|s| - |r|..]
  {
    if |s| <= n then s else s[|s| - n..]
  }

  /** A window of the last `n` elements slides: appending to the window and cutting it back
      to `n` is the window of the extended sequence. */
  lemma LastNAppend<T>(s: seq<T>, x: T, n: nat)
    requires n > 0
    ensures LastN(LastN(s, n) + [x], n) == LastN(s + [x], n)
  {
    var w := LastN(s, n);
    if |s| >= n {
      assert w + [x] == (s + [x])[|s| - n..];
      assert (w + [x])[|w + [x]| - n..] == (s + [x])[|s + [x]| - n..];
    }
  }

  /** A non-empty sequence is its front followed by its last element. */
  lemma SplitLast<T>(s: seq<T>)
    requires |s| > 0
    ensures s == s[..|s| - 1] + [s[|s| - 1]]
  {
  }
}

=== FILE: chat_client.dfy ===
/** The chat state of the older client, `Frontend_React/src/context/ChatContext.jsx`: the
    message list with its optimistic entries and their msgId de-duplication, the status
    line, and the events sent to the server. Each handler is a function from the state and
    its input to the new state and the emitted events. The clock (`formatTime(new Date())`
    as a string), `Date.now()` and `Math.random` are parameters; whether the socket object
    exists is folded into `isConnected`. */
module ChatClient {
  import opened Base
  import opened Text
  import Helper
  import LegacyServer

  const Pending := "pending"
  const Failed := "failed"
  const DefaultLang := "en"
  const DefaultSourceLang := "auto"

  datatype Tone = Info | Success | Error

  /** The status line. */
  datatype Notice = Notice(text: string, tone: Tone)

  /** An entry of the message list. Entries spread from different sources carry different
      fields; a field left `undefined` is `None`. System entries have no author or id. */
  datatype ChatMessage = ChatMessage(system: bool, author: string, message: string,
                                     original: Option<string>, lang: Option<string>,
                                     msgId: Option<string>, time: string,
                                     status: Option<string>, error: Option<string>,
                                     room: Option<string>, sourceLang: Option<string>,
                                     targetLang: Option<string>)

  /** Events the client emits. */
  datatype ClientEmit = SetUsername(username: string) | JoinRoom(room: string, lang: string)
                      | SendMessage(data: ChatMessage) | SetLanguage(room: string, lang: string)

  datatype ClientState = ClientState(userName: string, room: string, lang: string, isJoined: bool,
                                     messages: seq<ChatMessage>, users: seq<LegacyServer.Member>,
                                     notice: Notice, isConnected: bool)

  /** The number of entries carrying `id`. */
  function CountId(ms: seq<ChatMessage>, id: string): nat
    decreases |ms|
  {
    if |ms| == 0 then 0 else (if ms[0].msgId == Some(id) then 1 else 0) + CountId(ms[1..], id)
  }

  lemma {:induction false} CountIdAppend(a: seq<ChatMessage>, b: seq<ChatMessage>, id: string)
    ensures CountId(a + b, id) == CountId(a, id) + CountId(b, id)
    decreases |a|
  {
    if |a| == 0 {
      assert a + b == b;
    } else {
      assert (a + b)[1..] == a[1..] + b;
      CountIdAppend(a[1..], b, id);
    }
  }

  /** After filtering out an id, no entry carries it. */
  lemma {:induction false} CountIdFiltered(ms: seq<ChatMessage>, id: string)
    ensures CountId(Filter(ms, (m: ChatMessage) => m.msgId != Some(id)), id) == 0
    decreases |ms|
  {
    if |ms| > 0 {
      var keep := (m: ChatMessage) => m.msgId != Some(id);
      CountIdFiltered(ms[1..], id);
      assert Filter(ms, keep) == (if keep(ms[0]) then [ms[0]] else []) + Filter(ms[1..], keep);
      CountIdAppend(if keep(ms[0]) then [ms[0]] else [], Filter(ms[1..], keep), id);
    }
  }

  /** The entry a `receive_message` payload becomes: its fields and the local time. */
  function Received(p: LegacyServer.Payload, now: string): (m: ChatMessage)
    ensures !m.system && m.msgId == Some(p.msgId) && m.status.None? && m.time == now
    ensures m.author == p.author && m.message == p.message && m.original == Some(p.original)
  {
    ChatMessage(false, p.author, p.message, Some(p.original), Some(p.lang), Some(p.msgId), now,
                None, None, None, None, None)
  }

  /** `onReceiveMessage`: an echo of the user's own message with an id replaces every entry
      with that id; anything else is appended. */
  function OnReceiveMessage(st: ClientState, p: LegacyServer.Payload, now: string): (r: ClientState)
    ensures r == st.(messages := r.messages, notice := Notice("New message from " + p.author, Info))
    ensures |r.messages| > 0 && r.messages[|r.messages| - 1] == Received(p, now)
    ensures !(p.author == st.userName && p.msgId != "") ==> r.messages == st.messages + [Received(p, now)]
    ensures p.author == st.userName && p.msgId != "" ==>
              && CountId(r.messages, p.msgId) == 1
              && forall m :: m in r.messages ==> (m in st.messages && m.msgId != Some(p.msgId)) || m == Received(p, now)
  {
    var final := Received(p, now);
    var messages := if p.author == st.userName && p.msgId != "" then
      var kept := Filter(st.messages, (m: ChatMessage) => m.msgId != Some(p.msgId));
      CountIdFiltered(st.messages, p.msgId);
      CountIdAppend(kept, [final], p.msgId);
      kept + [final]
    else st.messages + [final];
    st.(messages := messages, notice := Notice("New message from " + p.author, Info))
  }

  /** Receiving the same echo of one's own message twice leaves one copy of it. */
  lemma OwnEchoIdempotent(st: ClientState, p: LegacyServer.Payload, now: string)
    requires p.author == st.userName && p.msgId != ""
    ensures var once := OnReceiveMessage(st, p, now);
            OnReceiveMessage(once, p, now).messages == once.messages
  {
    ReplaceById(st.messages, p.msgId, Received(p, now));
  }

  /** Dropping the entries with `id` and appending `final`, which has that id, a second
      time changes nothing. */
  lemma ReplaceById(ms: seq<ChatMessage>, id: string, final: ChatMessage)
    requires final.msgId == Some(id)
    ensures var keep := (m: ChatMessage) => m.msgId != Some(id);
            Filter(Filter(ms, keep) + [final], keep) + [final] == Filter(ms, keep) + [final]
  {
    var keep := (m: ChatMessage) => m.msgId != Some(id);
    var kept := Filter(ms, keep);
    FilterAppend(kept, [final], keep);
    assert Filter([final], keep) == [] by {
      assert [final][1..] == [];
    }
    assert forall i :: 0 <= i < |kept| ==> keep(kept[i]) by {
      forall i | 0 <= i < |kept| ensures keep(kept[i]) {
        assert kept[i] in kept;
      }
    }
    FilterAllKept(kept, keep);
    assert kept + [] == kept;
  }

  /** `onRoomHistory`: the list becomes the history, each line keeping its time or taking
      the local one; the status line reports a non-empty history. */
  function OnRoomHistory(st: ClientState, lines: seq<LegacyServer.Line>, now: string): (r: ClientState)
    ensures |r.messages| == |lines|
    ensures forall i :: 0 <= i < |lines| ==>
              && r.messages[i].author == lines[i].author && r.messages[i].message == lines[i].message
              && r.messages[i].time == (if lines[i].time != "" then lines[i].time else now)
              && r.messages[i].msgId.None? && !r.messages[i].system
    ensures |lines| == 0 ==> r == st.(messages := [])
    ensures |lines| > 0 ==> r == st.(messages := r.messages, notice := Notice("Loaded " + NatToString(|lines|) + " previous messages", Info))
  {
    var messages := seq(|lines|, i requires 0 <= i < |lines| =>
      ChatMessage(false, lines[i].author, lines[i].message, None, None, None,
                  if lines[i].time != "" then lines[i].time else now, None, None, None, None, None));
    if |lines| > 0 then
      st.(messages := messages, notice := Notice("Loaded " + NatToString(|lines|) + " previous messages", Info))
    else st.(messages := messages)
  }

  /** `${error}` of an `error` that may be `undefined`. */
  function ShowError(error: Option<string>): string {
    error.GetOr("undefined")
  }

  /** `onMessageStatus`: every entry with the given id (`undefined` matches entries without
      one) takes the status and error; a failure is also reported. The client's socket hook
      never subscribes a `message_status` event and the server never emits one, so in the
      program as it stands this handler is never called; it is modelled as written. */
  function OnMessageStatus(st: ClientState, msgId: Option<string>, status: string, error: Option<string>)
    : (r: ClientState)
    ensures |r.messages| == |st.messages|
    ensures forall i :: 0 <= i < |st.messages| ==>
              r.messages[i] == (if st.messages[i].msgId == msgId then st.messages[i].(status := Some(status), error := error)
                                else st.messages[i])
    ensures status == Failed ==> r.notice == Notice("Failed to send message: " + ShowError(error), Error)
    ensures status != Failed ==> r.notice == st.notice
    ensures r == st.(messages := r.messages, notice := r.notice)
  {
    var messages := seq(|st.messages|, i requires 0 <= i < |st.messages| =>
      if st.messages[i].msgId == msgId then st.messages[i].(status := Some(status), error := error)
      else st.messages[i]);
    var notice := if status == Failed then Notice("Failed to send message: " + ShowError(error), Error) else st.notice;
    st.(messages := messages, notice := notice)
  }

  /** A status update is idempotent and touches only the entries with that id. */
  lemma MessageStatusIdempotent(st: ClientState, msgId: Option<string>, status: string, error: Option<string>)
    ensures var once := OnMessageStatus(st, msgId, status, error);
            && OnMessageStatus(once, msgId, status, error) == once
            && forall i :: 0 <= i < |st.messages| && st.messages[i].msgId != msgId ==> once.messages[i] == st.messages[i]
  {
    var once := OnMessageStatus(st, msgId, status, error);
    var twice := OnMessageStatus(once, msgId, status, error);
    assert twice.messages == once.messages;
  }

  /** `onTranslationError`: the notice and a system entry both say what failed. */
  function OnTranslationError(st: ClientState, msg: string, now: string): (r: ClientState)
    ensures |r.messages| == |st.messages| + 1 && r.messages[..|st.messages|] == st.messages
    ensures var m := r.messages[|st.messages|]; m.system && m.message == "Translation error: " + msg && m.msgId.None?
    ensures r.notice == Notice("Translation error: " + msg, Error)
  {
    var entry := ChatMessage(true, "", "Translation error: " + msg, None, None, None, now, None, None, None, None, None);
    st.(messages := st.messages + [entry], notice := Notice("Translation error: " + msg, Error))
  }

  /** `sendChatMessage`: nothing for a blank message or without a connection; otherwise a
      pending entry with a fresh id is appended and the same data is sent. The message is
      trimmed; `lang` serves as the target language too; a caller that passes no source
      language gets the parameter's default, `"auto"`. */
  function SendChatMessage(st: ClientState, message: string, sourceLang: Option<string>, now: nat,
                           random36: string, time: string): (r: (ClientState, seq<ClientEmit>))
    ensures AllSpace(message) || !st.isConnected <==> r == (st, [])
    ensures !AllSpace(message) && st.isConnected ==>
              && |r.0.messages| == |st.messages| + 1
              && var data := r.0.messages[|st.messages|];
              && r.0 == st.(messages := st.messages + [data])
              && r.1 == [SendMessage(data)]
              && data.message == Trim(message) && data.author == st.userName && data.status == Some(Pending)
              && data.msgId == Some(Helper.GenerateMessageId(st.userName, now, random36))
              && data.room == Some(st.room) && data.lang == Some(st.lang) && data.targetLang == Some(st.lang)
              && data.sourceLang == Some(if sourceLang.Some? then sourceLang.value else DefaultSourceLang)
              && data.time == time && !data.system
  {
    if AllSpace(message) || !st.isConnected then (st, [])
    else
      var msgId := Helper.GenerateMessageId(st.userName, now, random36);
      var data := ChatMessage(false, st.userName, Trim(message), None, Some(st.lang), Some(msgId), time,
                              Some(Pending), None, Some(st.room), Some(sourceLang.GetOr(DefaultSourceLang)), Some(st.lang));
      (st.(messages := st.messages + [data]), [SendMessage(data)])
  }

  /** What the server reads from the data the client sends. An absent room reads as `""`. */
  function AsSendData(m: ChatMessage): (d: LegacyServer.SendData)
    ensures d.author == m.author && d.message == m.message && d.msgId == m.msgId
  {
    LegacyServer.SendData(m.room.GetOr(""), m.author, m.message, m.time, m.sourceLang, m.msgId, m.targetLang)
  }

  /** The round trip of a message: the server keeps the id the client generated, and when
      the server's copy for the sender comes back, it replaces the pending entry, which is
      then the only entry with that id and carries the text that was sent. */
  lemma EchoReplacesPending(st: ClientState, message: string, sourceLang: Option<string>, now: nat,
                            random36: string, time: string, serverNow: nat,
                            p: LegacyServer.Payload, later: string)
    requires !AllSpace(message) && st.isConnected
    requires var (st1, out) := SendChatMessage(st, message, sourceLang, now, random36, time);
             var d := AsSendData(out[0].data);
             LegacyServer.Faithful(p, d, LegacyServer.MsgIdOf(d, serverNow))
    ensures var (st1, out) := SendChatMessage(st, message, sourceLang, now, random36, time);
            var id := out[0].data.msgId.value;
            var st2 := OnReceiveMessage(st1, p, later);
            && p.msgId == id
            && CountId(st2.messages, id) == 1
            && st2.messages[|st2.messages| - 1].status.None?
            && st2.messages[|st2.messages| - 1].original == Some(Trim(message))
  {
  }

  /** `retryMessage`: without a connection only the notice changes; otherwise every entry
      with the failed entry's id becomes the failed entry, pending again with a new time,
      and that is sent. */
  function RetryMessage(st: ClientState, failed: ChatMessage, time: string): (r: (ClientState, seq<ClientEmit>))
    ensures !st.isConnected ==> r == (st.(notice := Notice("Not connected. Cannot retry.", Error)), [])
    ensures st.isConnected ==>
              var retry := failed.(status := Some(Pending), time := time);
              && r.1 == [SendMessage(retry)]
              && r.0.notice == Notice("Retrying message...", Info)
              && |r.0.messages| == |st.messages|
              && forall i :: 0 <= i < |st.messages| ==>
                   r.0.messages[i] == (if st.messages[i].msgId == failed.msgId then retry else st.messages[i])
  {
    if !st.isConnected then (st.(notice := Notice("Not connected. Cannot retry.", Error)), [])
    else
      var retry := failed.(status := Some(Pending), time := time);
      var messages := seq(|st.messages|, i requires 0 <= i < |st.messages| =>
        if st.messages[i].msgId == failed.msgId then retry else st.messages[i]);
      (st.(messages := messages, notice := Notice("Retrying message...", Info)), [SendMessage(retry)])
  }

  /** Retrying an entry of the list leaves it in place, pending, with its id and text. */
  lemma RetryKeepsPlace(st: ClientState, i: nat, time: string)
    requires st.isConnected && i < |st.messages|
    ensures var r := RetryMessage(st, st.messages[i], time).0;
            && r.messages[i].status == Some(Pending) && r.messages[i].msgId == st.messages[i].msgId
            && r.messages[i].message == st.messages[i].message
  {
  }

  /** `changeLanguage`: the language always changes; the server is told only inside a
      joined room. */
  function ChangeLanguage(st: ClientState, newLang: string): (r: (ClientState, seq<ClientEmit>))
    ensures r.0 == st.(lang := newLang)
    ensures r.1 == (if st.isJoined && st.room != "" && st.isConnected then [SetLanguage(st.room, newLang)] else [])
  {
    (st.(lang := newLang), if st.isJoined && st.room != "" && st.isConnected then [SetLanguage(st.room, newLang)] else [])
  }

  /** `joinChatRoom`: the name, room and language are set and the server is told. */
  function JoinChatRoom(st: ClientState, room: string, username: string, language: string)
    : (r: (ClientState, seq<ClientEmit>))
    ensures r.0.userName == username && r.0.room == room && r.0.lang == language && r.0.isJoined
    ensures r.0.messages == st.messages && r.0.isConnected == st.isConnected
    ensures st.isConnected <==> r.1 == [SetUsername(username), JoinRoom(room, language)]
    ensures !st.isConnected ==> r.1 == []
  {
    (st.(userName := username, room := room, lang := language, isJoined := true,
         notice := Notice("Joined room " + room, Success)),
     if st.isConnected then [SetUsername(username), JoinRoom(room, language)] else [])
  }

  /** `leaveRoom`: back to the initial room state, the connection aside. The server is not
      told. */
  function LeaveRoom(st: ClientState): (r: ClientState)
    ensures r.userName == "" && r.room == "" && r.messages == [] && r.users == [] && r.lang == DefaultLang
    ensures !r.isJoined && r.isConnected == st.isConnected
    ensures r.notice == Notice("Left the room.", Info)
  {
    ClientState("", "", DefaultLang, false, [], [], Notice("Left the room.", Info), st.isConnected)
  }

  /** After leaving, changing the language tells the server nothing, and joining again
      with the same name, room and language emits what the first join did. */
  lemma LeaveThenRejoin(st: ClientState, room: string, username: string, language: string, newLang: string)
    ensures ChangeLanguage(LeaveRoom(st), newLang).1 == []
    ensures JoinChatRoom(LeaveRoom(st), room, username, language).1 == JoinChatRoom(st, room, username, language).1
  {
  }
}

=== FILE: chat_service.dfy ===
/** `Backend_TS/src/services/chat.service.ts`: storing a chat message and reading a room's
    recent history, each turning any persistence failure into one fixed error. */
module ChatService {
  import opened Base
  import opened MessageModel

  const SaveFailedMessage := "Failed to save message"
  const HistoryFailedMessage := "Failed to fetch room history"
  const HistoryLimit: nat := 50

  /** The argument of `saveMessage`. */
  datatype SaveInput = SaveInput(room: string, author: string, message: string,
                                 sourceLang: Option<string>, msgId: string, replyTo: Option<ReplyTo>)

  /** The document `saveMessage` hands to `Message.create`: the text becomes `original`, the
      language `sourceLocale`, and `replyTo` is spread in only when the input has one. */
  function ToDraft(d: SaveInput): (r: Draft)
    ensures r.room == d.room && r.author == d.author && r.original == d.message
    ensures r.sourceLocale == d.sourceLang && r.msgId == d.msgId
    ensures r.replyTo.Some? <==> d.replyTo.Some?
    ensures d.replyTo.Some? ==> r.replyTo == d.replyTo
  {
    Draft(d.room, d.author, d.message, d.sourceLang, d.msgId, d.replyTo)
  }

  /** `saveMessage`: the created message and the collection after the insert, or the one
      error `Failed to save message` whatever made `create` reject. */
  function SaveMessage(s: Store, d: SaveInput, now: nat, dbUp: bool): (r: Result<(Message, Store), string>)
    requires Valid(s)
    requires forall i :: 0 <= i < |s| ==> s[i].createdAt <= now
    ensures r.Err? ==> r.error == SaveFailedMessage
    ensures r.Err? <==> Create(s, ToDraft(d), now, dbUp).Err?
    ensures r.Ok? ==> var (m, s') := r.value;
            && s' == s + [m] && Valid(s')
            && m.room == d.room && m.author == d.author && m.original == d.message
            && m.msgId == d.msgId && m.createdAt == now && m.translations == map[]
            && (m.replyTo.Some? <==> d.replyTo.Some?)
            && (d.replyTo.Some? ==> m.replyTo == d.replyTo)
            && (d.sourceLang.Some? ==> m.sourceLocale == d.sourceLang.value)
            && (d.sourceLang.None? ==> m.sourceLocale == DefaultSourceLocale)
  {
    match Create(s, ToDraft(d), now, dbUp)
    case Ok(v) => Ok(v)
    case Err(_) => Err(SaveFailedMessage)
  }

  predicate Ascending(ms: seq<Message>) {
    forall i, j :: 0 <= i < j < |ms| ==> ms[i].createdAt <= ms[j].createdAt
  }

  /** The messages of one room, in collection order (`Message.find({room})`). */
  function InRoom(s: Store, room: string): (r: seq<Message>)
    ensures |r| <= |s|
    ensures forall i :: 0 <= i < |r| ==> r[i].room == room
    ensures forall m :: m in r <==> m in s && m.room == room
    decreases |s|
  {
    if |s| == 0 then []
    else
      var rest := InRoom(s[1..], room);
      if s[0].room == room then [s[0]] + rest else rest
  }

  /** Selecting a room's messages keeps them in `createdAt` order. */
  lemma {:induction false} InRoomAscending(s: Store, room: string)
    requires Ascending(s)
    ensures Ascending(InRoom(s, room))
    decreases |s|
  {
    if |s| > 0 {
      assert Ascending(s[1..]) by {
        forall i, j | 0 <= i < j < |s[1..]| ensures s[1..][i].createdAt <= s[1..][j].createdAt {
          assert s[1..][i] == s[i + 1] && s[1..][j] == s[j + 1];
        }
      }
      InRoomAscending(s[1..], room);
      var rest := InRoom(s[1..], room);
      if s[0].room == room {
        forall j | 0 <= j < |rest| ensures s[0].createdAt <= rest[j].createdAt {
          assert rest[j] in s[1..];
        }
      }
    }
  }

  lemma ValidAscending(s: Store)
    requires Valid(s)
    ensures Ascending(s)
  {
  }

  lemma {:induction false} InRoomAppend(s: Store, m: Message, room: string)
    ensures InRoom(s + [m], room) == InRoom(s, room) + (if m.room == room then [m] else [])
    decreases |s|
  {
    if |s| == 0 {
      assert (s + [m])[1..] == [];
    } else {
      assert (s + [m])[1..] == s[1..] + [m];
      InRoomAppend(s[1..], m, room);
    }
  }

  /** `getRoomHistory`: `find({room}).sort({createdAt: -1}).limit(50)` reversed, i.e. the
      room's 50 newest messages, oldest first. Messages with the same `createdAt` keep
      collection order. */
  function GetRoomHistory(s: Store, room: string, dbUp: bool): (r: Result<seq<Message>, string>)
    ensures !dbUp <==> r.Err?
    ensures r.Err? ==> r.error == HistoryFailedMessage
    ensures r.Ok? ==> |r.value| == if |InRoom(s, room)| <= HistoryLimit then |InRoom(s, room)| else HistoryLimit
    ensures r.Ok? ==> forall i :: 0 <= i < |r.value| ==> r.value[i].room == room
  {
    if !dbUp then Err(HistoryFailedMessage)
    else Ok(LastN(InRoom(s, room), HistoryLimit))
  }

  /** The history window is ordered oldest to newest, and every message of the room left
      out of it is no newer than the oldest one shown: the room's messages are exactly the
      omitted older ones followed by the window. */
  lemma HistoryIsNewest(s: Store, room: string)
    requires Valid(s)
    ensures var h := GetRoomHistory(s, room, true).value;
            var all := InRoom(s, room);
            && Ascending(h)
            && |all| - |h| >= 0
            && all == all[..|all| - |h|] + h
            && (forall i, j :: 0 <= i < |all| - |h| && 0 <= j < |h| ==> all[i].createdAt <= h[j].createdAt)
  {
    var all := InRoom(s, room);
    ValidAscending(s);
    InRoomAscending(s, room);
    var h := LastN(all, HistoryLimit);
    var k := |all| - |h|;
    assert all == all[..k] + h;
    forall i, j | 0 <= i < j < |h| ensures h[i].createdAt <= h[j].createdAt {
      assert h[i] == all[k + i] && h[j] == all[k + j];
    }
    forall i, j | 0 <= i < k && 0 <= j < |h|
      ensures all[i].createdAt <= h[j].createdAt
    {
      assert h[j] == all[k + j];
    }
  }

  /** A message just saved is the newest entry of its room's history, after the previous
      window less its oldest entry when the window was full. */
  lemma SaveThenHistory(s: Store, d: SaveInput, now: nat)
    requires Valid(s)
    requires forall i :: 0 <= i < |s| ==> s[i].createdAt <= now
    requires SaveMessage(s, d, now, true).Ok?
    ensures var (m, s') := SaveMessage(s, d, now, true).value;
            var before := GetRoomHistory(s, d.room, true).value;
            var after := GetRoomHistory(s', d.room, true).value;
            && after[|after| - 1] == m
            && after == LastN(before + [m], HistoryLimit)
  {
    var (m, s') := SaveMessage(s, d, now, true).value;
    InRoomAppend(s, m, d.room);
    var all := InRoom(s, d.room);
    assert InRoom(s', d.room) == all + [m];
    LastNAppend(all, m, HistoryLimit);
  }
}

=== FILE: chat_socket.dfy ===
/** The connection handlers of `Backend_TS/src/sockets/chat.socket.ts`, each modelled as a
    function from the connection, the message collection and the client's event to the
    new state and the list of events emitted, in order. Whether the database answers and
    `Date.prototype.toISOString` are parameters. */
module ChatSocket {
  import opened Base
  import opened MessageModel
  import opened ChatService

  const AnonymousName := "Anonymous"

  /** `socket.data` together with the rooms the socket has joined. */
  datatype Connection = Connection(rooms: set<string>, username: Option<string>,
                                   room: Option<string>, lang: Option<string>)

  datatype JoinData = JoinData(room: string, lang: string)

  datatype SendData = SendData(room: string, author: string, message: string,
                               sourceLocale: Option<string>, msgId: string, replyTo: Option<ReplyTo>)

  /** A document's `replyTo` as read back: a nested path, not a subdocument, so it is an
      object even when nothing was stored there, and then each of its fields is
      `undefined` (`None`). */
  datatype NestedReply = NestedReply(msgId: Option<string>, author: Option<string>, message: Option<string>)

  function NestedOf(r: Option<ReplyTo>): (n: NestedReply)
    ensures r.None? <==> n == NestedReply(None, None, None)
    ensures r.Some? ==> n.msgId == Some(r.value.msgId) && n.author == Some(r.value.author)
                        && n.message == Some(r.value.message)
  {
    match r
    case None => NestedReply(None, None, None)
    case Some(reply) => NestedReply(Some(reply.msgId), Some(reply.author), Some(reply.message))
  }

  /** The `receive_message` payload; `reactions` is always the empty object, and `replyTo` is
      always attached, since the saved document's nested `replyTo` is always truthy. */
  datatype Payload = Payload(author: string, message: string, original: string, time: string,
                             msgId: string, lang: string, reactions: map<string, seq<string>>,
                             replyTo: NestedReply)

  datatype ServerEvent =
    | RoomHistory(messages: seq<Message>)
    | ErrorEvent(message: string)
    | UserJoined(message: string)
    | ReceiveMessage(payload: Payload)

  /** `socket.emit` reaches the connection itself, `io.to(room).emit` every socket in the
      room. */
  datatype Target = ToSelf | ToRoom(room: string)

  datatype Emit = Emit(to: Target, event: ServerEvent)

  /** `join_Room`: the socket joins the room and records room, language and the placeholder
      name; it alone receives the room's history, or an `error_event` when the fetch
      fails; then the whole room hears `user_joined`. */
  function JoinRoom(c: Connection, s: Store, d: JoinData, dbUp: bool): (r: (Connection, seq<Emit>))
    ensures r.0 == Connection(c.rooms + {d.room}, Some(AnonymousName), Some(d.room), Some(d.lang))
    ensures |r.1| == 2 && r.1[0].to == ToSelf
    ensures dbUp ==> r.1[0].event.RoomHistory?
                     && r.1[0].event.messages == GetRoomHistory(s, d.room, true).value
    ensures !dbUp ==> r.1[0].event == ErrorEvent(HistoryFailedMessage)
    ensures r.1[1] == Emit(ToRoom(d.room), UserJoined(AnonymousName))
  {
    var c' := Connection(c.rooms + {d.room}, Some(AnonymousName), Some(d.room), Some(d.lang));
    var first := match GetRoomHistory(s, d.room, dbUp)
                 case Ok(ms) => RoomHistory(ms)
                 case Err(e) => ErrorEvent(e);
    (c', [Emit(ToSelf, first), Emit(ToRoom(d.room), UserJoined(AnonymousName))])
  }

  /** The argument `send_message` passes to `saveMessage`; `replyTo` is copied only when the
      client sent one. */
  function ToSaveInput(d: SendData): SaveInput {
    SaveInput(d.room, d.author, d.message, d.sourceLocale, d.msgId, d.replyTo)
  }

  /** The broadcast built from the saved document. */
  function PayloadOf(m: Message, iso: nat -> string): (p: Payload)
    ensures p.message == p.original == m.original && p.author == m.author
    ensures p.msgId == m.msgId && p.lang == m.sourceLocale && p.time == iso(m.createdAt)
    ensures p.reactions == map[] && p.replyTo == NestedOf(m.replyTo)
  {
    Payload(m.author, m.original, m.original, iso(m.createdAt), m.msgId, m.sourceLocale, map[], NestedOf(m.replyTo))
  }

  /** `send_message`: save first; only a successful save is broadcast to the room named in
      the client's payload, and a failed save is swallowed without any emit. */
  function SendMessage(s: Store, d: SendData, now: nat, dbUp: bool, iso: nat -> string): (r: (Store, seq<Emit>))
    requires Valid(s)
    requires forall i :: 0 <= i < |s| ==> s[i].createdAt <= now
    ensures Valid(r.0)
    ensures |r.1| <= 1
    ensures r.1 == [] <==> r.0 == s
    ensures r.1 != [] ==> r.1[0].to == ToRoom(d.room) && r.1[0].event.ReceiveMessage?
                          && |r.0| == |s| + 1 && r.1[0].event.payload == PayloadOf(r.0[|s|], iso)
  {
    match SaveMessage(s, ToSaveInput(d), now, dbUp)
    case Ok((m, s')) => (s', [Emit(ToRoom(d.room), ReceiveMessage(PayloadOf(m, iso)))])
    case Err(_) => (s, [])
  }

  /** What the room hears is what the client sent: text, author (taken from the client, not
      from the authenticated user), id, language (`"auto"` when absent), no reactions, the
      save time, and a `replyTo` object in every case: the client's reply, or one with no
      fields when the client sent none. A broadcast happens
      exactly when the message could be stored. */
  lemma SendBroadcastsWhatWasSent(s: Store, d: SendData, now: nat, dbUp: bool, iso: nat -> string)
    requires Valid(s)
    requires forall i :: 0 <= i < |s| ==> s[i].createdAt <= now
    ensures var (s', out) := SendMessage(s, d, now, dbUp, iso);
            && (out != [] <==> dbUp && d.room != "" && d.author != "" && d.message != "" && d.msgId != ""
                               && !HasMsgId(s, d.msgId))
            && (out != [] ==>
                  var p := out[0].event.payload;
                  && p.author == d.author && p.message == d.message && p.original == d.message
                  && p.msgId == d.msgId && p.time == iso(now) && p.reactions == map[]
                  && p.lang == d.sourceLocale.GetOr(DefaultSourceLocale)
                  && p.replyTo == NestedOf(d.replyTo)
                  && (d.replyTo.None? <==> p.replyTo == NestedReply(None, None, None)))
  {
    var (s', out) := SendMessage(s, d, now, dbUp, iso);
    if out != [] {
      var (m, s2) := SaveMessage(s, ToSaveInput(d), now, dbUp).value;
      assert s' == s2 && s'[|s|] == m;
    }
  }

  /** Re-sending a message id that was already broadcast stores nothing and emits nothing:
      each `msgId` reaches the room at most once. */
  lemma ResendIsSilent(s: Store, d: SendData, now: nat, later: nat, iso: nat -> string)
    requires Valid(s)
    requires forall i :: 0 <= i < |s| ==> s[i].createdAt <= now
    requires now <= later
    requires SendMessage(s, d, now, true, iso).1 != []
    ensures var s' := SendMessage(s, d, now, true, iso).0;
            SendMessage(s', d, later, true, iso) == (s', [])
  {
    var s' := SendMessage(s, d, now, true, iso).0;
    assert s'[|s|].msgId == d.msgId;
    assert HasMsgId(s', d.msgId);
  }
}

=== FILE: cors_config.dfy ===
/** The allowed-origin lists: `corsOrigins` of `Backend_TS/src/config/cors.ts` (environment
    origins, then the built-in defaults, de-duplicated, empty entries dropped) and the list
    `Backend_TS/src/server.ts` hands to socket.io (the environment value or a default
    string, split on commas and trimmed). The `CORS_ORIGINS` variable is a parameter. */
module CorsConfig {
  import opened Base
  import opened Text

  const DefaultOrigins: seq<string> := [
    "http://localhost:5173",
    "http://127.0.0.1:5173",
    "http://localhost:5174",
    "http://localhost:5175",
    "https://linguachat-frmz.onrender.com",
    "https://lingua-chat.vercel.app"
  ]

  /** The fallback of `server.ts` when `CORS_ORIGINS` is unset or empty. */
  const ServerDefault := "http://localhost:5173" + "," + "http://127.0.0.1:5173" + ","
                         + "http://localhost:5174" + "," + "http://localhost:5175"

  /** `.map(o => o.trim())`. */
  function TrimAll(s: seq<string>): (r: seq<string>)
    ensures |r| == |s|
    ensures forall i :: 0 <= i < |s| ==> r[i] == Trim(s[i])
  {
    seq(|s|, i requires 0 <= i < |s| => Trim(s[i]))
  }

  /** `.filter(Boolean)` on strings: the non-empty ones, in order. */
  function NonEmpty(s: seq<string>): seq<string>
    decreases |s|
  {
    if |s| == 0 then []
    else (if s[0] == "" then [] else [s[0]]) + NonEmpty(s[1..])
  }

  lemma {:induction false} NonEmptyMembers(s: seq<string>)
    ensures forall x :: x in NonEmpty(s) <==> x in s && x != ""
    ensures NoDuplicates(s) ==> NoDuplicates(NonEmpty(s))
    decreases |s|
  {
    if |s| > 0 {
      NonEmptyMembers(s[1..]);
      assert NoDuplicates(s) ==> s[0] !in s[1..];
    }
  }

  /** `[...new Set(s)]`: the first occurrence of each element, in order. */
  function Dedup(s: seq<string>): seq<string>
    decreases |s|
  {
    if |s| == 0 then []
    else
      var init := s[..|s| - 1];
      var last := s[|s| - 1];
      Dedup(init) + (if last in init then [] else [last])
  }

  lemma {:induction false} DedupMembers(s: seq<string>)
    ensures NoDuplicates(Dedup(s))
    ensures forall x :: x in Dedup(s) <==> x in s
    decreases |s|
  {
    if |s| > 0 {
      var init := s[..|s| - 1];
      assert s == init + [s[|s| - 1]];
      DedupMembers(init);
    }
  }

  /** The elements of `b` that do not occur in `a`, in order. */
  function Without(b: seq<string>, a: seq<string>): seq<string>
    decreases |b|
  {
    if |b| == 0 then []
    else (if b[0] in a then [] else [b[0]]) + Without(b[1..], a)
  }

  lemma {:induction false} WithoutMembers(b: seq<string>, a: seq<string>)
    ensures forall x :: x in Without(b, a) <==> x in b && x !in a
    decreases |b|
  {
    if |b| > 0 {
      WithoutMembers(b[1..], a);
    }
  }

  lemma {:induction false} WithoutSnoc(b: seq<string>, y: string, a: seq<string>)
    ensures Without(b + [y], a) == Without(b, a) + (if y in a then [] else [y])
    decreases |b|
  {
    if |b| == 0 {
      assert (b + [y])[1..] == [];
    } else {
      assert (b + [y])[1..] == b[1..] + [y];
      WithoutSnoc(b[1..], y, a);
    }
  }

  /** `Dedup` one element at a time: a new element is kept, a repeated one dropped. */
  lemma DedupSnoc(s: seq<string>, y: string)
    ensures Dedup(s + [y]) == Dedup(s) + (if y in s then [] else [y])
  {
    var sy := s + [y];
    assert sy[..|sy| - 1] == s && sy[|sy| - 1] == y;
  }

  /** Appending distinct elements to a de-duplicated list adds those not seen before. */
  lemma {:induction false} DedupAppendDistinct(a: seq<string>, b: seq<string>)
    requires NoDuplicates(b)
    ensures Dedup(a + b) == Dedup(a) + Without(b, a)
    decreases |b|
  {
    if |b| == 0 {
      assert a + b == a;
    } else {
      var b' := b[..|b| - 1];
      var y := b[|b| - 1];
      assert b == b' + [y];
      assert a + b == (a + b') + [y];
      DedupSnoc(a + b', y);
      assert y !in b';
      DedupAppendDistinct(a, b');
      WithoutSnoc(b', y, a);
    }
  }

  lemma {:induction false} NonEmptyAppend(a: seq<string>, b: seq<string>)
    ensures NonEmpty(a + b) == NonEmpty(a) + NonEmpty(b)
    decreases |a|
  {
    if |a| == 0 {
      assert a + b == b;
    } else {
      assert (a + b)[1..] == a[1..] + b;
      NonEmptyAppend(a[1..], b);
    }
  }

  lemma {:induction false} NonEmptyKeeps(s: seq<string>)
    requires "" !in s
    ensures NonEmpty(s) == s
    decreases |s|
  {
    if |s| > 0 {
      NonEmptyKeeps(s[1..]);
    }
  }

  /** `envOrigins`: the variable split on commas and trimmed, or nothing when it is unset or
      empty. */
  function EnvOrigins(env: Option<string>): (r: seq<string>)
    ensures forall i :: 0 <= i < |r| ==> IsTrimmed(r[i])
    ensures env.Some? && env.value != "" ==> |r| >= 1
  {
    if env.None? || env.value == "" then [] else TrimAll(Split(env.value, ','))
  }

  /** `corsOrigins` of `cors.ts`. */
  function CorsOrigins(env: Option<string>): (r: seq<string>)
    ensures NoDuplicates(r) && "" !in r
    ensures forall d :: d in DefaultOrigins ==> d in r
    ensures forall x :: x in r <==> x != "" && (x in EnvOrigins(env) || x in DefaultOrigins)
  {
    var all := EnvOrigins(env) + DefaultOrigins;
    DedupMembers(all);
    NonEmptyMembers(Dedup(all));
    NonEmpty(Dedup(all))
  }

  /** The order of `corsOrigins`: the environment's origins in first-occurrence order, then
      the defaults it did not already name. */
  lemma CorsOriginsOrder(env: Option<string>)
    ensures CorsOrigins(env) == NonEmpty(Dedup(EnvOrigins(env))) + Without(DefaultOrigins, EnvOrigins(env))
  {
    DefaultsDistinct();
    MergeOrder(EnvOrigins(env), DefaultOrigins);
  }

  lemma DefaultsDistinct()
    ensures NoDuplicates(DefaultOrigins) && "" !in DefaultOrigins
  {
  }

  /** Merging a list with distinct, non-empty defaults. */
  lemma MergeOrder(e: seq<string>, defaults: seq<string>)
    requires NoDuplicates(defaults) && "" !in defaults
    ensures NonEmpty(Dedup(e + defaults)) == NonEmpty(Dedup(e)) + Without(defaults, e)
  {
    DedupAppendDistinct(e, defaults);
    NonEmptyAppend(Dedup(e), Without(defaults, e));
    WithoutMembers(defaults, e);
    NonEmptyKeeps(Without(defaults, e));
  }

  /** `.split(",").map(o => o.trim()).filter(Boolean)`. */
  function OriginList(source: string): seq<string> {
    NonEmpty(TrimAll(Split(source, ',')))
  }

  /** `process.env.CORS_ORIGINS || "..."`. */
  function ServerSource(env: Option<string>): string {
    if env.None? || env.value == "" then ServerDefault else env.value
  }

  /** `corsOrigins` of `server.ts`. */
  function ServerOrigins(env: Option<string>): seq<string> {
    OriginList(ServerSource(env))
  }

  /** Every origin `server.ts` allows is trimmed and non-empty. */
  lemma ServerOriginsClean(env: Option<string>)
    ensures var r := ServerOrigins(env);
            forall i :: 0 <= i < |r| ==> IsTrimmed(r[i]) && r[i] != ""
  {
    OriginListClean(ServerSource(env));
  }

  lemma OriginListClean(source: string)
    ensures var r := OriginList(source);
            forall i :: 0 <= i < |r| ==> IsTrimmed(r[i]) && r[i] != ""
  {
    var t := TrimAll(Split(source, ','));
    NonEmptyMembers(t);
    var r := NonEmpty(t);
    assert forall i :: 0 <= i < |r| ==> r[i] in t;
  }

  /** An origin a comma-separated list can carry as it is. */
  predicate Clean(origin: string) {
    IsTrimmed(origin) && origin != "" && ',' !in origin
  }

  /** A list of trimmed, non-empty, comma-free origins written comma-separated comes back
      unchanged, in order. */
  lemma ServerOriginsRoundTrip(origins: seq<string>)
    requires |origins| >= 1
    requires forall i :: 0 <= i < |origins| ==> Clean(origins[i])
    ensures ServerOrigins(Some(Join(origins, ','))) == origins
  {
    var joined := Join(origins, ',');
    JoinNonEmpty(origins, ',');
    OriginListRoundTrip(origins);
    SourceOfSet(joined);
  }

  lemma SourceOfSet(v: string)
    requires v != ""
    ensures ServerOrigins(Some(v)) == OriginList(v)
  {
  }

  lemma OriginListRoundTrip(origins: seq<string>)
    requires |origins| >= 1
    requires forall i :: 0 <= i < |origins| ==> Clean(origins[i])
    ensures OriginList(Join(origins, ',')) == origins
  {
    assert forall i :: 0 <= i < |origins| ==> ',' !in origins[i] && IsTrimmed(origins[i]) && origins[i] != "";
    SplitJoin(origins, ',');
    TrimAllTrimmed(origins);
    NonEmptyKeeps(origins);
  }

  lemma TrimAllTrimmed(s: seq<string>)
    requires forall i :: 0 <= i < |s| ==> IsTrimmed(s[i])
    ensures TrimAll(s) == s
  {
    forall i | 0 <= i < |s| ensures Trim(s[i]) == s[i] {
      TrimOfTrimmed(s[i]);
    }
  }

  lemma JoinNonEmpty(parts: seq<string>, sep: char)
    requires |parts| >= 1 && parts[0] != ""
    ensures Join(parts, sep) != ""
  {
  }

  /** Without the variable, `server.ts` allows the first four defaults of `cors.ts`. */
  lemma ServerDefaultOrigins()
    ensures ServerOrigins(None) == DefaultOrigins[..4]
  {
    var d := DefaultOrigins[..4];
    assert d == [DefaultOrigins[0], DefaultOrigins[1], DefaultOrigins[2], DefaultOrigins[3]];
    JoinFour(d[0], d[1], d[2], d[3], ',');
    assert ServerDefault == d[0] + [','] + d[1] + [','] + d[2] + [','] + d[3];
    assert forall i :: 0 <= i < |d| ==> Clean(d[i]);
    ServerOriginsRoundTrip(d);
  }

  lemma JoinFour(a: string, b: string, c: string, e: string, sep: char)
    ensures Join([a, b, c, e], sep) == a + [sep] + b + [sep] + c + [sep] + e
  {
    assert [a, b, c, e][1..] == [b, c, e];
    assert [b, c, e][1..] == [c, e];
    assert [c, e][1..] == [e];
    assert Join([c, e], sep) == c + [sep] + e;
    assert Join([b, c, e], sep) == b + [sep] + c + [sep] + e;
  }
}

=== FILE: dashboard.dfy ===
/** The room list of `Frontend_TS/src/pages/Dashboard/HomePage.tsx`: who the signed-in user
    is in each room, whose name is shown as the owner, the search over names and
    descriptions, the client-side checks before a `create_room` request and what the reply
    leads to, and the list update after a mode change. The HTTP calls, timers and
    navigation are left to the caller: their outcomes arrive as values. */
module Dashboard {
  import opened Base
  import opened Text
  import opened RoomModel
  import RoomService
  import RoomController

  const NameRequired := "Room name is required"
  const NameTooShort := "Room name must be at least 3 characters"
  const NotConnected := "Socket not connected. Please refresh or login again."
  const CreateFailed := "Failed to create room"
  const CreateTimedOut := "Timed out while creating room"
  const UnknownOwner := "Unknown"

  /** `RoomOwner | string`: a populated owner, or the owner's id as a string. A missing
      (`undefined`/`null`) owner behaves as the empty string and is written `ById("")`. */
  datatype Owner = Populated(id: string, username: string) | ById(value: string)

  /** A room as the list holds it; `None` is a field the response left out. */
  datatype ListedRoom = ListedRoom(id: string, name: string, description: Option<string>,
                                   mode: Mode, admins: Option<seq<string>>, owner: Owner)

  datatype Role = OwnerRole | AdminRole | MemberRole

  /** `getOwnerName`: the username of a populated owner, unless it is empty. */
  function OwnerName(room: ListedRoom): (name: string)
    ensures name != ""
    ensures name == UnknownOwner <==> room.owner.ById? || room.owner.username == "" || room.owner.username == UnknownOwner
    ensures room.owner.Populated? && room.owner.username != "" ==> name == room.owner.username
  {
    if room.owner.Populated? && room.owner.username != "" then room.owner.username else UnknownOwner
  }

  /** The id the role is decided on: `_id` of a populated owner, else the string itself. */
  function OwnerKey(o: Owner): string {
    match o
    case Populated(id, _) => id
    case ById(v) => v
  }

  /** `getUserRole`: nobody signed in is a member; the owner check comes before the admin
      list, which may be missing. */
  function UserRole(room: ListedRoom, user: Option<string>): (r: Role)
    ensures user.None? ==> r == MemberRole
    ensures r == OwnerRole <==> user.Some? && OwnerKey(room.owner) == user.value
    ensures r == AdminRole <==> user.Some? && OwnerKey(room.owner) != user.value
                                && room.admins.Some? && user.value in room.admins.value
  {
    if user.None? then MemberRole
    else if OwnerKey(room.owner) == user.value then OwnerRole
    else if room.admins.Some? && user.value in room.admins.value then AdminRole
    else MemberRole
  }

  /** Whether the owner arrives populated or as a bare id does not change anyone's role. */
  lemma RoleIgnoresPopulation(room: ListedRoom, user: Option<string>)
    requires room.owner.Populated?
    ensures UserRole(room, user) == UserRole(room.(owner := ById(room.owner.id)), user)
  {
  }

  /** The list entry built from a room the server's room listing returns. That listing
      selects no description; an owner whose user no longer exists arrives as `null`. */
  function FromView(v: RoomController.RoomView): (room: ListedRoom)
    ensures room.id == v.id && room.name == v.name && room.mode == v.mode
    ensures room.description.None? && room.admins == Some(v.admins)
    ensures v.owner.NoOwner? <==> room.owner == ById("")
  {
    var owner := match v.owner
      case OwnerRef(id, name) => Populated(id, name)
      case NoOwner => ById("");
    ListedRoom(v.id, v.name, None, v.mode, Some(v.admins), owner)
  }

  /** The dashboard offers room management exactly to those the server lets change the
      mode: a signed-in user the dashboard calls owner or admin passes the server's check,
      and, while the owner's account exists, the server's check passes only for them. */
  lemma ElevatedRoleMatchesServer(r: Room, username: string -> Option<string>, user: string)
    requires user != ""
    ensures var role := UserRole(FromView(RoomController.View(r, username)), Some(user));
            (role != MemberRole ==> RoomController.MayChangeMode(r, Some(user)))
            && (username(r.owner).Some? && RoomController.MayChangeMode(r, Some(user)) ==> role != MemberRole)
  {
  }

  /** The description condition: present, non-empty and containing the query. */
  predicate DescriptionMatches(description: Option<string>, q: string) {
    description.Some? && description.value != "" && Contains(LowerAscii(description.value), q)
  }

  /** The search condition for a lower-cased query. */
  predicate Matches(room: ListedRoom, q: string) {
    Contains(LowerAscii(room.name), q) || DescriptionMatches(room.description, q)
  }

  /** `filteredRooms`: a blank query shows every room; otherwise the rooms whose name or
      description contains the lower-cased query, which is NOT trimmed, in list order. */
  function FilteredRooms(rooms: seq<ListedRoom>, query: string): (r: seq<ListedRoom>)
    ensures AllSpace(query) ==> r == rooms
    ensures |r| <= |rooms|
    ensures !AllSpace(query) ==> forall x :: x in r <==> x in rooms && Matches(x, LowerAscii(query))
  {
    if AllSpace(query) then rooms
    else Filter(rooms, (x: ListedRoom) => Matches(x, LowerAscii(query)))
  }

  /** Searching the result of a search again with the same query changes nothing. */
  lemma FilteredRoomsIdempotent(rooms: seq<ListedRoom>, query: string)
    ensures FilteredRooms(FilteredRooms(rooms, query), query) == FilteredRooms(rooms, query)
  {
    if !AllSpace(query) {
      var keep := (x: ListedRoom) => Matches(x, LowerAscii(query));
      var once := Filter(rooms, keep);
      assert forall i :: 0 <= i < |once| ==> keep(once[i]) by {
        forall i | 0 <= i < |once| ensures keep(once[i]) {
          assert once[i] in once;
        }
      }
      FilterAllKept(once, keep);
    }
  }

  /** A room whose name equals the query up to ASCII case is always found. */
  lemma NameQueryFindsRoom(rooms: seq<ListedRoom>, query: string, room: ListedRoom)
    requires room in rooms && LowerAscii(room.name) == LowerAscii(query)
    ensures room in FilteredRooms(rooms, query)
  {
    ContainsAt(LowerAscii(room.name), LowerAscii(query), 0);
  }

  /** Because the query is lower-cased but not trimmed, a leading space hides a room that
      the query would otherwise find. */
  lemma PaddedQueryMisses()
    ensures var room := ListedRoom("1", "ab", None, Global, None, ById("u"));
            FilteredRooms([room], "ab") == [room] && FilteredRooms([room], " ab") == []
  {
    var room := ListedRoom("1", "ab", None, Global, None, ById("u"));
    assert LowerAscii("ab") == "ab";
    assert LowerAscii(" ab") == " ab";
    assert !AllSpace("ab") by { assert !IsSpace("ab"[0]); }
    assert !AllSpace(" ab") by { assert !IsSpace(" ab"[1]); }
    assert StartsWith("ab", "ab");
    assert !Contains("ab", " ab");
    assert !Matches(room, LowerAscii(" ab"));
  }

  /** Why a create request was not sent. */
  datatype Refusal = BlankName | ShortName | Offline(connectionError: Option<string>)

  /** The error the form shows for a refusal: a connection's own error when it has one. */
  function RefusalMessage(reason: Refusal): (m: string)
    ensures m != ""
    ensures reason.Offline? && reason.connectionError.Some? && reason.connectionError.value != "" ==>
              m == reason.connectionError.value
    ensures reason.Offline? && (reason.connectionError.None? || reason.connectionError.value == "") ==>
              m == NotConnected
  {
    match reason
    case BlankName => NameRequired
    case ShortName => NameTooShort
    case Offline(e) => if e.Some? && e.value != "" then e.value else NotConnected
  }

  /** What pressing "create" leads to before any reply. */
  datatype CreateStep = Refuse(reason: Refusal) | Request(name: string, mode: Mode)

  /** `handleCreateRoom`'s checks: a blank name, then a trimmed name shorter than three
      characters, then a missing connection; only then a `create_room` request with the
      trimmed name. The upper bound of 50 is not checked here. */
  function HandleCreateRoom(input: string, mode: Mode, connected: bool, connectionError: Option<string>)
    : (r: CreateStep)
    ensures r == Refuse(BlankName) <==> AllSpace(input)
    ensures r == Refuse(ShortName) <==> !AllSpace(input) && |Trim(input)| < NameMinLength
    ensures r == Refuse(Offline(connectionError)) <==> NameMinLength <= |Trim(input)| && !connected
    ensures r.Request? <==> NameMinLength <= |Trim(input)| && connected
    ensures r.Request? ==> r.name == Trim(input) && r.mode == mode && IsTrimmed(r.name)
  {
    var name := Trim(input);
    if name == "" then Refuse(BlankName)
    else if |name| < NameMinLength then Refuse(ShortName)
    else if !connected then Refuse(Offline(connectionError))
    else Request(name, mode)
  }

  /** The first of `room_created`, `error_event` or the seven-second timer. */
  datatype CreateReply = Created(name: Option<string>) | Rejected(message: Option<string>) | TimedOut

  datatype CreateOutcome = OpenRoom(room: string) | ShowError(message: string)

  /** `onCreated`, `onError` and the timeout: the room opened is the one the server named,
      falling back to the requested name. */
  function OnCreateReply(requested: string, reply: CreateReply): (r: CreateOutcome)
    ensures r.OpenRoom? <==> reply.Created?
    ensures reply.Created? && reply.name.Some? && reply.name.value != "" ==> r == OpenRoom(reply.name.value)
    ensures reply.Created? && (reply.name.None? || reply.name.value == "") ==> r == OpenRoom(requested)
    ensures reply.Rejected? && reply.message.Some? && reply.message.value != "" ==> r == ShowError(reply.message.value)
    ensures reply.Rejected? && (reply.message.None? || reply.message.value == "") ==> r == ShowError(CreateFailed)
    ensures reply == TimedOut ==> r == ShowError(CreateTimedOut)
  {
    match reply
    case Created(name) => OpenRoom(if name.Some? && name.value != "" then name.value else requested)
    case Rejected(message) => ShowError(if message.Some? && message.value != "" then message.value else CreateFailed)
    case TimedOut => ShowError(CreateTimedOut)
  }

  /** A name the dashboard sends is one the room service accepts exactly when it is free and
      at most 50 characters long: the client's checks are the schema's lower half. */
  lemma RequestedNameMeetsSchema(rs: Rooms, input: string, mode: Mode, connectionError: Option<string>,
                                 ownerId: string, id: string, now: nat)
    requires Valid(rs) && RoomService.AllRolesOk(rs) && !HasId(rs, id) && ownerId != ""
    ensures var step := HandleCreateRoom(input, mode, true, connectionError);
            step.Request? ==>
              (RoomService.CreateRoom(rs, step.name, ownerId, mode, id, now, true).Ok? <==>
                 FindByName(rs, step.name).None? && |step.name| <= NameMaxLength)
  {
    var step := HandleCreateRoom(input, mode, true, connectionError);
    if step.Request? {
      TrimIdempotent(input);
      RoomService.CreateRoomCases(rs, step.name, ownerId, mode, id, now, true);
    }
  }

  /** `handleUpdateMode` once the PATCH has succeeded: the room with that id takes the new
      mode; a failed PATCH leaves the list as it was. */
  function UpdateModeInList(rooms: seq<ListedRoom>, roomId: string, mode: Mode, patched: bool)
    : (r: seq<ListedRoom>)
    ensures |r| == |rooms|
    ensures !patched ==> r == rooms
    ensures patched ==> forall i :: 0 <= i < |r| ==>
              r[i] == (if rooms[i].id == roomId then rooms[i].(mode := mode) else rooms[i])
  {
    if !patched then rooms
    else seq(|rooms|, i requires 0 <= i < |rooms| =>
               if rooms[i].id == roomId then rooms[i].(mode := mode) else rooms[i])
  }

  /** Only the mode of the rooms with that id changes, and applying the same update twice is
      applying it once. */
  lemma UpdateModeInListLocal(rooms: seq<ListedRoom>, roomId: string, mode: Mode)
    ensures var r := UpdateModeInList(rooms, roomId, mode, true);
            && UpdateModeInList(r, roomId, mode, true) == r
            && forall i :: 0 <= i < |rooms| ==>
                 r[i].(mode := rooms[i].mode) == rooms[i]
                 && (rooms[i].id == roomId ==> r[i].mode == mode)
                 && (rooms[i].id != roomId ==> r[i] == rooms[i])
  {
  }
}

=== FILE: helper.dfy ===
/** The utilities of `Frontend_React/src/utils/helper.js` besides language detection (which
    `Scripts` models): message ids, the `room`/`username` query parameters and the share
    link that carries them. The clock, `Math.random().toString(36)`, `encodeURIComponent`
    and the percent-decoding of `URLSearchParams` are parameters. */
module Helper {
  import opened Base
  import opened Text

  /** `s.substring(from, to)` for `from <= to`: both ends clamped to the length. */
  function Substring(s: string, from: nat, to: nat): (r: string)
    requires from <= to
    ensures |r| <= to - from
    ensures from <= |s| ==> r == s[from..if to <= |s| then to else |s|]
    ensures from > |s| ==> r == []
  {
    if from > |s| then [] else s[from..if to <= |s| then to else |s|]
  }

  /** `generateMessageid`: the author, the time in milliseconds and up to seven characters
      of the random number's base-36 digits, dash-separated. */
  function GenerateMessageId(username: string, now: nat, random36: string): (id: string)
    ensures |id| > |username| + 1 && id[..|username|] == username && id[|username|] == '-'
    ensures |id| <= |username| + |NatToString(now)| + 2 + 7
  {
    username + "-" + NatToString(now) + "-" + Substring(random36, 2, 9)
  }

  /** An id can be taken apart again after the author: the decimal time, a dash, and the
      random part, which is at most seven characters. */
  lemma MessageIdParts(username: string, now: nat, random36: string)
    ensures var id := GenerateMessageId(username, now, random36);
            var rest := id[|username| + 1..];
            var k := IndexOf(rest, '-');
            && k == Some(|NatToString(now)|)
            && DecimalValue(rest[..k.value]) == now
            && rest[k.value + 1..] == Substring(random36, 2, 9) && |rest[k.value + 1..]| <= 7
  {
    var ts := NatToString(now);
    var tail := Substring(random36, 2, 9);
    AfterAuthor(username, ts, tail);
    DigitsHaveNoDash(ts);
    SplitAtFirst(ts, '-', tail);
    NatToStringRoundTrip(now);
  }

  lemma AfterAuthor(username: string, ts: string, tail: string)
    ensures (username + "-" + ts + "-" + tail)[|username| + 1..] == ts + "-" + tail
  {
  }

  lemma DigitsHaveNoDash(ts: string)
    requires AllDigits(ts)
    ensures '-' !in ts
  {
  }

  /** A query string as `URLSearchParams` reads it: a leading `?` dropped, `&`-separated
      pairs with empty ones skipped, the key up to the first `=` and the value after it. */
  function SearchParams(search: string, decode: string -> string): seq<(string, string)> {
    var query := if |search| > 0 && search[0] == '?' then search[1..] else search;
    Pairs(Split(query, '&'), decode)
  }

  function Pairs(parts: seq<string>, decode: string -> string): (r: seq<(string, string)>)
    ensures |r| <= |parts|
    decreases |parts|
  {
    if |parts| == 0 then []
    else if parts[0] == "" then Pairs(parts[1..], decode)
    else [PairOf(parts[0], decode)] + Pairs(parts[1..], decode)
  }

  function PairOf(part: string, decode: string -> string): (string, string) {
    match IndexOf(part, '=')
    case None => (decode(part), "")
    case Some(i) => (decode(part[..i]), decode(part[i + 1..]))
  }

  /** `k` is the position of the first pair with key `name`. */
  predicate FirstWith(pairs: seq<(string, string)>, name: string, k: int) {
    0 <= k < |pairs| && pairs[k].0 == name && forall j :: 0 <= j < k ==> pairs[j].0 != name
  }

  /** `params.get(name)`: the value of the first pair with that key. */
  function Get(pairs: seq<(string, string)>, name: string): (r: Option<string>)
    ensures r.Some? <==> exists k :: 0 <= k < |pairs| && pairs[k].0 == name
    ensures r.Some? ==> exists k :: FirstWith(pairs, name, k) && pairs[k].1 == r.value
    decreases |pairs|
  {
    if |pairs| == 0 then None
    else if pairs[0].0 == name then Some(pairs[0].1)
    else
      var r := Get(pairs[1..], name);
      assert forall k :: 1 <= k < |pairs| ==> pairs[k] == pairs[1..][k - 1];
      if r.Some? then
        var k :| FirstWith(pairs[1..], name, k) && pairs[1..][k].1 == r.value;
        assert FirstWith(pairs, name, k + 1);
        r
      else r
  }

  datatype UrlParams = UrlParams(room: string, username: string)

  const RoomKey := "room"
  const UsernameKey := "username"

  /** `parseUrlParams`: each parameter is the trimmed value of its first occurrence in the
      query, and `''` when absent. */
  function ParseUrlParams(search: string, decode: string -> string): (p: UrlParams)
    ensures IsTrimmed(p.room) && IsTrimmed(p.username)
    ensures var params := SearchParams(search, decode);
            (forall k :: 0 <= k < |params| ==> params[k].0 != RoomKey) ==> p.room == ""
    ensures var params := SearchParams(search, decode);
            (forall k :: 0 <= k < |params| ==> params[k].0 != UsernameKey) ==> p.username == ""
    ensures var params := SearchParams(search, decode);
            forall k :: FirstWith(params, RoomKey, k) ==> p.room == Trim(params[k].1)
    ensures var params := SearchParams(search, decode);
            forall k :: FirstWith(params, UsernameKey, k) ==> p.username == Trim(params[k].1)
  {
    var params := SearchParams(search, decode);
    UrlParams(Trim(Get(params, RoomKey).GetOr("")), Trim(Get(params, UsernameKey).GetOr("")))
  }

  /** `generateShareLink`. */
  function ShareLink(origin: string, room: string, username: string, encode: string -> string): string {
    origin + "?" + (RoomKey + "=" + encode(room)) + "&" + (UsernameKey + "=" + encode(username))
  }

  /** `location.search` of a URL without a fragment: from the first `?` on. */
  function SearchOf(url: string): (r: string)
    ensures r == [] || r[0] == '?'
  {
    match IndexOf(url, '?')
    case None => []
    case Some(i) => url[i..]
  }

  /** Opening a share link gives back the room and the user name it was made from, as
      trimmed, provided the encoding leaves no `&` and decoding undoes it. */
  lemma ShareLinkRoundTrip(origin: string, room: string, username: string,
                           encode: string -> string, decode: string -> string)
    requires '?' !in origin
    requires '&' !in encode(room) && '&' !in encode(username)
    requires decode(encode(room)) == room && decode(encode(username)) == username
    requires decode(RoomKey) == RoomKey && decode(UsernameKey) == UsernameKey
    ensures ParseUrlParams(SearchOf(ShareLink(origin, room, username, encode)), decode)
            == UrlParams(Trim(room), Trim(username))
  {
    KeysPlain();
    var params := ShareLinkParams(origin, RoomKey, UsernameKey, encode(room), encode(username), decode);
    GetOfTwo(RoomKey, UsernameKey, room, username);
  }

  lemma KeysPlain()
    ensures '=' !in RoomKey && '&' !in RoomKey && '=' !in UsernameKey && '&' !in UsernameKey
    ensures RoomKey != UsernameKey
  {
    assert RoomKey[0] != UsernameKey[0];
  }

  lemma GetOfTwo(k1: string, k2: string, v1: string, v2: string)
    requires k1 != k2
    ensures Get([(k1, v1), (k2, v2)], k1) == Some(v1) && Get([(k1, v1), (k2, v2)], k2) == Some(v2)
  {
    assert [(k1, v1), (k2, v2)][1..] == [(k2, v2)];
  }

  /** The pairs of the search part of `origin?k1=v1&k2=v2`. */
  lemma ShareLinkParams(origin: string, k1: string, k2: string, v1: string, v2: string,
                        decode: string -> string) returns (params: seq<(string, string)>)
    requires '?' !in origin && '=' !in k1 && '=' !in k2 && '&' !in k1 && '&' !in k2
    requires '&' !in v1 && '&' !in v2
    ensures params == SearchParams(SearchOf(origin + "?" + (k1 + "=" + v1) + "&" + (k2 + "=" + v2)), decode)
    ensures params == [(decode(k1), decode(v1)), (decode(k2), decode(v2))]
  {
    var a := k1 + "=" + v1;
    var b := k2 + "=" + v2;
    NoneInJoin(k1, v1, '&', '=');
    NoneInJoin(k2, v2, '&', '=');
    QueryOfTwo(origin, a, b, decode);
    PairOfKeyValue(k1, v1, decode);
    PairOfKeyValue(k2, v2, decode);
    params := [(decode(k1), decode(v1)), (decode(k2), decode(v2))];
  }

  /** The pairs of the search part of `origin?a&b`, for non-empty `a` and `b` without `&`. */
  lemma QueryOfTwo(origin: string, a: string, b: string, decode: string -> string)
    requires '?' !in origin && '&' !in a && '&' !in b && a != "" && b != ""
    ensures SearchParams(SearchOf(origin + "?" + a + "&" + b), decode) == [PairOf(a, decode), PairOf(b, decode)]
  {
    var query := a + "&" + b;
    SearchOfQuery(origin, query, decode);
    Regroup(origin + "?", a, "&", b);
    TwoParts(a, b);
    PairsOfTwo(a, b, decode);
  }

  lemma Regroup(w: string, x: string, y: string, z: string)
    ensures w + x + y + z == w + (x + y + z)
  {
  }

  lemma SearchOfQuery(origin: string, query: string, decode: string -> string)
    requires '?' !in origin
    ensures SearchParams(SearchOf(origin + "?" + query), decode) == Pairs(Split(query, '&'), decode)
  {
    IndexOfAfter(origin, '?', query);
    assert (origin + "?" + query)[|origin|..] == "?" + query;
    assert ("?" + query)[1..] == query;
  }

  lemma TwoParts(a: string, b: string)
    requires '&' !in a && '&' !in b
    ensures Split(a + "&" + b, '&') == [a, b]
  {
    assert Join([a, b], '&') == a + "&" + b;
    SplitJoin([a, b], '&');
  }

  lemma PairsOfTwo(a: string, b: string, decode: string -> string)
    requires a != "" && b != ""
    ensures Pairs([a, b], decode) == [PairOf(a, decode), PairOf(b, decode)]
  {
    assert [a, b][1..] == [b];
    assert [b][1..] == [];
  }

  lemma PairOfKeyValue(k: string, v: string, decode: string -> string)
    requires '=' !in k
    ensures PairOf(k + "=" + v, decode) == (decode(k), decode(v))
  {
    SplitAtFirst(k, '=', v);
  }

  lemma NoneInJoin(k: string, v: string, c: char, sep: char)
    requires c !in k && c !in v && c != sep
    ensures c !in k + [sep] + v
  {
  }
}

=== FILE: legacy_server.dfy ===
/** The legacy in-memory chat server `Backend/index.js`: a session per socket, the socket
    rooms of the socket.io adapter, and a per-room history of at most fifty entries whose
    translations are memoised as sockets join. Each handler is a function from the server
    state and the client's event to the new state and the events emitted, in order. The
    lingo.dev engine (absent when no API key is configured) and the clock are parameters. */
module LegacyServer {
  import opened Base
  import opened Text
  import opened Locales

  const HistoryLimit: nat := 50
  const DefaultLang := "en"
  const AnonymousName := "Anonymous"
  const AutoLang := "auto"
  const SendFailedNotice := "Translation unavailable; showing original text."

  type SocketId = string

  /** `lingo.localizeText(text, {sourceLocale, targetLocale})`: what it resolves to, or the
      message of what it throws. */
  type Engine = (string, Option<string>, string) -> Result<string, string>

  /** The entry of the `rooms` map: the room joined last, the language, the name. */
  datatype Session = Session(room: string, lang: Option<string>, username: Option<string>)

  /** A history entry; `translations` is filled in lazily, one language per join. */
  datatype Entry = Entry(author: string, original: string, translations: map<string, string>,
                         time: string, sourceLocale: Option<string>, msgId: string)

  /** An element of the `room_users` list. */
  datatype Member = Member(id: SocketId, username: string, lang: string)

  /** An element of the `room_history` list. */
  datatype Line = Line(author: string, message: string, time: string)

  /** The `receive_message` payload. */
  datatype Payload = Payload(author: string, message: string, original: string, time: string,
                             msgId: string, lang: string)

  datatype ServerEvent =
    | RoomUsers(members: seq<Member>)
    | TranslationError(notice: string)
    | RoomHistory(lines: seq<Line>)
    | ReceiveMessage(payload: Payload)

  /** `socket.emit` / `io.to(id)` reach one socket, `socket.to(room)` the room but the
      sender, `io.to(room)` the whole room. */
  datatype Target = ToSocket(id: SocketId) | ToOthers(room: string, except: SocketId) | ToRoom(room: string)

  datatype Emit = Emit(to: Target, event: ServerEvent)

  /** The adapter's rooms (socket ids in joining order), `socket.data.username` per socket,
      the `rooms` session map and `messageHistory`. */
  datatype State = State(adapter: map<string, seq<SocketId>>, names: map<SocketId, string>,
                         sessions: map<SocketId, Session>, history: map<string, seq<Entry>>)

  /** socket.io drops a room once its last socket leaves, and holds each socket once; every
      history fits the limit. */
  predicate Valid(st: State) {
    AdapterOk(st.adapter) && forall room :: room in st.history ==> |st.history[room]| <= HistoryLimit
  }

  predicate AdapterOk(adapter: map<string, seq<SocketId>>) {
    forall room :: room in adapter ==> adapter[room] != [] && NoDuplicates(adapter[room])
  }

  function Occupants(st: State, room: string): seq<SocketId> {
    if room in st.adapter then st.adapter[room] else []
  }

  function HistoryOf(st: State, room: string): seq<Entry> {
    if room in st.history then st.history[room] else []
  }

  /** `toLocale` of this server. */
  function ToLocale(code: string, fallback: Option<string>): Option<string> {
    LegacyToLocale(code, fallback)
  }

  function MemberOf(st: State, id: SocketId): Member {
    if id in st.sessions then
      Member(id, st.sessions[id].username.GetOr(AnonymousName), st.sessions[id].lang.GetOr(DefaultLang))
    else Member(id, AnonymousName, DefaultLang)
  }

  /** `roomMembers`: one entry per socket in the room, in joining order, with `'Anonymous'`
      and `'en'` standing in for what the socket's session does not say. */
  function RoomMembers(st: State, room: string): (r: seq<Member>)
    ensures |r| == |Occupants(st, room)|
    ensures forall i :: 0 <= i < |r| ==> r[i].id == Occupants(st, room)[i]
    ensures forall i :: 0 <= i < |r| && r[i].id !in st.sessions ==>
              r[i].username == AnonymousName && r[i].lang == DefaultLang
    ensures forall i :: 0 <= i < |r| && r[i].id in st.sessions && st.sessions[r[i].id].username.Some? ==>
              r[i].username == st.sessions[r[i].id].username.value
  {
    var occ := Occupants(st, room);
    seq(|occ|, i requires 0 <= i < |occ| => MemberOf(st, occ[i]))
  }

  /** What the `translateText` helper resolves to. */
  datatype Translated = Translated(text: string, error: Option<string>, targetLocale: Option<string>)

  function TargetLocale(lang: string): (t: string)
    ensures lang == "" || lang == AutoLang ==> t == DefaultLang
  {
    ToLocale(lang, Some(DefaultLang)).value
  }

  /** The `translateText` helper: without an engine, or when the target locale is the
      source locale, the text comes back untouched; otherwise the engine's non-empty output,
      and on a failure the text with the error. */
  function Localize(engine: Option<Engine>, text: string, source: Option<string>, lang: string): (r: Translated)
    ensures engine.None? ==> r == Translated(text, None, None)
    ensures engine.Some? ==> r.targetLocale == Some(TargetLocale(lang))
    ensures r.error.Some? <==> engine.Some? && Some(TargetLocale(lang)) != source
                               && engine.value(text, source, TargetLocale(lang)).Err?
    ensures r.text != text ==> && engine.Some? && Some(TargetLocale(lang)) != source
                               && engine.value(text, source, TargetLocale(lang)) == Ok(r.text)
                               && r.text != ""
  {
    if engine.None? then Translated(text, None, None)
    else
      var target := TargetLocale(lang);
      if Some(target) == source then Translated(text, None, Some(target))
      else match engine.value(text, source, target)
        case Ok(output) => Translated(if output == "" then text else output, None, Some(target))
        case Err(e) => Translated(text, Some(e), Some(target))
  }

  /** The entry already holds a (truthy) translation into `lang`. */
  predicate Memoised(e: Entry, lang: string) {
    lang in e.translations && e.translations[lang] != ""
  }

  /** One step of the join loop: an entry without a translation into `lang` gets the
      helper's text stored under `lang`; nothing else of the entry changes. */
  function Memo(engine: Option<Engine>, e: Entry, lang: string): (r: Entry)
    ensures lang in r.translations
    ensures r == e.(translations := e.translations[lang := r.translations[lang]])
    ensures Memoised(e, lang) ==> r == e
  {
    if Memoised(e, lang) then e
    else e.(translations := e.translations[lang := Localize(engine, e.original, e.sourceLocale, lang).text])
  }

  /** After a failed translation the memoised value is the original text. */
  lemma MemoAfterFailure(engine: Option<Engine>, e: Entry, lang: string)
    requires !Memoised(e, lang)
    requires Localize(engine, e.original, e.sourceLocale, lang).error.Some?
    ensures Memo(engine, e, lang).translations[lang] == e.original
  {
  }

  /** An entry with a non-empty original is translated at most once per language: after
      one join, a later join leaves it as it is, whatever the engine does then. */
  lemma MemoOnce(engine: Option<Engine>, later: Option<Engine>, e: Entry, lang: string)
    requires e.original != ""
    ensures Memoised(Memo(engine, e, lang), lang)
    ensures Memo(later, Memo(engine, e, lang), lang) == Memo(engine, e, lang)
  {
  }

  function LineOf(e: Entry, lang: string): Line {
    Line(e.author, if lang in e.translations then e.translations[lang] else e.original, e.time)
  }

  function FailureNotice(targetLocale: Option<string>): string {
    "Translation unavailable for " + targetLocale.GetOr("null") + ". Showing original message."
  }

  /** The `translation_error` notices of the join loop, one per entry whose translation was
      attempted and failed, in history order. */
  function HistoryNotices(engine: Option<Engine>, h: seq<Entry>, lang: string): (r: seq<string>)
    ensures |r| <= |h|
    ensures engine.None? ==> r == []
    decreases |h|
  {
    if |h| == 0 then []
    else
      var t := Localize(engine, h[0].original, h[0].sourceLocale, lang);
      (if !Memoised(h[0], lang) && t.error.Some? then [FailureNotice(t.targetLocale)] else [])
      + HistoryNotices(engine, h[1..], lang)
  }

  /** A history whose every entry is already translated into `lang` costs no engine call
      and raises no notice. */
  lemma {:induction false} MemoisedHistoryQuiet(engine: Option<Engine>, h: seq<Entry>, lang: string)
    requires forall i :: 0 <= i < |h| ==> Memoised(h[i], lang)
    ensures HistoryNotices(engine, h, lang) == []
    decreases |h|
  {
    if |h| > 0 {
      MemoisedHistoryQuiet(engine, h[1..], lang);
    }
  }

  function MemoAll(engine: Option<Engine>, h: seq<Entry>, lang: string): (r: seq<Entry>)
    ensures |r| == |h|
    ensures forall i :: 0 <= i < |h| ==> r[i] == Memo(engine, h[i], lang)
  {
    seq(|h|, i requires 0 <= i < |h| => Memo(engine, h[i], lang))
  }

  function LinesOf(h: seq<Entry>, lang: string): (r: seq<Line>)
    ensures |r| == |h|
    ensures forall i :: 0 <= i < |h| ==> r[i] == LineOf(h[i], lang)
  {
    seq(|h|, i requires 0 <= i < |h| => LineOf(h[i], lang))
  }

  function NoticesTo(id: SocketId, notices: seq<string>): (r: seq<Emit>)
    ensures |r| == |notices|
    ensures forall i :: 0 <= i < |r| ==> r[i] == Emit(ToSocket(id), TranslationError(notices[i]))
  {
    seq(|notices|, i requires 0 <= i < |notices| => Emit(ToSocket(id), TranslationError(notices[i])))
  }

  /** `socket.join(room)`: a socket already in the room is not added twice. */
  function AddOnce(s: seq<SocketId>, id: SocketId): (r: seq<SocketId>)
    ensures id in r && forall x :: x in s ==> x in r
    ensures forall x :: x in r ==> x in s || x == id
    ensures NoDuplicates(s) ==> NoDuplicates(r)
  {
    if id in s then s else s + [id]
  }

  function NameOf(st: State, id: SocketId): Option<string> {
    if id in st.names then Some(st.names[id]) else None
  }

  /** `join_room`: the socket joins, its session is (re)written with the language (`'en'`
      when none is given) and its current name, the room's member list goes to the joiner
      and to the others; a non-empty history is then translated into the joiner's
      language, memoised, and sent to the joiner alone, after a notice per failure. */
  function Join(st: State, id: SocketId, room: string, lang: Option<string>, engine: Option<Engine>)
    : (r: (State, seq<Emit>))
    ensures r.0.sessions == st.sessions[id := Session(room, Some(lang.GetOr(DefaultLang)), NameOf(st, id))]
    ensures id in Occupants(r.0, room)
    ensures forall x :: x in Occupants(st, room) ==> x in Occupants(r.0, room)
    ensures r.0.names == st.names
    ensures Valid(st) ==> Valid(r.0)
    ensures var users := RoomUsers(RoomMembers(r.0, room));
            |r.1| >= 2 && r.1[0] == Emit(ToSocket(id), users) && r.1[1] == Emit(ToOthers(room, id), users)
    ensures HistoryOf(st, room) == [] ==> |r.1| == 2 && r.0.history == st.history
    ensures HistoryOf(st, room) != [] ==>
              var h' := MemoAll(engine, HistoryOf(st, room), lang.GetOr(DefaultLang));
              && r.0.history == st.history[room := h']
              && r.1[|r.1| - 1] == Emit(ToSocket(id), RoomHistory(LinesOf(h', lang.GetOr(DefaultLang))))
  {
    var target := lang.GetOr(DefaultLang);
    var h := HistoryOf(st, room);
    // The member list does not depend on the history, so the final state is used for it.
    var st' := if h == [] then Enter(st, id, room, target)
               else Enter(st, id, room, target).(history := st.history[room := MemoAll(engine, h, target)]);
    var users := RoomUsers(RoomMembers(st', room));
    var greet := [Emit(ToSocket(id), users), Emit(ToOthers(room, id), users)];
    if h == [] then (st', greet)
    else
      var rest := HistoryEvents(engine, id, h, target);
      assert (greet + rest)[0] == greet[0] && (greet + rest)[1] == greet[1];
      (st', greet + rest)
  }

  /** The socket joins the adapter's room and its session is (re)written. */
  function Enter(st: State, id: SocketId, room: string, lang: string): (r: State)
    ensures r.sessions == st.sessions[id := Session(room, Some(lang), NameOf(st, id))]
    ensures r.adapter == st.adapter[room := AddOnce(Occupants(st, room), id)]
    ensures r.names == st.names && r.history == st.history
    ensures AdapterOk(st.adapter) ==> AdapterOk(r.adapter)
  {
    st.(adapter := st.adapter[room := AddOnce(Occupants(st, room), id)],
        sessions := st.sessions[id := Session(room, Some(lang), NameOf(st, id))])
  }

  /** What the joiner receives after the member list: a notice per failed translation,
      then the translated history. */
  function HistoryEvents(engine: Option<Engine>, id: SocketId, h: seq<Entry>, lang: string): (r: seq<Emit>)
    ensures |r| >= 1 && r[|r| - 1] == Emit(ToSocket(id), RoomHistory(LinesOf(MemoAll(engine, h, lang), lang)))
    ensures forall i :: 0 <= i < |r| ==> r[i].to == ToSocket(id)
  {
    NoticesTo(id, HistoryNotices(engine, h, lang)) + [Emit(ToSocket(id), RoomHistory(LinesOf(MemoAll(engine, h, lang), lang)))]
  }

  /** Every line of the history a joiner receives shows the translation just memoised for
      its language, and each entry with a non-empty original now holds one. */
  lemma JoinHistoryTranslated(st: State, id: SocketId, room: string, lang: Option<string>, engine: Option<Engine>)
    requires HistoryOf(st, room) != []
    ensures var r := Join(st, id, room, lang, engine);
            var target := lang.GetOr(DefaultLang);
            var h' := r.0.history[room];
            var lines := r.1[|r.1| - 1].event.lines;
            && |lines| == |h'| == |HistoryOf(st, room)|
            && (forall i :: 0 <= i < |h'| ==> lines[i] == Line(h'[i].author, h'[i].translations[target], h'[i].time))
            && (forall i :: 0 <= i < |h'| && HistoryOf(st, room)[i].original != "" ==> Memoised(h'[i], target))
  {
    var target := lang.GetOr(DefaultLang);
    var h := HistoryOf(st, room);
    forall i | 0 <= i < |h| && h[i].original != ""
      ensures Memoised(Memo(engine, h[i], target), target)
    {
      MemoOnce(engine, engine, h[i], target);
    }
  }

  /** `set_username`: only `socket.data` changes. */
  function SetUsername(st: State, id: SocketId, username: Option<string>): (r: State)
    ensures NameOf(r, id) == username
    ensures r == st.(names := r.names)
    ensures forall x :: x != id ==> NameOf(r, x) == NameOf(st, x)
  {
    match username
    case Some(n) => st.(names := st.names[id := n])
    case None => st.(names := st.names - {id})
  }

  /** A name set before joining is what the room's member list shows for the socket. */
  lemma NameShownAfterJoin(st: State, id: SocketId, name: string, room: string, lang: Option<string>,
                           engine: Option<Engine>)
    requires Valid(st)
    ensures var r := Join(SetUsername(st, id, Some(name)), id, room, lang, engine);
            exists i :: 0 <= i < |RoomMembers(r.0, room)| && RoomMembers(r.0, room)[i] == Member(id, name, lang.GetOr(DefaultLang))
  {
    var named := SetUsername(st, id, Some(name));
    var r := Join(named, id, room, lang, engine);
    assert r.0.sessions[id] == Session(room, Some(lang.GetOr(DefaultLang)), Some(name));
    assert MemberOf(r.0, id) == Member(id, name, lang.GetOr(DefaultLang));
    var occ := Occupants(r.0, room);
    var i :| 0 <= i < |occ| && occ[i] == id;
    assert RoomMembers(r.0, room)[i] == MemberOf(r.0, id);
  }

  /** `set_language`: a socket with a session gets the new language (possibly none) and the
      named room hears the member list; a socket without one changes nothing and hears
      nothing. */
  function SetLanguage(st: State, id: SocketId, room: string, lang: Option<string>): (r: (State, seq<Emit>))
    ensures id !in st.sessions ==> r == (st, [])
    ensures id in st.sessions ==>
              && r.0 == st.(sessions := r.0.sessions)
              && r.0.sessions.Keys == st.sessions.Keys
              && r.0.sessions[id] == st.sessions[id].(lang := lang)
              && (forall x :: x in st.sessions && x != id ==> r.0.sessions[x] == st.sessions[x])
              && r.1 == [Emit(ToRoom(room), RoomUsers(RoomMembers(r.0, room)))]
  {
    if id !in st.sessions then (st, [])
    else
      var st' := st.(sessions := st.sessions[id := st.sessions[id].(lang := lang)]);
      (st', [Emit(ToRoom(room), RoomUsers(RoomMembers(st', room)))])
  }

  /** A socket leaving the adapter's rooms: removed everywhere, and rooms left empty are
      dropped. */
  function Leave(adapter: map<string, seq<SocketId>>, id: SocketId): (r: map<string, seq<SocketId>>)
    ensures forall room :: room in r ==> room in adapter && r[room] == Filter(adapter[room], x => x != id)
    ensures forall room :: room in adapter && Filter(adapter[room], x => x != id) != [] ==> room in r
  {
    map room | room in adapter && Filter(adapter[room], x => x != id) != [] :: Filter(adapter[room], x => x != id)
  }

  /** `disconnect`: socket.io takes the socket out of its rooms first; then a socket with a
      session loses it and the rest of its room hears the new member list. */
  function Disconnect(st: State, id: SocketId): (r: (State, seq<Emit>))
    ensures id !in r.0.sessions && r.0.sessions == st.sessions - {id}
    ensures forall room :: room in r.0.adapter ==> id !in r.0.adapter[room]
    ensures forall room, x :: room in st.adapter && x in st.adapter[room] && x != id ==>
              room in r.0.adapter && x in r.0.adapter[room]
    ensures r.0.history == st.history
    ensures Valid(st) ==> Valid(r.0)
    ensures id !in st.sessions ==> r.1 == []
    ensures id in st.sessions ==>
              var room := st.sessions[id].room;
              r.1 == [Emit(ToOthers(room, id), RoomUsers(RoomMembers(r.0, room)))]
  {
    var adapter := Leave(st.adapter, id);
    LeaveKeepsOk(st.adapter, id);
    var st' := st.(adapter := adapter, sessions := st.sessions - {id});
    if id !in st.sessions then (st', [])
    else
      var room := st.sessions[id].room;
      (st', [Emit(ToOthers(room, id), RoomUsers(RoomMembers(st', room)))])
  }

  lemma LeaveKeepsOk(adapter: map<string, seq<SocketId>>, id: SocketId)
    ensures AdapterOk(adapter) ==> AdapterOk(Leave(adapter, id))
  {
    if AdapterOk(adapter) {
      forall room | room in Leave(adapter, id)
        ensures NoDuplicates(Leave(adapter, id)[room])
      {
        FilterNoDuplicates(adapter[room], x => x != id);
      }
    }
  }

  /** The member list sent on a disconnect no longer names the socket. */
  lemma DisconnectedNotListed(st: State, id: SocketId)
    requires id in st.sessions
    ensures var r := Disconnect(st, id);
            forall m :: m in r.1[0].event.members ==> m.id != id
  {
  }

  /** The client's `send_message` data. */
  datatype SendData = SendData(room: string, author: string, message: string, time: string,
                               sourceLang: Option<string>, msgId: Option<string>, targetLang: Option<string>)

  /** `data.msgId || `${data.author}-${Date.now()}``. */
  function MsgIdOf(d: SendData, now: nat): (m: string)
    ensures d.msgId.Some? && d.msgId.value != "" ==> m == d.msgId.value
  {
    if d.msgId.Some? && d.msgId.value != "" then d.msgId.value
    else d.author + "-" + NatToString(now)
  }

  /** A generated id can be taken apart again: the author, a dash, and the decimal
      timestamp, which holds no dash, so the last dash always ends the author even when
      the author has dashes of its own. */
  lemma GeneratedMsgId(d: SendData, now: nat)
    requires d.msgId.None? || d.msgId == Some("")
    ensures var m := MsgIdOf(d, now);
            && m[..|d.author|] == d.author && m[|d.author|] == '-'
            && AllDigits(m[|d.author| + 1..]) && DecimalValue(m[|d.author| + 1..]) == now
            && '-' !in m[|d.author| + 1..]
  {
    var ts := NatToString(now);
    var m := d.author + "-" + ts;
    assert m[..|d.author|] == d.author;
    assert m[|d.author| + 1..] == ts;
    NatToStringRoundTrip(now);
  }

  /** `data.sourceLang || 'auto'`, resolved without a fallback. */
  function SourceLocaleOf(d: SendData): (r: Option<string>)
    ensures d.sourceLang.None? || d.sourceLang == Some("") || d.sourceLang == Some(AutoLang) ==> r.None?
  {
    ToLocale(if d.sourceLang.None? || d.sourceLang.value == "" then AutoLang else d.sourceLang.value, None)
  }

  function EntryOf(d: SendData, now: nat): Entry {
    Entry(d.author, d.message, map[], d.time, SourceLocaleOf(d), MsgIdOf(d, now))
  }

  /** `history.push(entry)` followed by one `shift()` when the limit is passed. */
  function Ring(h: seq<Entry>, e: Entry): (r: seq<Entry>)
    ensures |h| <= HistoryLimit ==> |r| <= HistoryLimit
    ensures |r| >= 1 && r[|r| - 1] == e
    ensures |h| <= HistoryLimit ==> r == LastN(h + [e], HistoryLimit)
  {
    var pushed := h + [e];
    if |pushed| > HistoryLimit then pushed[1..] else pushed
  }

  /** The ring is a sliding window: the history kept after any number of sends is the last
      fifty entries of everything sent, in arrival order. */
  lemma RingIsWindow(sent: seq<Entry>, e: Entry)
    ensures Ring(LastN(sent, HistoryLimit), e) == LastN(sent + [e], HistoryLimit)
  {
    var w := LastN(sent, HistoryLimit);
    var all := sent + [e];
    if |sent| >= HistoryLimit {
      assert w + [e] == all[|all| - HistoryLimit - 1..];
    }
  }

  /** `rooms.get(id)?.lang || 'en'`. */
  function RecipientLang(st: State, id: SocketId): (lang: string)
    ensures lang != ""
  {
    if id in st.sessions && st.sessions[id].lang.Some? && st.sessions[id].lang.value != "" then st.sessions[id].lang.value
    else DefaultLang
  }

  /** `data.targetLang || 'en'`: the `lang` every copy of the broadcast carries. */
  function ReplyLang(d: SendData): string {
    if d.targetLang.Some? && d.targetLang.value != "" then d.targetLang.value else DefaultLang
  }

  /** What one recipient's copy keeps from the client's data, whatever its translation. */
  predicate Faithful(p: Payload, d: SendData, msgId: string) {
    p.author == d.author && p.original == d.message && p.time == d.time && p.msgId == msgId && p.lang == ReplyLang(d)
  }

  /** The events for one recipient: a notice when the engine failed, then its copy of the
      message, translated (source locale left to the engine) into its own locale. */
  function DeliverTo(st: State, d: SendData, msgId: string, engine: Option<Engine>, id: SocketId): (r: seq<Emit>)
    ensures 1 <= |r| <= 2 && forall i :: 0 <= i < |r| ==> r[i].to == ToSocket(id)
    ensures r[|r| - 1].event.ReceiveMessage? && Faithful(r[|r| - 1].event.payload, d, msgId)
    ensures |r| == 2 ==> r[0].event == TranslationError(SendFailedNotice)
    ensures var text := r[|r| - 1].event.payload.message;
            text != d.message ==> && engine.Some? && ToLocale(RecipientLang(st, id), None).Some?
                                  && engine.value(d.message, None, ToLocale(RecipientLang(st, id), None).value) == Ok(text)
    ensures engine.None? ==> |r| == 1
  {
    var target := ToLocale(RecipientLang(st, id), None);
    var outcome: Option<Result<string, string>> :=
      if engine.Some? && target.Some? then Some(engine.value(d.message, None, target.value)) else None;
    var text := if outcome.Some? && outcome.value.Ok? && outcome.value.value != "" then outcome.value.value
                else d.message;
    var receive := Emit(ToSocket(id), ReceiveMessage(Payload(d.author, text, d.message, d.time, msgId, ReplyLang(d))));
    if outcome.Some? && outcome.value.Err? then [Emit(ToSocket(id), TranslationError(SendFailedNotice)), receive]
    else [receive]
  }

  /** The sockets a list of events hands a `receive_message` to, in order. */
  function Receivers(emits: seq<Emit>): seq<SocketId>
    decreases |emits|
  {
    if |emits| == 0 then []
    else (if emits[0].event.ReceiveMessage? && emits[0].to.ToSocket? then [emits[0].to.id] else [])
         + Receivers(emits[1..])
  }

  lemma {:induction false} ReceiversAppend(a: seq<Emit>, b: seq<Emit>)
    ensures Receivers(a + b) == Receivers(a) + Receivers(b)
    decreases |a|
  {
    if |a| == 0 {
      assert a + b == b;
    } else {
      assert (a + b)[1..] == a[1..] + b;
      ReceiversAppend(a[1..], b);
    }
  }

  /** The loop over the room's sockets. */
  function Deliver(st: State, d: SendData, msgId: string, engine: Option<Engine>, recipients: seq<SocketId>)
    : (r: seq<Emit>)
    ensures Receivers(r) == recipients
    ensures forall e :: e in r && e.event.ReceiveMessage? ==> Faithful(e.event.payload, d, msgId)
    ensures forall e :: e in r ==> e.to.ToSocket? && e.to.id in recipients
    ensures engine.None? ==> forall e :: e in r ==> e.event.ReceiveMessage? && e.event.payload.message == d.message
    decreases |recipients|
  {
    if |recipients| == 0 then []
    else
      var first := DeliverTo(st, d, msgId, engine, recipients[0]);
      var rest := Deliver(st, d, msgId, engine, recipients[1..]);
      ReceiversAppend(first, rest);
      assert Receivers(first) == [recipients[0]] by {
        assert |first| == 2 ==> first[1..][1..] == [];
      }
      first + rest
  }

  /** `send_message`: a room without connected sockets gets nothing at all; otherwise the
      entry goes into the room's history ring and every socket in the room, sender or not,
      receives exactly one copy, in joining order. */
  function Send(st: State, d: SendData, now: nat, engine: Option<Engine>): (r: (State, seq<Emit>))
    ensures d.room !in st.adapter ==> r == (st, [])
    ensures d.room in st.adapter ==>
              && r.0 == st.(history := st.history[d.room := Ring(HistoryOf(st, d.room), EntryOf(d, now))])
              && Receivers(r.1) == st.adapter[d.room]
    ensures forall e :: e in r.1 && e.event.ReceiveMessage? ==> Faithful(e.event.payload, d, MsgIdOf(d, now))
    ensures Valid(st) ==> Valid(r.0)
  {
    if d.room !in st.adapter then (st, [])
    else
      var msgId := MsgIdOf(d, now);
      var h := Ring(HistoryOf(st, d.room), EntryOf(d, now));
      (st.(history := st.history[d.room := h]), Deliver(st, d, msgId, engine, st.adapter[d.room]))
  }

  /** In a valid state, the room's history after a send is the previous window with the new
      entry appended, trimmed to the fifty most recent. */
  lemma SendKeepsRecent(st: State, d: SendData, now: nat, engine: Option<Engine>)
    requires Valid(st) && d.room in st.adapter
    ensures var h := Send(st, d, now, engine).0.history[d.room];
            && h == LastN(HistoryOf(st, d.room) + [EntryOf(d, now)], HistoryLimit)
            && |h| <= HistoryLimit && h[|h| - 1].original == d.message
  {
    var h0 := HistoryOf(st, d.room);
    assert |h0| <= HistoryLimit;
    var st' := Send(st, d, now, engine).0;
    assert st'.history[d.room] == Ring(h0, EntryOf(d, now));
  }
}

=== FILE: lingo_client.dfy ===
/** The translation provider client of `Backend_TS/src/services/lingoClient.ts`: the request
    body sent to the `/i18n` endpoint, the classification of the HTTPS exchange into a
    resolved reply or a rejected `Error`, `localizeText`'s fallback to the input, and the
    sequential `batchLocalizeText`. The HTTPS transport and `JSON.parse` are parameters. */
module LingoClient {
  import opened Base
  import opened Text

  const RequestTimeoutMs: nat := 30000
  const ErrorBodyLimit: nat := 200

  /** A rejected promise's `Error`: its message and, for socket errors, `cause.code`. */
  datatype Failure = Failure(message: string, causeCode: Option<string>)

  /** What the HTTPS request produced: a complete response, the 30 s socket timeout, or a
      transport error raised by the request. */
  datatype Exchange = Response(status: nat, body: string) | TimedOut | RequestError(err: Failure)

  /** The parsed JSON reply, of which only `data.text` is read (`None` when absent). */
  datatype Reply = Reply(text: Option<string>)

  /** The JSON body of a translation request. */
  datatype Request = Request(workflowId: string, fast: bool, source: string, target: string, text: string)

  const MissingKeyMessage := "Lingo API key not initialized"
  const TimeoutMessage := "Request timed out"
  const InvalidJsonPrefix := "Invalid JSON response: "

  /** The body sent by `localizeText`: `locale.source` is the source locale, or `'auto'`
      when there is none. */
  function BuildRequest(text: string, source: Option<string>, target: string, fast: bool,
                        workflowId: string): (req: Request)
    ensures req.text == text && req.target == target && req.fast == fast
    ensures req.source == "auto" <==> source.None? || source == Some("auto")
    ensures source.Some? ==> req.source == source.value
  {
    Request(workflowId, fast, source.GetOr("auto"), target, text)
  }

  /** How a completed response settles the promise: a 2xx status resolves with the parsed
      body (or rejects when it is not JSON), a status of 500 or more rejects as a server
      error, anything else as an HTTP error; every message quotes at most 200 characters
      of the body. */
  function Classify(status: nat, body: string, parse: string -> Option<Reply>): (r: Result<Reply, Failure>)
    ensures r.Ok? <==> 200 <= status < 300 && parse(body).Some?
    ensures r.Ok? ==> r.value == parse(body).value
    ensures r.Err? ==> r.error.causeCode.None?
    ensures r.Err? ==> exists prefix :: r.error.message == prefix + Take(body, ErrorBodyLimit)
    ensures r.Err? && 200 <= status < 300 ==> StartsWith(r.error.message, InvalidJsonPrefix)
    ensures r.Err? && status >= 500 ==> StartsWith(r.error.message, "Server error (")
    ensures r.Err? && (status < 200 || 300 <= status < 500) ==> StartsWith(r.error.message, "HTTP ")
  {
    var quoted := Take(body, ErrorBodyLimit);
    if 200 <= status < 300 then
      match parse(body)
      case Some(reply) => Ok(reply)
      case None => Err(Failure(InvalidJsonPrefix + quoted, None))
    else if status >= 500 then
      Err(Failure(ServerErrorPrefix(status) + quoted, None))
    else
      Err(Failure("HTTP " + NatToString(status) + ": " + quoted, None))
  }

  function ServerErrorPrefix(status: nat): (p: string)
    ensures StartsWith(p, "Server error (")
  {
    "Server error (" + NatToString(status) + "): "
  }

  /** `postI18n`: with no API key the request is rejected before anything is sent;
      otherwise the exchange settles it. */
  function PostI18n(apiKey: Option<string>, exchange: Exchange, parse: string -> Option<Reply>): (r: Result<Reply, Failure>)
    ensures apiKey.None? || apiKey == Some("") ==> r == Err(Failure(MissingKeyMessage, None))
    ensures apiKey.Some? && apiKey.value != "" && exchange.TimedOut? ==> r == Err(Failure(TimeoutMessage, None))
    ensures apiKey.Some? && apiKey.value != "" && exchange.RequestError? ==> r == Err(exchange.err)
  {
    if apiKey.None? || apiKey.value == "" then Err(Failure(MissingKeyMessage, None))
    else match exchange
      case Response(status, body) => Classify(status, body, parse)
      case TimedOut => Err(Failure(TimeoutMessage, None))
      case RequestError(e) => Err(e)
  }

  /** Without an API key the outcome does not depend on the transport at all: no request
      is made. */
  lemma NoKeyNoRequest(apiKey: Option<string>, e1: Exchange, e2: Exchange, parse: string -> Option<Reply>)
    requires apiKey.None? || apiKey == Some("")
    ensures PostI18n(apiKey, e1, parse) == PostI18n(apiKey, e2, parse)
    ensures PostI18n(apiKey, e1, parse).Err?
  {
  }

  /** The request `localizeText` sends; `stamp` is the clock reading in `wf-${Date.now()}`. */
  function LocalizeRequest(text: string, source: Option<string>, target: string, stamp: nat): Request {
    BuildRequest(text, source, target, true, "wf-" + NatToString(stamp))
  }

  /** `localizeText`: the reply's `data.text` when it is a non-empty string, otherwise the
      input text; a rejection of the request propagates. `transport` answers a request. */
  function LocalizeText(apiKey: Option<string>, text: string, source: Option<string>, target: string,
                        stamp: nat, transport: Request -> Exchange,
                        parse: string -> Option<Reply>): (r: Result<string, Failure>)
    ensures var p := PostI18n(apiKey, transport(LocalizeRequest(text, source, target, stamp)), parse);
            && (r.Ok? <==> p.Ok?)
            && (r.Err? ==> r.error == p.error)
            && (p.Ok? && p.value.text.Some? && p.value.text.value != "" ==> r == Ok(p.value.text.value))
            && (p.Ok? && (p.value.text.None? || p.value.text == Some("")) ==> r == Ok(text))
    ensures r.Ok? && text != "" ==> r.value != ""
  {
    match PostI18n(apiKey, transport(LocalizeRequest(text, source, target, stamp)), parse)
    case Ok(reply) =>
      if reply.text.Some? && reply.text.value != "" then Ok(reply.text.value) else Ok(text)
    case Err(e) => Err(e)
  }

  /** `batchLocalizeText`: one request per target locale, in order; the first rejection
      rejects the whole batch, otherwise there is exactly one result per target, in input
      order. `stamp(i)` is the clock reading when the i-th request is built. */
  method BatchLocalizeText(apiKey: Option<string>, text: string, source: Option<string>,
                           targets: seq<string>, stamp: nat -> nat,
                           transport: Request -> Exchange, parse: string -> Option<Reply>)
    returns (r: Result<seq<string>, Failure>)
    ensures r.Ok? ==> |r.value| == |targets|
    ensures r.Ok? ==> forall i :: 0 <= i < |targets| ==>
              LocalizeText(apiKey, text, source, targets[i], stamp(i), transport, parse) == Ok(r.value[i])
    ensures r.Err? ==> exists i :: (0 <= i < |targets|
              && LocalizeText(apiKey, text, source, targets[i], stamp(i), transport, parse) == Err(r.error)
              && forall j :: 0 <= j < i ==>
                   LocalizeText(apiKey, text, source, targets[j], stamp(j), transport, parse).Ok?)
  {
    var results: seq<string> := [];
    var i := 0;
    while i < |targets|
      invariant 0 <= i <= |targets|
      invariant |results| == i
      invariant forall j :: 0 <= j < i ==>
                  LocalizeText(apiKey, text, source, targets[j], stamp(j), transport, parse) == Ok(results[j])
    {
      var one := LocalizeText(apiKey, text, source, targets[i], stamp(i), transport, parse);
      if one.Err? {
        return Err(one.error);
      }
      results := results + [one.value];
      i := i + 1;
    }
    return Ok(results);
  }
}

=== FILE: locales.dfy ===
/** Language-code to provider-locale mapping, in the current backend
    (`Backend_TS/src/services/translation.service.ts`) and in the legacy one
    (`Backend/index.js`). */
module Locales {
  import opened Base

  /** The seven-entry table of the current backend. */
  const RegionalTable: map<string, string> :=
    map["en" := "en", "hi" := "hi-IN", "bn" := "bn-IN", "es" := "es-ES",
        "fr" := "fr-FR", "de" := "de-DE", "ja" := "ja-JP"]

  /** The five-entry table of the legacy backend. */
  const LegacyTable: map<string, string> :=
    map["en" := "en", "hi" := "hi-IN", "es" := "es-ES", "fr" := "fr-FR", "bn" := "bn-IN"]

  /** The shared shape of both `toLocale` helpers: the fallback for a falsy code or
      `'auto'`, the table entry when there is one, the code itself otherwise. The
      tables are looked up by own key only; a code naming an inherited
      `Object.prototype` member, which the JavaScript lookup would find, is passed
      through like any other unknown code. */
  function Resolve(table: map<string, string>, code: string, fallback: Option<string>): (r: Option<string>)
    ensures code == "" || code == "auto" ==> r == fallback
    ensures code != "" && code != "auto" ==> r.Some? && (r.value == code || r.value in table.Values)
    ensures code in table && code != "" && code != "auto" ==> r == Some(table[code])
  {
    if code == "" || code == "auto" then fallback
    else if code in table then Some(table[code])
    else Some(code)
  }

  /** `toLocale` of the current backend. */
  function ToLocale(code: string, fallback: Option<string>): Option<string> {
    Resolve(RegionalTable, code, fallback)
  }

  /** `toLocale` of the legacy backend. */
  function LegacyToLocale(code: string, fallback: Option<string>): Option<string> {
    Resolve(LegacyTable, code, fallback)
  }

  /** The full behaviour of the current mapping: the fallback for `''`/`'auto'`, the regional
      locale for each of the seven table codes, and the code itself for any other code. */
  lemma ToLocaleCases(code: string, fallback: Option<string>)
    ensures code == "" || code == "auto" ==> ToLocale(code, fallback) == fallback
    ensures code == "en" ==> ToLocale(code, fallback) == Some("en")
    ensures code == "hi" ==> ToLocale(code, fallback) == Some("hi-IN")
    ensures code == "bn" ==> ToLocale(code, fallback) == Some("bn-IN")
    ensures code == "es" ==> ToLocale(code, fallback) == Some("es-ES")
    ensures code == "fr" ==> ToLocale(code, fallback) == Some("fr-FR")
    ensures code == "de" ==> ToLocale(code, fallback) == Some("de-DE")
    ensures code == "ja" ==> ToLocale(code, fallback) == Some("ja-JP")
    ensures code !in {"", "auto", "en", "hi", "bn", "es", "fr", "de", "ja"} ==>
              ToLocale(code, fallback) == Some(code)
  {
  }

  /** A locale resolved from a real code is a fixed point: resolving it again yields it
      unchanged. */
  lemma ToLocaleIdempotent(code: string, fallback: Option<string>)
    requires code != "" && code != "auto"
    ensures ToLocale(ToLocale(code, fallback).value, None) == ToLocale(code, fallback)
  {
    if code in RegionalTable {
      assert code in {"en", "hi", "bn", "es", "fr", "de", "ja"};
      assert "hi-IN" !in RegionalTable && "bn-IN" !in RegionalTable && "es-ES" !in RegionalTable;
      assert "fr-FR" !in RegionalTable && "de-DE" !in RegionalTable && "ja-JP" !in RegionalTable;
    }
  }

  /** The two backends agree on every code except `de` and `ja`, which only the current
      table maps to a regional locale. */
  lemma LegacyAgreesExceptDeJa(code: string, fallback: Option<string>)
    ensures code != "de" && code != "ja" ==> LegacyToLocale(code, fallback) == ToLocale(code, fallback)
    ensures code == "de" ==> LegacyToLocale(code, fallback) == Some("de") != ToLocale(code, fallback)
    ensures code == "ja" ==> LegacyToLocale(code, fallback) == Some("ja") != ToLocale(code, fallback)
  {
  }
}

=== FILE: message_bubble.dfy ===
/** The client's message record and what `Frontend_TS/src/components/MessageBubble.tsx`
    derives from it for display: the reaction badges, whether the current user is among a
    badge's reactors, and whether the quoted reply is shown. */
module MessageBubble {
  import opened Base

  datatype ReplyTo = ReplyTo(msgId: string, author: string, message: string)

  /** A value of the `reactions` record, which is typed `unknown`: only arrays count. */
  datatype ReactionValue = UserList(users: seq<string>) | NotAList

  /** `MessageData`. `reactions` keeps the key order of the object it models. */
  datatype MessageData = MessageData(msgId: string, author: string, message: string,
                                     original: Option<string>, time: string, lang: string,
                                     translations: Option<map<string, string>>,
                                     replyTo: Option<ReplyTo>,
                                     reactions: Option<seq<(string, ReactionValue)>>)

  /** One reaction badge: the emoji and who reacted with it. */
  datatype Badge = Badge(emoji: string, users: seq<string>)

  /** The entries of the record that are non-empty arrays, in key order. */
  function Badges(entries: seq<(string, ReactionValue)>): (r: seq<Badge>)
    ensures |r| <= |entries|
    ensures forall b :: b in r ==> |b.users| > 0 && (b.emoji, UserList(b.users)) in entries
    ensures forall e :: e in entries && e.1.UserList? && |e.1.users| > 0 ==> Badge(e.0, e.1.users) in r
    decreases |entries|
  {
    if |entries| == 0 then []
    else
      var e := entries[0];
      (if e.1.UserList? && |e.1.users| > 0 then [Badge(e.0, e.1.users)] else []) + Badges(entries[1..])
  }

  /** Badges of a record built in two parts are the badges of each part, in order. */
  lemma {:induction false} BadgesAppend(a: seq<(string, ReactionValue)>, b: seq<(string, ReactionValue)>)
    ensures Badges(a + b) == Badges(a) + Badges(b)
    decreases |a|
  {
    if |a| == 0 {
      assert a + b == b;
    } else {
      assert (a + b)[1..] == a[1..] + b;
      BadgesAppend(a[1..], b);
    }
  }

  /** `reactionEntries`: nothing for a message without reactions. */
  function ReactionEntries(msg: MessageData): (r: seq<Badge>)
    ensures msg.reactions.None? ==> r == []
    ensures forall b :: b in r ==> |b.users| >= 1
  {
    if msg.reactions.None? then [] else Badges(msg.reactions.value)
  }

  /** `iReacted`: a signed-in user whose name is among the badge's reactors. */
  predicate IReacted(currentUser: Option<string>, b: Badge) {
    currentUser.Some? && currentUser.value != "" && currentUser.value in b.users
  }

  /** The count a badge shows. */
  function BadgeCount(b: Badge): nat {
    |b.users|
  }

  /** A highlighted badge is one the message's record lists the user under, and its count
      includes the user. */
  lemma HighlightedBadge(msg: MessageData, user: string, b: Badge)
    requires msg.reactions.Some? && b in ReactionEntries(msg) && IReacted(Some(user), b)
    ensures (b.emoji, UserList(b.users)) in msg.reactions.value && user in b.users
    ensures BadgeCount(b) >= 1
  {
  }

  /** Nobody signed in sees no badge highlighted. */
  lemma SignedOutSeesNoHighlight(b: Badge)
    ensures !IReacted(None, b) && !IReacted(Some(""), b)
  {
  }

  /** The quoted reply is shown only with a non-empty author and message. */
  predicate ShowsReplyPreview(msg: MessageData) {
    msg.replyTo.Some? && msg.replyTo.value.author != "" && msg.replyTo.value.message != ""
  }
}

=== FILE: message_model.dfy ===
/** The `Message` collection of `Backend_TS/src/models/message.model.ts`: a stored chat
    message, the schema's required fields and defaults, the unique `msgId` index, and
    `Message.create` against an insertion-ordered collection. The database connection's
    own failures are a parameter. */
module MessageModel {
  import opened Base

  /** The quoted message a reply points at. */
  datatype ReplyTo = ReplyTo(msgId: string, author: string, message: string)

  /** A stored message; `createdAt` is the `timestamps` clock reading in milliseconds. */
  datatype Message = Message(room: string, author: string, original: string,
                             translations: map<string, string>, sourceLocale: string,
                             msgId: string, createdAt: nat, replyTo: Option<ReplyTo>)

  /** The document handed to `Message.create`; a field the caller left `undefined` is
      `None` for `sourceLocale`, and `""` for the required strings (Mongoose's `required`
      rejects an empty string and a missing value alike). Keys that are not schema paths
      (`translated`) are dropped by the strict schema and do not appear here. */
  datatype Draft = Draft(room: string, author: string, original: string,
                         sourceLocale: Option<string>, msgId: string, replyTo: Option<ReplyTo>)

  const DefaultSourceLocale := "auto"

  /** The collection in insertion order; `createdAt` never decreases along it. */
  type Store = seq<Message>

  /** The invariants the schema and the clock keep: every required field is non-empty, no
      two messages share a `msgId` (the unique index), and insertion order is also
      `createdAt` order. */
  ghost predicate Valid(s: Store) {
    && (forall i :: 0 <= i < |s| ==> Stored(s[i]))
    && (forall i, j :: 0 <= i < j < |s| ==> s[i].msgId != s[j].msgId)
    && (forall i, j :: 0 <= i < j < |s| ==> s[i].createdAt <= s[j].createdAt)
  }

  predicate Stored(m: Message) {
    m.room != "" && m.author != "" && m.original != "" && m.msgId != ""
  }

  predicate HasMsgId(s: Store, id: string) {
    exists i :: 0 <= i < |s| && s[i].msgId == id
  }

  /** Why `create` rejected: a required path is missing, or the unique index on `msgId`
      refused a duplicate key, or the database itself failed. */
  datatype CreateError = ValidationError | DuplicateKey | DatabaseDown

  /** `Message.create` at clock `now`: validation of the required paths, then the unique
      index, then the insert with the defaults applied (`translations` empty,
      `sourceLocale` `"auto"` when undefined). */
  function Create(s: Store, d: Draft, now: nat, dbUp: bool): (r: Result<(Message, Store), CreateError>)
    requires Valid(s)
    requires forall i :: 0 <= i < |s| ==> s[i].createdAt <= now
    ensures r.Err? <==> !dbUp || d.room == "" || d.author == "" || d.original == "" || d.msgId == ""
                        || HasMsgId(s, d.msgId)
    ensures r.Ok? ==> var (m, s') := r.value;
            && s' == s + [m] && Valid(s')
            && m.room == d.room && m.author == d.author && m.original == d.original
            && m.msgId == d.msgId && m.replyTo == d.replyTo && m.createdAt == now
            && m.translations == map[]
            && m.sourceLocale == (if d.sourceLocale.Some? then d.sourceLocale.value else DefaultSourceLocale)
  {
    if !dbUp then Err(DatabaseDown)
    else if d.room == "" || d.author == "" || d.original == "" || d.msgId == "" then Err(ValidationError)
    else if HasMsgId(s, d.msgId) then Err(DuplicateKey)
    else
      var m := Message(d.room, d.author, d.original, map[], d.sourceLocale.GetOr(DefaultSourceLocale),
                       d.msgId, now, d.replyTo);
      Ok((m, s + [m]))
  }

  /** The unique index makes creation idempotent per `msgId`: once a message with a given
      id is stored, creating it again fails and the collection keeps exactly one message
      with that id. */
  lemma CreateTwiceKeepsOne(s: Store, d: Draft, now: nat, later: nat)
    requires Valid(s)
    requires forall i :: 0 <= i < |s| ==> s[i].createdAt <= now
    requires now <= later
    requires Create(s, d, now, true).Ok?
    ensures var s' := Create(s, d, now, true).value.1;
            Create(s', d, later, true) == Err(DuplicateKey)
            && Count(MsgIds(s'), d.msgId) == 1
  {
    var (m, s') := Create(s, d, now, true).value;
    assert s'[|s|].msgId == d.msgId;
    assert HasMsgId(s', d.msgId);
    MsgIdsAppend(s, m);
    CountAppend(MsgIds(s), [m.msgId], d.msgId);
    MsgIdsIn(s, d.msgId);
  }

  /** The ids of a collection, in order. */
  function MsgIds(s: Store): (ids: seq<string>)
    ensures |ids| == |s|
    ensures forall i :: 0 <= i < |s| ==> ids[i] == s[i].msgId
  {
    seq(|s|, i requires 0 <= i < |s| => s[i].msgId)
  }

  lemma MsgIdsAppend(s: Store, m: Message)
    ensures MsgIds(s + [m]) == MsgIds(s) + [m.msgId]
  {
  }

  lemma MsgIdsIn(s: Store, id: string)
    ensures id in MsgIds(s) <==> HasMsgId(s, id)
  {
    if id in MsgIds(s) {
      var i :| 0 <= i < |MsgIds(s)| && MsgIds(s)[i] == id;
      assert s[i].msgId == id;
    }
  }

  /** In a valid collection every `msgId` occurs at most once. */
  lemma {:induction false} ValidUniqueIds(s: Store, id: string)
    requires Valid(s)
    ensures Count(MsgIds(s), id) <= 1
    decreases |s|
  {
    if |s| > 0 {
      var init := s[..|s| - 1];
      assert s == init + [s[|s| - 1]];
      assert Valid(init);
      ValidUniqueIds(init, id);
      MsgIdsAppend(init, s[|s| - 1]);
      CountAppend(MsgIds(init), [s[|s| - 1].msgId], id);
      if s[|s| - 1].msgId == id {
        MsgIdsIn(init, id);
      }
    }
  }

  /** A suffix of a valid collection is valid. */
  lemma ValidTail(s: Store)
    requires Valid(s) && |s| > 0
    ensures Valid(s[1..])
  {
    var t := s[1..];
    forall i | 0 <= i < |t| ensures Stored(t[i]) {
      assert t[i] == s[i + 1];
    }
    forall i, j | 0 <= i < j < |t| ensures t[i].msgId != t[j].msgId && t[i].createdAt <= t[j].createdAt {
      assert t[i] == s[i + 1] && t[j] == s[j + 1];
    }
  }

  /** A stored message older than, and with an id different from, every message of a valid
      collection can precede it. */
  lemma ValidCons(m: Message, s: Store)
    requires Valid(s) && Stored(m)
    requires forall j :: 0 <= j < |s| ==> m.msgId != s[j].msgId && m.createdAt <= s[j].createdAt
    ensures Valid([m] + s)
  {
    var r := [m] + s;
    forall i | 0 <= i < |r| ensures Stored(r[i]) {
      if i > 0 { assert r[i] == s[i - 1]; }
    }
    forall i, j | 0 <= i < j < |r| ensures r[i].msgId != r[j].msgId && r[i].createdAt <= r[j].createdAt {
      assert r[j] == s[j - 1];
      if i > 0 { assert r[i] == s[i - 1]; }
    }
  }
}

=== FILE: register_page.dfy ===
/** The sign-up form of `Frontend_TS/src/pages/Auth/RegisterPage.tsx`: its checks, in
    order, before anything is sent; the email pattern `/^[^\s@]+@[^\s@]+\.[^\s@]+$/`; and
    what the reply of `POST /auth/register` leads to. The fields are sent as typed, not
    trimmed. */
module RegisterPage {
  import opened Base
  import opened Text
  import AuthController
  import AuthContext

  const MinLength: nat := 6
  const AllRequired := "All fields are required."
  const ShortUsername := "Username must be at least 6 characters long."
  const BadEmail := "Please enter a valid email address."
  const ShortPassword := "Password must be at least 6 characters long."
  const RegistrationFailed := "Registration failed"

  /** A character of the class `[^\s@]`. */
  predicate Plain(c: char) {
    !IsSpace(c) && c != '@'
  }

  /** `[^\s@]+` matches exactly `s[lo..hi]`. */
  predicate PlainRun(s: string, lo: int, hi: int)
    requires 0 <= lo <= hi <= |s|
  {
    lo < hi && forall k :: lo <= k < hi ==> Plain(s[k])
  }

  /** The regular expression as written: a run, `@` at `i`, a run, `.` at `j`, a run, and
      nothing else. */
  ghost predicate EmailPattern(s: string) {
    exists i, j :: 0 <= i < j < |s| && s[i] == '@' && s[j] == '.'
                   && PlainRun(s, 0, i) && PlainRun(s, i + 1, j) && PlainRun(s, j + 1, |s|)
  }

  /** The same language stated by what it forbids and requires: no white space anywhere,
      exactly one `@`, not first, and after it a domain holding a `.` that is neither its
      first nor its last character. */
  predicate IsEmail(s: string) {
    match IndexOf(s, '@')
    case None => false
    case Some(i) =>
      var domain := s[i + 1..];
      && i >= 1 && '@' !in domain && |domain| >= 3 && '.' in domain[1..|domain| - 1]
      && forall k :: 0 <= k < |s| ==> !IsSpace(s[k])
  }

  /** `IsEmail` accepts exactly the strings the regular expression matches. */
  lemma EmailRegexExact(s: string)
    ensures IsEmail(s) <==> EmailPattern(s)
  {
    if IsEmail(s) {
      var i := IndexOf(s, '@').value;
      var domain := s[i + 1..];
      var m :| 0 <= m < |domain[1..|domain| - 1]| && domain[1..|domain| - 1][m] == '.';
      var j := i + 2 + m;
      assert s[j] == '.';
      forall k | 0 <= k < |s| && k != i ensures Plain(s[k]) {
        if k < i {
          assert s[k] in s[..i];
        } else {
          assert s[k] == domain[k - i - 1];
        }
      }
      assert PlainRun(s, 0, i) && PlainRun(s, i + 1, j) && PlainRun(s, j + 1, |s|);
    }
    if EmailPattern(s) {
      var i, j :| 0 <= i < j < |s| && s[i] == '@' && s[j] == '.'
                  && PlainRun(s, 0, i) && PlainRun(s, i + 1, j) && PlainRun(s, j + 1, |s|);
      EmailPatternIsEmail(s, i, j);
    }
  }

  lemma EmailPatternIsEmail(s: string, i: nat, j: nat)
    requires 0 <= i < j < |s| && s[i] == '@' && s[j] == '.'
    requires PlainRun(s, 0, i) && PlainRun(s, i + 1, j) && PlainRun(s, j + 1, |s|)
    ensures IsEmail(s)
  {
    assert '@' !in s[..i] by {
      forall k | 0 <= k < i ensures s[..i][k] != '@' { assert Plain(s[k]); }
    }
    assert IndexOf(s, '@') == Some(i);
    var domain := s[i + 1..];
    assert '@' !in domain by {
      forall k | 0 <= k < |domain| ensures domain[k] != '@' {
        assert domain[k] == s[i + 1 + k];
        if i + 1 + k != j { assert Plain(s[i + 1 + k]); }
      }
    }
    assert domain[1..|domain| - 1][j - i - 2] == '.';
    forall k | 0 <= k < |s| ensures !IsSpace(s[k]) {
      if k != i && k != j { assert Plain(s[k]); }
    }
  }

  /** The shortest address the pattern accepts. */
  lemma ShortestEmail()
    ensures IsEmail("a@b.c")
  {
    EmailPatternIsEmail("a@b.c", 1, 3);
  }

  /** Examples at the edges of the pattern: nothing before the `@`, a `.` right after it or
      at the end, a second `@`, a space. */
  lemma NotEmails()
    ensures !IsEmail("@b.c") && !IsEmail("a@.c") && !IsEmail("a@b.")
    ensures !IsEmail("a@b@c.d") && !IsEmail("a b@c.d")
  {
    assert IndexOf("@b.c", '@') == Some(0);
    assert IndexOf("a@.c", '@') == Some(1);
    assert "a@.c"[2..][1..1] == [];
    assert IndexOf("a@b.", '@') == Some(1);
    assert "a@b."[2..][1..1] == [];
    assert IndexOf("a@b@c.d", '@') == Some(1);
    assert "a@b@c.d"[2..][1] == '@';
    assert IsSpace("a b@c.d"[1]);
  }

  /** What pressing "sign up" leads to before any reply. */
  datatype Submit = Refused(message: string) | Post(username: string, email: string, password: string)

  /** `handleSubmit`'s checks in order: a blank field, then the untrimmed username's
      length, then the email pattern, then the password's length. */
  function HandleSubmit(username: string, email: string, password: string): (r: Submit)
    ensures r == Refused(AllRequired) <==> AllSpace(username) || AllSpace(email) || AllSpace(password)
    ensures r == Refused(ShortUsername) <==>
              !AllSpace(username) && !AllSpace(email) && !AllSpace(password) && |username| < MinLength
    ensures r == Refused(BadEmail) <==>
              !AllSpace(username) && !AllSpace(email) && !AllSpace(password) && |username| >= MinLength
              && !EmailPattern(email)
    ensures r == Refused(ShortPassword) <==>
              !AllSpace(username) && !AllSpace(password) && |username| >= MinLength
              && EmailPattern(email) && |password| < MinLength
    ensures r.Post? <==> (&& |username| >= MinLength && EmailPattern(email) && |password| >= MinLength
                          && !AllSpace(username) && !AllSpace(password))
    ensures r.Post? ==> r == Post(username, email, password)
  {
    EmailRegexExact(email);
    if AllSpace(username) || AllSpace(email) || AllSpace(password) then Refused(AllRequired)
    else if |username| < MinLength then Refused(ShortUsername)
    else if !IsEmail(email) then Refused(BadEmail)
    else if |password| < MinLength then Refused(ShortPassword)
    else Post(username, email, password)
  }

  /** An email the pattern accepts is never blank, so the blank-field check is redundant
      for it. */
  lemma EmailNotBlank(email: string)
    requires EmailPattern(email)
    ensures !AllSpace(email)
  {
    EmailRegexExact(email);
    var i := IndexOf(email, '@').value;
    assert !IsSpace(email[i]);
  }

  /** A form the page sends passes the server's length rules for username and password,
      so the server's schema refuses it at most for the email, which zod checks by its own
      rule. */
  lemma PostedFormMeetsServerLengths(username: string, email: string, password: string,
                                     isEmail: string -> bool)
    requires HandleSubmit(username, email, password).Post?
    ensures var body := AuthController.RegisterBody(AuthController.Text(username), AuthController.Text(email),
                                                    AuthController.Text(password));
            AuthController.RegisterIssues(body, isEmail) == [] <==> isEmail(email)
  {
    var body := AuthController.RegisterBody(AuthController.Text(username), AuthController.Text(email),
                                            AuthController.Text(password));
    AuthController.RegisterSchemaExact(body, isEmail);
  }

  /** The reply to the POST: the tokens and user of the new account, or the error body's
      `error` field, which may be missing. */
  datatype RegisterReply = Registered(accessToken: string, user: AuthContext.User, refreshToken: Option<string>)
                         | Failed(error: Option<string>)

  datatype Outcome = SignedIn(auth: AuthContext.AuthState) | ShowError(message: string, auth: AuthContext.AuthState)

  /** After the reply: a new account is logged in at once (then the page goes to `/`); a
      failure shows the server's error, or a fallback, and leaves the session alone. */
  function OnReply(st: AuthContext.AuthState, reply: RegisterReply, stringify: AuthContext.User -> string)
    : (r: Outcome)
    ensures r.SignedIn? <==> reply.Registered?
    ensures reply.Registered? ==>
              r.auth == AuthContext.Login(st, reply.accessToken, reply.user, reply.refreshToken, stringify)
              && r.auth.user == Some(reply.user)
    ensures reply.Registered? && reply.accessToken != "" ==> AuthContext.IsAuthenticated(r.auth)
    ensures reply.Failed? ==> r.auth == st
    ensures reply.Failed? && reply.error.Some? && reply.error.value != "" ==> r.message == reply.error.value
    ensures reply.Failed? && (reply.error.None? || reply.error.value == "") ==> r.message == RegistrationFailed
  {
    match reply
    case Registered(token, user, refresh) => SignedIn(AuthContext.Login(st, token, user, refresh, stringify))
    case Failed(error) => ShowError(if error.Some? && error.value != "" then error.value else RegistrationFailed, st)
  }
}

=== FILE: room_controller.dfy ===
/** The HTTP handlers of `Backend_TS/src/controllers/roomControllers.ts`: the public room
    list newest first, one room by id, and the owner-or-admin mode change. Each handler
    is a function from the room collection and the request to the response (status and
    JSON body) and the collection afterwards. Whether the database answers, whether an id
    casts to an `ObjectId`, and the owner's username (`populate`) are parameters. */
module RoomController {
  import opened Base
  import opened RoomModel

  const PublicRoomsFailed := "Failed to fetch public rooms"
  const RoomFailed := "Failed to fetch room"
  const ModeFailed := "Failed to update room mode"
  const InvalidMode := "Invalid mode"
  const NotFound := "Room not found"
  const AdminsOnly := "Only admins can change room settings"

  /** The populated owner: `{_id, username}`, or `null` when the user no longer exists. */
  datatype OwnerRef = OwnerRef(id: string, username: string) | NoOwner

  /** A room as `.select("name mode admins members owner createdAt")` returns it. */
  datatype RoomView = RoomView(id: string, name: string, mode: Mode, admins: seq<string>,
                               members: seq<string>, owner: OwnerRef, createdAt: nat)

  datatype Body = ErrorBody(error: string) | RoomList(rooms: seq<RoomView>) | OneRoom(room: RoomView)
                | SavedRoom(saved: Room)

  datatype Response = Response(status: nat, body: Body)

  function View(r: Room, username: string -> Option<string>): (v: RoomView)
    ensures v.id == r.id && v.name == r.name && v.mode == r.mode && v.createdAt == r.createdAt
    ensures v.admins == r.admins && v.members == r.members
    ensures v.owner.OwnerRef? <==> username(r.owner).Some?
    ensures v.owner.OwnerRef? ==> v.owner == OwnerRef(r.owner, username(r.owner).value)
  {
    var owner := match username(r.owner) case Some(u) => OwnerRef(r.owner, u) case None => NoOwner;
    RoomView(r.id, r.name, r.mode, r.admins, r.members, owner, r.createdAt)
  }

  predicate NewestFirst(vs: seq<RoomView>) {
    forall i, j :: 0 <= i < j < |vs| ==> vs[i].createdAt >= vs[j].createdAt
  }

  /** Insert `v` in front of the first view that is not newer than it. */
  function InsertNewestFirst(v: RoomView, vs: seq<RoomView>): (r: seq<RoomView>)
    requires NewestFirst(vs)
    ensures NewestFirst(r)
    ensures multiset(r) == multiset(vs) + multiset{v}
    decreases |vs|
  {
    if |vs| == 0 || vs[0].createdAt <= v.createdAt then [v] + vs
    else
      var rest := InsertNewestFirst(v, vs[1..]);
      NotNewerThanHead(v, vs, rest);
      ConsNewestFirst(vs, rest);
      [vs[0]] + rest
  }

  /** Putting back the head in front of the rest with `v` added keeps the order and adds
      `v` to the views. */
  lemma ConsNewestFirst(vs: seq<RoomView>, rest: seq<RoomView>)
    requires |vs| > 0 && NewestFirst(rest)
    requires forall k :: 0 <= k < |rest| ==> rest[k].createdAt <= vs[0].createdAt
    ensures NewestFirst([vs[0]] + rest)
    ensures multiset([vs[0]] + rest) == multiset{vs[0]} + multiset(rest)
    ensures multiset(vs) == multiset{vs[0]} + multiset(vs[1..])
  {
    var r := [vs[0]] + rest;
    forall i, j | 0 <= i < j < |r| ensures r[i].createdAt >= r[j].createdAt {
      assert r[j] == rest[j - 1];
      if i > 0 { assert r[i] == rest[i - 1]; }
    }
    assert vs == [vs[0]] + vs[1..];
  }

  lemma NotNewerThanHead(v: RoomView, vs: seq<RoomView>, rest: seq<RoomView>)
    requires |vs| > 0 && NewestFirst(vs) && vs[0].createdAt > v.createdAt
    requires multiset(rest) == multiset(vs[1..]) + multiset{v}
    ensures forall k :: 0 <= k < |rest| ==> rest[k].createdAt <= vs[0].createdAt
  {
    forall k | 0 <= k < |rest| ensures rest[k].createdAt <= vs[0].createdAt {
      assert rest[k] in multiset(rest);
      if rest[k] != v {
        assert rest[k] in multiset(vs[1..]);
        var j :| 0 <= j < |vs[1..]| && vs[1..][j] == rest[k];
        assert vs[j + 1] == rest[k];
      }
    }
  }

  /** `.sort({createdAt: -1})`: the same views, newest first. */
  function SortNewestFirst(vs: seq<RoomView>): (r: seq<RoomView>)
    ensures NewestFirst(r)
    ensures multiset(r) == multiset(vs)
    decreases |vs|
  {
    if |vs| == 0 then []
    else
      assert vs == [vs[0]] + vs[1..];
      InsertNewestFirst(vs[0], SortNewestFirst(vs[1..]))
  }

  /** `Room.find({isPublic: true})` with the projection and the owner populated. */
  function PublicViews(rs: Rooms, username: string -> Option<string>): (r: seq<RoomView>)
    ensures |r| <= |rs|
    ensures forall v :: v in r <==> exists i :: 0 <= i < |rs| && rs[i].isPublic && v == View(rs[i], username)
    decreases |rs|
  {
    if |rs| == 0 then []
    else
      var rest := PublicViews(rs[1..], username);
      assert forall i :: 1 <= i < |rs| ==> rs[1..][i - 1] == rs[i];
      (if rs[0].isPublic then [View(rs[0], username)] else []) + rest
  }

  /** `getPublicRooms`: 200 with the public rooms, newest first, or 500. */
  function GetPublicRooms(rs: Rooms, username: string -> Option<string>, dbUp: bool): (r: Response)
    ensures !dbUp <==> r == Response(500, ErrorBody(PublicRoomsFailed))
    ensures dbUp ==> r.status == 200 && r.body.RoomList? && NewestFirst(r.body.rooms)
    ensures dbUp ==> multiset(r.body.rooms) == multiset(PublicViews(rs, username))
  {
    if !dbUp then Response(500, ErrorBody(PublicRoomsFailed))
    else Response(200, RoomList(SortNewestFirst(PublicViews(rs, username))))
  }

  /** Exactly the public rooms are listed: a room appears iff it is public. */
  lemma PublicRoomsAreThePublicOnes(rs: Rooms, username: string -> Option<string>, v: RoomView)
    ensures var r := GetPublicRooms(rs, username, true);
            v in r.body.rooms <==> exists i :: 0 <= i < |rs| && rs[i].isPublic && v == View(rs[i], username)
  {
    var r := GetPublicRooms(rs, username, true);
    assert v in r.body.rooms <==> v in multiset(r.body.rooms);
    assert v in PublicViews(rs, username) <==> v in multiset(PublicViews(rs, username));
  }

  /** `getRoomById`: 200 with the room, 404 when no room has the id, 500 when the id does
      not cast or the database fails. */
  function GetRoomById(rs: Rooms, id: string, castable: string -> bool,
                       username: string -> Option<string>, dbUp: bool): (r: Response)
    ensures !dbUp || !castable(id) <==> r == Response(500, ErrorBody(RoomFailed))
    ensures dbUp && castable(id) && !HasId(rs, id) <==> r == Response(404, ErrorBody(NotFound))
    ensures r.status == 200 ==> exists i :: 0 <= i < |rs| && rs[i].id == id && r.body == OneRoom(View(rs[i], username))
    ensures dbUp && castable(id) && HasId(rs, id) ==>
              r == Response(200, OneRoom(View(rs[FindById(rs, id).value], username)))
  {
    if !dbUp || !castable(id) then Response(500, ErrorBody(RoomFailed))
    else match FindById(rs, id)
      case None => Response(404, ErrorBody(NotFound))
      case Some(i) => Response(200, OneRoom(View(rs[i], username)))
  }

  /** `String(req.user?.id)`: a request without an authenticated user compares as the
      string `"undefined"`. */
  function UserIdString(user: Option<string>): string {
    user.GetOr("undefined")
  }

  /** Owner or listed admin. */
  predicate MayChangeMode(r: Room, user: Option<string>) {
    r.owner == UserIdString(user) || UserIdString(user) in r.admins
  }

  /** `updateRoomMode`: the mode is checked before anything is looked up (400), then the
      room (500 for an id that does not cast, 404 when absent), then the requester (403
      unless owner or admin); an authorised request saves the new mode and answers 200. */
  function UpdateRoomMode(rs: Rooms, id: string, mode: Option<string>, user: Option<string>,
                          castable: string -> bool, dbUp: bool): (r: (Response, Rooms))
    ensures (mode.None? || ParseMode(mode.value).None?) <==> r == (Response(400, ErrorBody(InvalidMode)), rs)
    ensures r.0.status != 200 ==> r.1 == rs
    ensures r.0.status == 500 <==> mode.Some? && ParseMode(mode.value).Some? && (!dbUp || !castable(id))
    ensures r.0.status == 500 ==> r.0.body == ErrorBody(ModeFailed)
    ensures r.0.status == 404 <==> mode.Some? && ParseMode(mode.value).Some? && dbUp && castable(id) && !HasId(rs, id)
    ensures r.0.status == 404 ==> r.0.body == ErrorBody(NotFound)
    ensures r.0.status == 403 <==>
              mode.Some? && ParseMode(mode.value).Some? && dbUp && castable(id) && HasId(rs, id)
              && !MayChangeMode(rs[FindById(rs, id).value], user)
    ensures r.0.status == 403 ==> r.0.body == ErrorBody(AdminsOnly)
    ensures r.0.status == 200 <==>
              mode.Some? && ParseMode(mode.value).Some? && dbUp && castable(id) && HasId(rs, id)
              && MayChangeMode(rs[FindById(rs, id).value], user)
    ensures r.0.status == 200 ==> var i := FindById(rs, id).value;
              && r.1 == rs[i := rs[i].(mode := ParseMode(mode.value).value)]
              && r.0.body == SavedRoom(r.1[i])
  {
    if mode.None? || ParseMode(mode.value).None? then (Response(400, ErrorBody(InvalidMode)), rs)
    else if !dbUp || !castable(id) then (Response(500, ErrorBody(ModeFailed)), rs)
    else match FindById(rs, id)
      case None => (Response(404, ErrorBody(NotFound)), rs)
      case Some(i) =>
        if !MayChangeMode(rs[i], user) then (Response(403, ErrorBody(AdminsOnly)), rs)
        else
          var room := rs[i].(mode := ParseMode(mode.value).value);
          (Response(200, SavedRoom(room)), rs[i := room])
  }

  /** An authorised mode change touches only that room's mode. */
  lemma UpdateRoomModeOnlyMode(rs: Rooms, id: string, mode: Option<string>, user: Option<string>,
                               castable: string -> bool)
    requires UpdateRoomMode(rs, id, mode, user, castable, true).0.status == 200
    ensures var rs' := UpdateRoomMode(rs, id, mode, user, castable, true).1;
            && |rs'| == |rs|
            && (forall j :: 0 <= j < |rs| ==> rs'[j] == rs[j].(mode := rs'[j].mode))
            && (forall j :: 0 <= j < |rs| && rs[j].id != id ==> rs'[j] == rs[j])
  {
  }

  /** Repeating an authorised mode change answers 200 again and leaves the same collection. */
  lemma UpdateRoomModeRepeat(rs: Rooms, id: string, mode: Option<string>, user: Option<string>,
                             castable: string -> bool)
    requires UpdateRoomMode(rs, id, mode, user, castable, true).0.status == 200
    ensures var (r, rs') := UpdateRoomMode(rs, id, mode, user, castable, true);
            UpdateRoomMode(rs', id, mode, user, castable, true) == (r, rs')
  {
    var i := FindById(rs, id).value;
    var m := ParseMode(mode.value).value;
    var rs' := rs[i := rs[i].(mode := m)];
    FirstIdUnchanged(rs, id, i, m);
    assert MayChangeMode(rs'[i], user);
    assert rs'[i].(mode := m) == rs'[i];
    assert rs'[i := rs'[i]] == rs';
  }

  lemma FirstIdUnchanged(rs: Rooms, id: string, i: nat, m: Mode)
    requires FindById(rs, id) == Some(i)
    ensures FindById(rs[i := rs[i].(mode := m)], id) == Some(i)
  {
    var rs' := rs[i := rs[i].(mode := m)];
    assert rs'[i].id == id;
    assert forall j :: 0 <= j < |rs| ==> rs'[j].id == rs[j].id;
  }
}

=== FILE: room_model.dfy ===
/** The `Room` collection of `Backend_TS/src/models/room.model.ts`: a chat room, its
    schema (a trimmed, unique name of 3 to 50 characters, an optional description of at
    most 200, a required owner, a mode from `Global`/`Native`) and `Room.create` with the
    schema's defaults against an insertion-ordered collection. Document ids and the clock
    are parameters. */
module RoomModel {
  import opened Base
  import opened Text

  const NameMinLength: nat := 3
  const NameMaxLength: nat := 50
  const DescriptionMaxLength: nat := 200

  datatype Mode = Global | Native

  /** The `enum` check of the `mode` path. */
  function ParseMode(s: string): (m: Option<Mode>)
    ensures m == Some(Global) <==> s == "Global"
    ensures m == Some(Native) <==> s == "Native"
  {
    if s == "Global" then Some(Global) else if s == "Native" then Some(Native) else None
  }

  function ModeName(m: Mode): (s: string)
    ensures ParseMode(s) == Some(m)
  {
    match m
    case Global => "Global"
    case Native => "Native"
  }

  /** A stored room; user references are the users' id strings. */
  datatype Room = Room(id: string, name: string, description: string, owner: string,
                       admins: seq<string>, members: seq<string>, isPublic: bool,
                       mode: Mode, createdAt: nat)

  /** What a caller hands to `Room.create`; `None` is a path left `undefined`, to which the
      schema default applies. */
  datatype Draft = Draft(name: string, description: Option<string>, owner: string,
                         admins: seq<string>, members: seq<string>, isPublic: Option<bool>,
                         mode: Option<string>)

  /** The collection, in insertion order. */
  type Rooms = seq<Room>

  /** Every stored room passed the schema's validators. */
  predicate Conforms(r: Room) {
    && IsTrimmed(r.name) && NameMinLength <= |r.name| <= NameMaxLength
    && |r.description| <= DescriptionMaxLength
    && r.owner != ""
  }

  /** The collection invariants: schema conformance, distinct ids, and the unique name
      index. */
  ghost predicate Valid(rs: Rooms) {
    && (forall i :: 0 <= i < |rs| ==> Conforms(rs[i]))
    && (forall i, j :: 0 <= i < j < |rs| ==> rs[i].id != rs[j].id)
    && (forall i, j :: 0 <= i < j < |rs| ==> rs[i].name != rs[j].name)
  }

  predicate HasId(rs: Rooms, id: string) {
    exists i :: 0 <= i < |rs| && rs[i].id == id
  }

  /** `findOne({name})`; the query value passes through the path's `trim` setter like the
      stored value did. */
  function FindByName(rs: Rooms, name: string): (r: Option<nat>)
    ensures r.Some? ==> r.value < |rs| && rs[r.value].name == Trim(name)
    ensures r.None? ==> forall i :: 0 <= i < |rs| ==> rs[i].name != Trim(name)
  {
    IndexOfName(rs, Trim(name), 0)
  }

  /** The first index at or after `from` of a room called `key`. */
  function IndexOfName(rs: Rooms, key: string, from: nat): (r: Option<nat>)
    requires from <= |rs|
    ensures r.Some? ==> from <= r.value < |rs| && rs[r.value].name == key
    ensures r.Some? ==> forall k :: from <= k < r.value ==> rs[k].name != key
    ensures r.None? ==> forall i :: from <= i < |rs| ==> rs[i].name != key
  {
    FirstIndex(rs, (room: Room) => room.name == key, from)
  }

  /** `findById(id)`: the first index at or after `from` of the room with that id. */
  function FindById(rs: Rooms, id: string, from: nat := 0): (r: Option<nat>)
    requires from <= |rs|
    ensures r.Some? ==> from <= r.value < |rs| && rs[r.value].id == id
    ensures r.Some? ==> forall k :: from <= k < r.value ==> rs[k].id != id
    ensures r.None? <==> forall i :: from <= i < |rs| ==> rs[i].id != id
  {
    FirstIndex(rs, (room: Room) => room.id == id, from)
  }

  datatype CreateError = ValidationError | DuplicateKey

  /** The room a valid draft becomes: the trimmed name, `''` for a missing description,
      public unless told otherwise, `Global` unless told otherwise. */
  function Materialise(d: Draft, id: string, now: nat, mode: Mode): Room {
    Room(id, Trim(d.name), d.description.GetOr(""), d.owner, d.admins, d.members,
         d.isPublic.GetOr(true), mode, now)
  }

  /** The schema's setters and validators accept the draft: after trimming, the name has 3
      to 50 characters, the description (default `''`) at most 200, the owner is set, and a
      given mode is one of the enum values. */
  predicate Admissible(d: Draft) {
    && NameMinLength <= |Trim(d.name)| <= NameMaxLength
    && |d.description.GetOr("")| <= DescriptionMaxLength
    && d.owner != ""
    && (d.mode.None? || ParseMode(d.mode.value).Some?)
  }

  /** `Room.create`: the setters and validators of the schema, then the unique name index.
      `id` is the fresh `ObjectId` the driver assigns. */
  function Create(rs: Rooms, d: Draft, id: string, now: nat): (r: Result<(Room, Rooms), CreateError>)
    ensures !Admissible(d) <==> r == Err(ValidationError)
    ensures Admissible(d) && FindByName(rs, d.name).Some? <==> r == Err(DuplicateKey)
    ensures r.Ok? ==> var (room, rs') := r.value;
            && rs' == rs + [room]
            && room.id == id && room.name == Trim(d.name) && room.owner == d.owner
            && room.admins == d.admins && room.members == d.members && room.createdAt == now
            && room.description == d.description.GetOr("")
            && room.isPublic == d.isPublic.GetOr(true)
            && room.mode == (if d.mode.Some? then ParseMode(d.mode.value).value else Global)
  {
    if !Admissible(d) then Err(ValidationError)
    else if FindByName(rs, d.name).Some? then Err(DuplicateKey)
    else
      var mode := if d.mode.Some? then ParseMode(d.mode.value).value else Global;
      var room := Materialise(d, id, now, mode);
      Ok((room, rs + [room]))
  }

  /** A successful create keeps the collection valid: the new room conforms to the schema,
      its id is fresh and its name is not yet taken. */
  lemma CreateKeepsValid(rs: Rooms, d: Draft, id: string, now: nat)
    requires Valid(rs) && !HasId(rs, id)
    requires Create(rs, d, id, now).Ok?
    ensures Valid(Create(rs, d, id, now).value.1)
  {
    var (room, rs') := Create(rs, d, id, now).value;
    assert FindByName(rs, d.name).None?;
    ValidSnoc(rs, room);
  }

  lemma ValidSnoc(rs: Rooms, room: Room)
    requires Valid(rs) && Conforms(room)
    requires forall i :: 0 <= i < |rs| ==> rs[i].id != room.id && rs[i].name != room.name
    ensures Valid(rs + [room])
  {
    var rs' := rs + [room];
    forall i | 0 <= i < |rs'| ensures Conforms(rs'[i]) {
      if i < |rs| { assert rs'[i] == rs[i]; }
    }
    forall i, j | 0 <= i < j < |rs'| ensures rs'[i].id != rs'[j].id && rs'[i].name != rs'[j].name {
      assert rs'[i] == rs[i];
    }
  }
}

=== FILE: room_service.dfy ===
/** `Backend_TS/src/services/rom.service.ts`: creating a room with its owner as sole admin
    and member, changing a room's mode by name, and the owner-only deletion that also
    removes the room's messages. The room and message collections are values; document
    ids, the clock, whether the database answers and whether an id casts to an `ObjectId`
    are parameters. */
module RoomService {
  import opened Base
  import opened Text
  import opened RoomModel
  import MessageModel
  import ChatService

  const NameTakenMessage := "Room name already exists"
  const NotFoundMessage := "Room not found"
  const NotOwnerMessage := "Only the room owner can delete this room"

  /** A thrown `Error` with its message, the schema's own `ValidationError`, the `CastError`
      of an id that is not an `ObjectId`, or the driver's error when the database does not
      answer. */
  datatype Failure = Thrown(message: string) | SchemaRejected | CastFailed | DatabaseFailed

  /** The role layout `createRoom` sets up: the owner is an admin, and every admin is a
      member. */
  predicate RolesOk(r: Room) {
    r.owner in r.admins && forall a :: a in r.admins ==> a in r.members
  }

  ghost predicate AllRolesOk(rs: Rooms) {
    forall i :: 0 <= i < |rs| ==> RolesOk(rs[i])
  }

  /** `createRoom`: a name already in use (after trimming) is refused before anything is
      written; otherwise a public room whose owner, only admin and only member is `ownerId`. */
  function CreateRoom(rs: Rooms, name: string, ownerId: string, mode: Mode, id: string, now: nat, dbUp: bool)
    : (r: Result<(Room, Rooms), Failure>)
    ensures !dbUp <==> r == Err(DatabaseFailed)
    ensures dbUp && FindByName(rs, name).Some? ==> r == Err(Thrown(NameTakenMessage))
    ensures r.Ok? ==> var (room, rs') := r.value;
            && rs' == rs + [room]
            && room.id == id && room.name == Trim(name) && room.owner == ownerId
            && room.admins == [ownerId] && room.members == [ownerId]
            && room.isPublic && room.mode == mode && room.description == "" && room.createdAt == now
            && RolesOk(room)
    ensures r.Err? ==> r.error in {Thrown(NameTakenMessage), SchemaRejected, DatabaseFailed}
  {
    if !dbUp then Err(DatabaseFailed)
    else if FindByName(rs, name).Some? then Err(Thrown(NameTakenMessage))
    else
      var d := Draft(name, None, ownerId, [ownerId], [ownerId], Some(true), Some(ModeName(mode)));
      match Create(rs, d, id, now)
      case Ok(v) => Ok(v)
      case Err(_) => Err(SchemaRejected)
  }

  /** `createRoom` fails exactly for a database failure, a taken name or a name the schema
      refuses, and a created room keeps every invariant of the collection. */
  lemma CreateRoomCases(rs: Rooms, name: string, ownerId: string, mode: Mode, id: string, now: nat, dbUp: bool)
    requires Valid(rs) && AllRolesOk(rs) && !HasId(rs, id)
    ensures var r := CreateRoom(rs, name, ownerId, mode, id, now, dbUp);
            && (r.Ok? <==> dbUp && FindByName(rs, name).None? && NameMinLength <= |Trim(name)| <= NameMaxLength
                           && ownerId != "")
            && (r.Ok? ==> Valid(r.value.1) && AllRolesOk(r.value.1))
  {
    var r := CreateRoom(rs, name, ownerId, mode, id, now, dbUp);
    var d := Draft(name, None, ownerId, [ownerId], [ownerId], Some(true), Some(ModeName(mode)));
    if r.Ok? {
      CreateKeepsValid(rs, d, id, now);
      var rs' := r.value.1;
      forall i | 0 <= i < |rs'| ensures RolesOk(rs'[i]) {
        if i < |rs| { assert rs'[i] == rs[i]; }
      }
    }
  }

  /** `updateRoomMode` of the service: the room with that name gets the new mode and nothing
      else changes; an unknown name is refused, and a database failure changes nothing. */
  function UpdateRoomMode(rs: Rooms, name: string, mode: Mode, dbUp: bool): (r: Result<(Room, Rooms), Failure>)
    ensures !dbUp <==> r == Err(DatabaseFailed)
    ensures dbUp && FindByName(rs, name).None? <==> r == Err(Thrown(NotFoundMessage))
    ensures dbUp && FindByName(rs, name).Some? <==> r.Ok?
    ensures r.Ok? ==> var (room, rs') := r.value;
            && |rs'| == |rs|
            && exists i :: 0 <= i < |rs| && rs[i].name == Trim(name) && room == rs'[i] == rs[i].(mode := mode)
                           && forall j :: 0 <= j < |rs| && j != i ==> rs'[j] == rs[j]
  {
    if !dbUp then Err(DatabaseFailed)
    else match FindByName(rs, name)
    case None => Err(Thrown(NotFoundMessage))
    case Some(i) =>
      var room := rs[i].(mode := mode);
      Ok((room, rs[i := room]))
  }

  /** Changing the mode keeps every invariant of the collection. */
  lemma UpdateRoomModeKeeps(rs: Rooms, name: string, mode: Mode)
    requires Valid(rs) && AllRolesOk(rs)
    requires UpdateRoomMode(rs, name, mode, true).Ok?
    ensures Valid(UpdateRoomMode(rs, name, mode, true).value.1) && AllRolesOk(UpdateRoomMode(rs, name, mode, true).value.1)
  {
    var i := FindByName(rs, name).value;
    ReplaceKeeps(rs, i, rs[i].(mode := mode));
  }

  /** Repeating a mode change changes nothing more. */
  lemma UpdateRoomModeIdempotent(rs: Rooms, name: string, mode: Mode)
    requires Valid(rs)
    requires UpdateRoomMode(rs, name, mode, true).Ok?
    ensures var rs' := UpdateRoomMode(rs, name, mode, true).value.1;
            UpdateRoomMode(rs', name, mode, true).Ok? && UpdateRoomMode(rs', name, mode, true).value.1 == rs'
  {
    var i := FindByName(rs, name).value;
    FirstNameUnchanged(rs, Trim(name), i, mode);
  }

  /** Changing the mode of the first room called `key` keeps it the first room called `key`. */
  lemma FirstNameUnchanged(rs: Rooms, key: string, i: nat, mode: Mode)
    requires Valid(rs)
    requires IndexOfName(rs, key, 0) == Some(i)
    ensures IndexOfName(rs[i := rs[i].(mode := mode)], key, 0) == Some(i)
  {
    var rs' := rs[i := rs[i].(mode := mode)];
    assert rs'[i].name == key;
  }

  /** Replacing a room by one with the same id, name and roles, which still conforms to the
      schema, keeps the collection's invariants. */
  lemma ReplaceKeeps(rs: Rooms, i: nat, room: Room)
    requires Valid(rs) && AllRolesOk(rs) && i < |rs|
    requires room.id == rs[i].id && room.name == rs[i].name && Conforms(room) && RolesOk(room)
    ensures Valid(rs[i := room]) && AllRolesOk(rs[i := room])
  {
    var rs' := rs[i := room];
    assert forall j :: 0 <= j < |rs| ==> rs'[j].name == rs[j].name && rs'[j].id == rs[j].id;
  }

  /** `Message.deleteMany({room: name})`: the messages of every other room, in order. */
  function WithoutRoom(ms: MessageModel.Store, name: string): (r: MessageModel.Store)
    ensures |r| <= |ms|
    ensures forall m :: m in r <==> m in ms && m.room != name
    decreases |ms|
  {
    if |ms| == 0 then []
    else
      var rest := WithoutRoom(ms[1..], name);
      if ms[0].room == name then rest else [ms[0]] + rest
  }

  /** Deleting one room's messages leaves every other room's history exactly as it was, and
      the deleted room with none. */
  lemma {:induction false} WithoutRoomHistories(ms: MessageModel.Store, name: string, other: string)
    ensures ChatService.InRoom(WithoutRoom(ms, name), other)
              == if other == name then [] else ChatService.InRoom(ms, other)
    decreases |ms|
  {
    if |ms| > 0 {
      WithoutRoomHistories(ms[1..], name, other);
      var rest := WithoutRoom(ms[1..], name);
      if ms[0].room != name {
        assert ([ms[0]] + rest)[1..] == rest;
      }
    }
  }

  /** `deleteRoom`: an id that does not cast, a database failure, an unknown id, then a
      requester other than the owner (admins included), are refused with nothing deleted;
      otherwise the room's messages and then the room are deleted, and its name is
      returned. */
  function DeleteRoom(rs: Rooms, ms: MessageModel.Store, roomId: string, userId: string,
                      castable: string -> bool, dbUp: bool)
    : (r: Result<(string, Rooms, MessageModel.Store), Failure>)
    ensures !castable(roomId) <==> r == Err(CastFailed)
    ensures castable(roomId) && !dbUp <==> r == Err(DatabaseFailed)
    ensures castable(roomId) && dbUp && !HasId(rs, roomId) <==> r == Err(Thrown(NotFoundMessage))
    ensures (castable(roomId) && dbUp && HasId(rs, roomId) && rs[FindById(rs, roomId).value].owner != userId)
              <==> r == Err(Thrown(NotOwnerMessage))
    ensures (castable(roomId) && dbUp && HasId(rs, roomId) && rs[FindById(rs, roomId).value].owner == userId)
              <==> r.Ok?
    ensures r.Ok? ==> var (name, rs', ms') := r.value;
            var i := FindById(rs, roomId).value;
            && rs[i].owner == userId && name == rs[i].name
            && rs' == rs[..i] + rs[i + 1..]
            && ms' == WithoutRoom(ms, name)
  {
    if !castable(roomId) then Err(CastFailed)
    else if !dbUp then Err(DatabaseFailed)
    else match FindById(rs, roomId)
    case None => Err(Thrown(NotFoundMessage))
    case Some(i) =>
      var room := rs[i];
      if room.owner != userId then Err(Thrown(NotOwnerMessage))
      else Ok((room.name, rs[..i] + rs[i + 1..], WithoutRoom(ms, room.name)))
  }

  /** A successful deletion removes exactly the room with that id, keeps the other rooms and
      their invariants, and keeps the message collection valid. */
  lemma DeleteRoomKeeps(rs: Rooms, ms: MessageModel.Store, roomId: string, userId: string,
                        castable: string -> bool)
    requires Valid(rs) && AllRolesOk(rs) && MessageModel.Valid(ms)
    requires DeleteRoom(rs, ms, roomId, userId, castable, true).Ok?
    ensures var (name, rs', ms') := DeleteRoom(rs, ms, roomId, userId, castable, true).value;
            && Valid(rs') && AllRolesOk(rs') && MessageModel.Valid(ms')
            && !HasId(rs', roomId)
            && (forall room :: room in rs' <==> room in rs && room.id != roomId)
  {
    var (name, rs', ms') := DeleteRoom(rs, ms, roomId, userId, castable, true).value;
    WithoutRoomValid(ms, name);
    RemoveAtKeeps(rs, FindById(rs, roomId).value);
  }

  /** Removing the room at index `i` keeps the invariants and leaves exactly the rooms with
      another id. */
  lemma RemoveAtKeeps(rs: Rooms, i: nat)
    requires Valid(rs) && AllRolesOk(rs) && i < |rs|
    ensures var rs' := rs[..i] + rs[i + 1..];
            && Valid(rs') && AllRolesOk(rs') && !HasId(rs', rs[i].id)
            && (forall room :: room in rs' <==> room in rs && room.id != rs[i].id)
  {
    var rs' := rs[..i] + rs[i + 1..];
    assert forall j :: 0 <= j < |rs'| ==> rs'[j] == rs[if j < i then j else j + 1];
    forall room | room in rs ensures room in rs' <==> room.id != rs[i].id {
      var k :| 0 <= k < |rs| && rs[k] == room;
      if k < i { assert rs'[k] == room; }
      else if k > i { assert rs'[k - 1] == room; }
    }
  }

  lemma {:induction false} WithoutRoomValid(ms: MessageModel.Store, name: string)
    requires MessageModel.Valid(ms)
    ensures MessageModel.Valid(WithoutRoom(ms, name))
    decreases |ms|
  {
    if |ms| > 0 {
      var tail := ms[1..];
      MessageModel.ValidTail(ms);
      WithoutRoomValid(tail, name);
      var rest := WithoutRoom(tail, name);
      if ms[0].room != name {
        forall j | 0 <= j < |rest| ensures ms[0].msgId != rest[j].msgId && ms[0].createdAt <= rest[j].createdAt {
          assert rest[j] in tail;
          var k :| 0 <= k < |tail| && tail[k] == rest[j];
          assert tail[k] == ms[k + 1];
        }
        MessageModel.ValidCons(ms[0], rest);
      }
    }
  }
}

=== FILE: room_view.dfy ===
/** The client state of a chat room in `Frontend_TS/src/pages/Chat/RoomPage.tsx`: which text
    a message shows, the reducers for late translations, reaction updates and typing
    indicators, the typing banner, the initial language, and the guards of sending a
    message and of toggling the room mode. `localStorage`, `navigator.language`, the clock
    and `Math.random()` are parameters. */
module RoomView {
  import opened Base
  import opened Text
  import opened Scripts
  import opened MessageBubble
  import RoomModel

  const LangOptions: seq<string> := ["en", "hi", "bn", "es", "fr", "de", "ja"]
  const DefaultLang := "en"
  const AnonymousName := "Anonymous"
  const MissingRoomMessage := "Missing room id"
  const SendNotConnectedMessage := "Socket not connected. Please re-login or refresh."
  const ToggleNotConnectedMessage := "Socket not connected. Please refresh or login again."
  const NotAdminMessage := "Only admins can change room settings"

  /** `getOriginalText`: `original || message || ""`. */
  function OriginalText(msg: MessageData): (r: string)
    ensures r == "" ==> msg.message == "" && (msg.original.None? || msg.original == Some(""))
  {
    if msg.original.Some? && msg.original.value != "" then msg.original.value else msg.message
  }

  /** `msg.translations?.[lang]`, with `undefined` and `''` both falsy. */
  function TranslationInto(msg: MessageData, lang: string): Option<string> {
    if msg.translations.Some? && lang in msg.translations.value && msg.translations.value[lang] != ""
    then Some(msg.translations.value[lang]) else None
  }

  /** The original is shown in a `Native` room or with the original-text toggle on. */
  predicate ShowsOriginal(mode: RoomModel.Mode, originalToggle: bool) {
    mode == RoomModel.Native || originalToggle
  }

  /** `getDisplayText`. */
  function DisplayText(msg: MessageData, mode: RoomModel.Mode, originalToggle: bool, myLang: string): (r: string)
    ensures ShowsOriginal(mode, originalToggle) ==> r == OriginalText(msg)
    ensures r == "" ==> OriginalText(msg) == ""
    ensures r == OriginalText(msg) || r == msg.message
            || Some(r) == TranslationInto(msg, myLang) || Some(r) == TranslationInto(msg, "en")
  {
    if ShowsOriginal(mode, originalToggle) then OriginalText(msg)
    else if TranslationInto(msg, myLang).Some? then TranslationInto(msg, myLang).value
    else if TranslationInto(msg, "en").Some? then TranslationInto(msg, "en").value
    else if msg.message != "" then msg.message
    else OriginalText(msg)
  }

  /** Outside `Native` mode the chain is: own language, English, the delivered text, the
      original. */
  lemma DisplayPreference(msg: MessageData, mode: RoomModel.Mode, originalToggle: bool, myLang: string)
    requires !ShowsOriginal(mode, originalToggle)
    ensures TranslationInto(msg, myLang).Some? ==> DisplayText(msg, mode, originalToggle, myLang) == TranslationInto(msg, myLang).value
    ensures TranslationInto(msg, myLang).None? && TranslationInto(msg, "en").Some? ==>
              DisplayText(msg, mode, originalToggle, myLang) == TranslationInto(msg, "en").value
    ensures TranslationInto(msg, myLang).None? && TranslationInto(msg, "en").None? ==>
              DisplayText(msg, mode, originalToggle, myLang) == (if msg.message != "" then msg.message else OriginalText(msg))
  {
  }

  /** `onTranslationsReady`: the message with the given id gets the new translations merged
      over its own (new keys win); every other message is left as it is. */
  function MergeTranslations(msgs: seq<MessageData>, msgId: string, incoming: map<string, string>)
    : (r: seq<MessageData>)
    ensures |r| == |msgs|
    ensures forall i :: 0 <= i < |msgs| && msgs[i].msgId != msgId ==> r[i] == msgs[i]
    ensures forall i :: 0 <= i < |msgs| && msgs[i].msgId == msgId ==>
              && r[i] == msgs[i].(translations := r[i].translations)
              && r[i].translations.Some?
              && (forall k :: k in incoming ==> k in r[i].translations.value && r[i].translations.value[k] == incoming[k])
              && (forall k :: k in r[i].translations.value && k !in incoming ==>
                    msgs[i].translations.Some? && k in msgs[i].translations.value
                    && r[i].translations.value[k] == msgs[i].translations.value[k])
  {
    seq(|msgs|, i requires 0 <= i < |msgs| =>
      if msgs[i].msgId == msgId
      then msgs[i].(translations := Some(msgs[i].translations.GetOr(map[]) + incoming))
      else msgs[i])
  }

  /** A repeated `translations_ready` event changes nothing more. */
  lemma MergeIdempotent(msgs: seq<MessageData>, msgId: string, incoming: map<string, string>)
    ensures MergeTranslations(MergeTranslations(msgs, msgId, incoming), msgId, incoming)
            == MergeTranslations(msgs, msgId, incoming)
  {
    var once := MergeTranslations(msgs, msgId, incoming);
    forall i | 0 <= i < |msgs| && msgs[i].msgId == msgId
      ensures once[i].translations.value + incoming == once[i].translations.value
    {
      var m := once[i].translations.value;
      assert m + incoming == m by {
        assert (m + incoming).Keys == m.Keys;
      }
    }
  }

  /** Once a translation into the reader's language arrives, a message outside `Native`
      mode shows it. */
  lemma MergedTranslationShown(msgs: seq<MessageData>, msgId: string, incoming: map<string, string>,
                               i: nat, mode: RoomModel.Mode, myLang: string)
    requires i < |msgs| && msgs[i].msgId == msgId
    requires myLang in incoming && incoming[myLang] != ""
    requires mode == RoomModel.Global
    ensures DisplayText(MergeTranslations(msgs, msgId, incoming)[i], mode, false, myLang) == incoming[myLang]
  {
  }

  /** `onReactionUpdate`: the message with the given id gets the new record wholesale. */
  function ReplaceReactions(msgs: seq<MessageData>, msgId: string, reactions: seq<(string, ReactionValue)>)
    : (r: seq<MessageData>)
    ensures |r| == |msgs|
    ensures forall i :: 0 <= i < |msgs| ==>
              r[i] == if msgs[i].msgId == msgId then msgs[i].(reactions := Some(reactions)) else msgs[i]
  {
    seq(|msgs|, i requires 0 <= i < |msgs| =>
      if msgs[i].msgId == msgId then msgs[i].(reactions := Some(reactions)) else msgs[i])
  }

  /** Only the latest reaction update of a message counts. */
  lemma LatestReactionsWin(msgs: seq<MessageData>, msgId: string, a: seq<(string, ReactionValue)>,
                           b: seq<(string, ReactionValue)>)
    ensures ReplaceReactions(ReplaceReactions(msgs, msgId, a), msgId, b) == ReplaceReactions(msgs, msgId, b)
  {
  }

  /** A `user_typing` start: the author is added once, at the end. */
  function TypingStart(users: seq<string>, author: string): (r: seq<string>)
    ensures author in r && forall u :: u in users ==> u in r
    ensures forall u :: u in r ==> u in users || u == author
    ensures NoDuplicates(users) ==> NoDuplicates(r)
  {
    if author in users then users else users + [author]
  }

  /** A `user_typing` stop, or the five-second safety timer: every occurrence goes. */
  function TypingStop(users: seq<string>, author: string): (r: seq<string>)
    ensures author !in r
    ensures forall u :: u in users && u != author <==> u in r
    ensures NoDuplicates(users) ==> NoDuplicates(r)
  {
    assert NoDuplicates(users) ==> NoDuplicates(Filter(users, u => u != author)) by {
      if NoDuplicates(users) {
        FilterNoDuplicates(users, u => u != author);
      }
    }
    Filter(users, u => u != author)
  }

  /** A `user_typing` event, start or stop. */
  datatype TypingEvent = Start(author: string) | Stop(author: string)

  function ApplyTyping(users: seq<string>, events: seq<TypingEvent>): seq<string>
    decreases |events|
  {
    if |events| == 0 then users
    else
      var next := match events[0]
                  case Start(a) => TypingStart(users, a)
                  case Stop(a) => TypingStop(users, a);
      ApplyTyping(next, events[1..])
  }

  /** Any sequence of typing events keeps the list free of repetitions. */
  lemma {:induction false} TypingNeverRepeats(users: seq<string>, events: seq<TypingEvent>)
    requires NoDuplicates(users)
    ensures NoDuplicates(ApplyTyping(users, events))
    decreases |events|
  {
    if |events| > 0 {
      var next := match events[0]
                  case Start(a) => TypingStart(users, a)
                  case Stop(a) => TypingStop(users, a);
      TypingNeverRepeats(next, events[1..]);
    }
  }

  /** `typingDisplay`. */
  function TypingBanner(users: seq<string>): (r: Option<string>)
    ensures r.None? <==> users == []
    ensures r.Some? ==> StartsWith(r.value, users[0])
    ensures |users| >= 3 ==> r == Some(users[0] + " and " + NatToString(|users| - 1) + " others are typing...")
  {
    if |users| == 0 then None
    else if |users| == 1 then Some(users[0] + " is typing...")
    else if |users| == 2 then Some(users[0] + " and " + users[1] + " are typing...")
    else Some(users[0] + " and " + NatToString(|users| - 1) + " others are typing...")
  }

  /** The banner for one, then two typists names them. */
  lemma BannerNamesTypists(a: string, b: string)
    requires a != b
    ensures TypingBanner(TypingStart([], a)) == Some(a + " is typing...")
    ensures TypingBanner(TypingStart(TypingStart([], a), b)) == Some(a + " and " + b + " are typing...")
  {
  }

  /** The initial `myLang`: a stored option, else the browser's base language when it is
      an option, else English. */
  function InitialLang(stored: Option<string>, browser: Option<string>): (r: string)
    ensures r in LangOptions
    ensures stored.Some? && stored.value in LangOptions ==> r == stored.value
  {
    if stored.Some? && stored.value != "" && stored.value in LangOptions then stored.value
    else
      var nav := LowerAscii(if browser.Some? && browser.value != "" then browser.value else DefaultLang);
      var base := Split(nav, '-')[0];
      if base in LangOptions then base else DefaultLang
  }

  /** Without a usable stored value, a browser language `xx-YY` whose lower-cased `xx` is
      an option selects it (`"ES-mx"` gives `es`). */
  lemma InitialLangFromBrowser(stored: Option<string>, code: string, region: string)
    requires stored.None? || stored.value !in LangOptions
    requires LowerAscii(code) in LangOptions && '-' !in code
    ensures InitialLang(stored, Some(code + "-" + region)) == LowerAscii(code)
  {
    var nav := LowerAscii(code + "-" + region);
    assert nav == LowerAscii(code) + "-" + LowerAscii(region);
    SplitAfter(LowerAscii(code), LowerAscii(region));
  }

  lemma SplitAfter(w: string, rest: string)
    requires '-' !in w
    ensures Split(w + "-" + rest, '-')[0] == w
  {
    var s := w + "-" + rest;
    assert s[|w|] == '-' && s[..|w|] == w;
    assert IndexOf(s, '-') == Some(|w|);
  }

  /** What `handleSend` puts on the wire. */
  datatype Outgoing = Outgoing(room: string, author: string, message: string, sourceLocale: string,
                               msgId: string, replyTo: Option<ReplyTo>)

  /** Nothing happens, an error is shown, or the message goes out (after a `typing_stop`
      when the user was marked as typing); the input and the reply draft are then cleared. */
  datatype SendOutcome = Ignored | Refused(error: string) | Sent(stopTyping: bool, out: Outgoing)

  /** `handleSend`: a blank input does nothing; then a missing room id and a dead connection
      are refused in that order; otherwise the message goes out with the id
      `${Date.now()}-${Math.random()}`. */
  function HandleSend(input: string, roomId: Option<string>, connected: bool, username: Option<string>,
                      typing: bool, replyTo: Option<ReplyTo>, now: nat, random: string): (r: SendOutcome)
    ensures r.Ignored? <==> AllSpace(input)
    ensures r == Refused(MissingRoomMessage) <==> !AllSpace(input) && (roomId.None? || roomId == Some(""))
    ensures !AllSpace(input) && roomId.Some? && roomId.value != "" ==>
              (r.Sent? <==> connected) && (!connected ==> r == Refused(SendNotConnectedMessage))
    ensures r.Sent? ==> && connected && r.stopTyping == typing
                        && r.out.room == roomId.value && r.out.message == input
                        && r.out.sourceLocale == RoomPageDetect(input)
                        && r.out.author == (if username.Some? && username.value != "" then username.value else AnonymousName)
                        && r.out.replyTo == replyTo
    ensures r.Sent? ==> var t := NatToString(now);
              && |r.out.msgId| > |t| && r.out.msgId[..|t|] == t && DecimalValue(r.out.msgId[..|t|]) == now
              && r.out.msgId[|t|] == '-' && r.out.msgId[|t| + 1..] == random
  {
    if Trim(input) == "" then Ignored
    else if roomId.None? || roomId.value == "" then Refused(MissingRoomMessage)
    else if !connected then Refused(SendNotConnectedMessage)
    else
      RoomPageSpaceFree();
      DetectTrimmed(RoomPageTable, input);
      NatToStringRoundTrip(now);
      var author := if username.Some? && username.value != "" then username.value else AnonymousName;
      Sent(typing, Outgoing(roomId.value, author, input, RoomPageDetect(Trim(input)),
                            NatToString(now) + "-" + random, replyTo))
  }

  /** `handleToggleRoomMode`: the room's id, the connection and the admin flag are checked
      in that order; an admin's click asks the server for the other mode. */
  datatype ToggleOutcome = ToggleRefused(error: string) | ModeRequest(room: string, mode: RoomModel.Mode)

  function Flip(m: RoomModel.Mode): (r: RoomModel.Mode)
    ensures r != m
  {
    if m == RoomModel.Global then RoomModel.Native else RoomModel.Global
  }

  function ToggleRoomMode(roomId: Option<string>, connected: bool, isAdmin: bool, mode: RoomModel.Mode)
    : (r: ToggleOutcome)
    ensures r.ModeRequest? <==> roomId.Some? && roomId.value != "" && connected && isAdmin
    ensures r.ModeRequest? ==> r.mode != mode && r.room == roomId.value
    ensures roomId.Some? && roomId.value != "" && connected && !isAdmin ==> r == ToggleRefused(NotAdminMessage)
  {
    if roomId.None? || roomId.value == "" then ToggleRefused(MissingRoomMessage)
    else if !connected then ToggleRefused(ToggleNotConnectedMessage)
    else if !isAdmin then ToggleRefused(NotAdminMessage)
    else ModeRequest(roomId.value, Flip(mode))
  }

  /** Two granted toggles bring the room back to its mode. */
  lemma ToggleTwice(room: string, mode: RoomModel.Mode)
    requires room != ""
    ensures var first := ToggleRoomMode(Some(room), true, true, mode);
            ToggleRoomMode(Some(room), true, true, first.mode) == ModeRequest(room, mode)
  {
  }
}

=== FILE: scripts.dfy ===
/** Guessing the language of an outgoing message from its characters: `detectSourceLanguage`
    of `Frontend_TS/src/pages/Chat/RoomPage.tsx` and of `Frontend_React/src/utils/helper.js`.
    Both walk an ordered table of one-character patterns and answer with the language of the
    first pattern found anywhere in the text, or `"auto"`. The room page's accent classes
    carry the `i` flag, so the upper-case form of each accented letter matches as well (`ß` has no
    one-character upper case and matches alone). */
module Scripts {
  import opened Base
  import opened Text

  const Auto := "auto"

  /** A language code and its character class. */
  datatype Pattern = Pattern(lang: string, matches: char -> bool)

  predicate InRange(c: char, lo: int, hi: int) {
    lo <= c as int <= hi
  }

  predicate Devanagari(c: char) { InRange(c, 0x0900, 0x097F) }
  predicate Bengali(c: char) { InRange(c, 0x0980, 0x09FF) }
  predicate Tamil(c: char) { InRange(c, 0x0B80, 0x0BFF) }
  predicate Telugu(c: char) { InRange(c, 0x0C00, 0x0C7F) }
  predicate Kannada(c: char) { InRange(c, 0x0C80, 0x0CFF) }
  predicate Malayalam(c: char) { InRange(c, 0x0D00, 0x0D7F) }

  /** Hiragana, Katakana and the CJK unified ideographs. */
  predicate Japanese(c: char) {
    InRange(c, 0x3040, 0x309F) || InRange(c, 0x30A0, 0x30FF) || InRange(c, 0x4E00, 0x9FFF)
  }

  /** `/[ñáéíóúü¡¿]/i`. */
  predicate SpanishMark(c: char) {
    c in "ñáéíóúü¡¿ÑÁÉÍÓÚÜ"
  }

  /** `/[àâçéèêëîïôûùüÿœæ]/i`. */
  predicate FrenchMark(c: char) {
    c in "àâçéèêëîïôûùüÿœæÀÂÇÉÈÊËÎÏÔÛÙÜŸŒÆ"
  }

  /** `/[ãõáâçéêíóôú]/i`. */
  predicate PortugueseMark(c: char) {
    c in "ãõáâçéêíóôúÃÕÁÂÇÉÊÍÓÔÚ"
  }

  /** `/[äöüß]/i`. */
  predicate GermanMark(c: char) {
    c in "äöüßÄÖÜ"
  }

  /** The table of the room page, in its order. */
  const RoomPageTable: seq<Pattern> := [
    Pattern("hi", Devanagari), Pattern("bn", Bengali), Pattern("es", SpanishMark),
    Pattern("fr", FrenchMark), Pattern("de", GermanMark), Pattern("ja", Japanese)
  ]

  /** The four accent classes of the older client's helper. Their letters are not legible in
      `helper.js` (the file's text went through a wrong character encoding), so they are
      left abstract here: four character sets, in the order es, fr, pt, de. */
  datatype LatinMarks = LatinMarks(es: char -> bool, fr: char -> bool, pt: char -> bool, de: char -> bool)

  /** No accent class matches an ASCII or white-space character. */
  predicate NonAscii(m: LatinMarks) {
    forall c: char :: c as int < 0x80 || IsSpace(c) ==> !m.es(c) && !m.fr(c) && !m.pt(c) && !m.de(c)
  }

  /** The table of the older client's helper, in its order. */
  function HelperTable(m: LatinMarks): (t: seq<Pattern>)
    ensures |t| == 10 && t[0] == Pattern("hi", Devanagari) && t[5] == Pattern("ml", Malayalam)
  {
    [
      Pattern("hi", Devanagari), Pattern("bn", Bengali), Pattern("ta", Tamil), Pattern("te", Telugu),
      Pattern("kn", Kannada), Pattern("ml", Malayalam), Pattern("es", m.es),
      Pattern("fr", m.fr), Pattern("pt", m.pt), Pattern("de", m.de)
    ]
  }

  /** `regex.test(text)` for a one-character class. */
  predicate Hits(p: char -> bool, text: string) {
    exists i :: 0 <= i < |text| && p(text[i])
  }

  /** The first pattern from position `from` on that occurs in the text. */
  function FirstHit(table: seq<Pattern>, text: string, from: nat): (r: Option<nat>)
    requires from <= |table|
    ensures r.Some? ==> from <= r.value < |table| && Hits(table[r.value].matches, text)
    ensures forall k :: from <= k < (if r.Some? then r.value else |table|) ==> !Hits(table[k].matches, text)
    decreases |table| - from
  {
    if from == |table| then None
    else if Hits(table[from].matches, text) then Some(from)
    else FirstHit(table, text, from + 1)
  }

  /** `detectSourceLanguage` over a table: `"auto"` for the empty text and when nothing
      matches, else the language of the first matching pattern. */
  function Detect(table: seq<Pattern>, text: string): (r: string)
    ensures r == Auto || exists k :: 0 <= k < |table| && table[k].lang == r
  {
    if text == "" then Auto
    else match FirstHit(table, text, 0)
      case None => Auto
      case Some(k) => table[k].lang
  }

  /** The answer is the first language in table order whose class occurs in the text. */
  lemma DetectPicksFirst(table: seq<Pattern>, text: string, k: nat)
    requires k < |table| && Hits(table[k].matches, text)
    requires forall j :: 0 <= j < k ==> !Hits(table[j].matches, text)
    ensures Detect(table, text) == table[k].lang
  {
    assert FirstHit(table, text, 0) == Some(k);
  }

  /** When no class occurs in the text, the answer is `"auto"`. */
  lemma DetectNoHit(table: seq<Pattern>, text: string)
    requires forall k :: 0 <= k < |table| ==> !Hits(table[k].matches, text)
    ensures Detect(table, text) == Auto
  {
  }

  /** No class of the table matches white space. */
  predicate SpaceFree(table: seq<Pattern>) {
    forall k, c :: 0 <= k < |table| && IsSpace(c) ==> !table[k].matches(c)
  }

  /** Trimming the text first changes nothing, since no class matches white space. */
  lemma DetectTrimmed(table: seq<Pattern>, text: string)
    requires SpaceFree(table)
    ensures Detect(table, Trim(text)) == Detect(table, text)
  {
    TrimChars(text);
    forall k | 0 <= k < |table|
      ensures Hits(table[k].matches, Trim(text)) <==> Hits(table[k].matches, text)
    {
      if Hits(table[k].matches, text) {
        var i :| 0 <= i < |text| && table[k].matches(text[i]);
        assert text[i] in Trim(text);
        var j :| 0 <= j < |Trim(text)| && Trim(text)[j] == text[i];
      }
      if Hits(table[k].matches, Trim(text)) {
        var j :| 0 <= j < |Trim(text)| && table[k].matches(Trim(text)[j]);
        assert Trim(text)[j] in text;
      }
    }
    SameHits(table, Trim(text), text, 0);
  }

  lemma {:induction false} SameHits(table: seq<Pattern>, a: string, b: string, from: nat)
    requires from <= |table|
    requires forall k :: 0 <= k < |table| ==> (Hits(table[k].matches, a) <==> Hits(table[k].matches, b))
    ensures FirstHit(table, a, from) == FirstHit(table, b, from)
    ensures (a == "") == (b == "") || (FirstHit(table, a, 0).None? && FirstHit(table, b, 0).None?)
    decreases |table| - from
  {
    if from < |table| {
      SameHits(table, a, b, from + 1);
    }
  }

  /** Every accented letter of the four Latin classes lies in Latin-1 Supplement or Latin
      Extended-A, away from ASCII and from every white-space character. */
  lemma MarksLatin(c: char)
    ensures SpanishMark(c) || FrenchMark(c) || PortugueseMark(c) || GermanMark(c) ==> 0xA1 <= c as int <= 0x17F
  {
    LatinClass(c, "ñáéíóúü¡¿ÑÁÉÍÓÚÜ");
    LatinClass(c, "àâçéèêëîïôûùüÿœæÀÂÇÉÈÊËÎÏÔÛÙÜŸŒÆ");
    LatinClass(c, "ãõáâçéêíóôúÃÕÁÂÇÉÊÍÓÔÚ");
    LatinClass(c, "äöüßÄÖÜ");
  }

  lemma LatinClass(c: char, chars: string)
    requires forall i :: 0 <= i < |chars| ==> 0xA1 <= chars[i] as int <= 0x17F
    ensures c in chars ==> 0xA1 <= c as int <= 0x17F
  {
  }

  lemma RoomPageSpaceFree()
    ensures SpaceFree(RoomPageTable)
  {
    forall k, c | 0 <= k < |RoomPageTable| && IsSpace(c)
      ensures !RoomPageTable[k].matches(c)
    {
      MarksLatin(c);
    }
  }

  lemma HelperSpaceFree(m: LatinMarks)
    requires NonAscii(m)
    ensures SpaceFree(HelperTable(m))
  {
    var t := HelperTable(m);
    forall k, c | 0 <= k < |t| && IsSpace(c)
      ensures !t[k].matches(c)
    {
    }
  }

  /** The room page's detector: one of its six languages or `"auto"`. */
  function RoomPageDetect(text: string): (r: string)
    ensures r in {Auto, "hi", "bn", "es", "fr", "de", "ja"}
  {
    Detect(RoomPageTable, text)
  }

  /** The helper's detector: one of its ten languages or `"auto"`, whatever the accent
      classes are. */
  function HelperDetect(m: LatinMarks, text: string): (r: string)
    ensures r in {Auto, "hi", "bn", "ta", "te", "kn", "ml", "es", "fr", "pt", "de"}
  {
    Detect(HelperTable(m), text)
  }

  /** The Indic scripts are tried before any accent class: a text holding one of them
      is detected by its first script in the order hi, bn, ta, te, kn, ml, whatever the
      accent classes hold. */
  lemma HelperScriptsFirst(m: LatinMarks, text: string, k: nat)
    requires k < 6 && Hits(HelperTable(m)[k].matches, text)
    requires forall j :: 0 <= j < k ==> !Hits(HelperTable(m)[j].matches, text)
    ensures HelperDetect(m, text) == HelperTable(m)[k].lang
    ensures forall m' :: HelperDetect(m', text) == HelperDetect(m, text)
  {
    DetectPicksFirst(HelperTable(m), text, k);
    forall m' ensures HelperDetect(m', text) == HelperDetect(m, text) {
      SameScripts(m, m', k);
      DetectPicksFirst(HelperTable(m'), text, k);
    }
  }

  lemma SameScripts(m: LatinMarks, m': LatinMarks, k: nat)
    requires k < 6
    ensures forall j :: 0 <= j <= k ==> HelperTable(m)[j] == HelperTable(m')[j]
  {
  }

  /** Spanish is tried before French and German: `é` and `ü` make a text Spanish unless it
      also holds Devanagari or Bengali. */
  lemma SharedAccentsAreSpanish(text: string, c: char)
    requires c == 'é' || c == 'ü' || c == 'É' || c == 'Ü'
    requires c in text
    requires forall i :: 0 <= i < |text| ==> !Devanagari(text[i]) && !Bengali(text[i])
    ensures RoomPageDetect(text) == "es"
  {
    var i :| 0 <= i < |text| && text[i] == c;
    assert SpanishMark(text[i]);
    DetectPicksFirst(RoomPageTable, text, 2);
  }

  /** Devanagari anywhere wins in both detectors. */
  lemma DevanagariWins(text: string, i: nat)
    requires i < |text| && Devanagari(text[i])
    ensures RoomPageDetect(text) == "hi" && forall m :: HelperDetect(m, text) == "hi"
  {
    DetectPicksFirst(RoomPageTable, text, 0);
    forall m ensures HelperDetect(m, text) == "hi" {
      DetectPicksFirst(HelperTable(m), text, 0);
    }
  }

  /** Plain ASCII text is `"auto"` in both detectors (in the helper's, as long as its accent
      classes hold no ASCII character). */
  lemma AsciiIsAuto(text: string, m: LatinMarks)
    requires forall i :: 0 <= i < |text| ==> text[i] as int < 0x80
    requires NonAscii(m)
    ensures RoomPageDetect(text) == Auto && HelperDetect(m, text) == Auto
  {
    forall i | 0 <= i < |text|
      ensures !SpanishMark(text[i]) && !FrenchMark(text[i]) && !PortugueseMark(text[i]) && !GermanMark(text[i])
    {
      MarksLatin(text[i]);
    }
    DetectNoHit(RoomPageTable, text);
    DetectNoHit(HelperTable(m), text);
  }
}

=== FILE: socket_auth.dfy ===
/** `socketAuthMiddleware` of `Backend_TS/src/middlewares/socketAuth.middleware.ts`: the token
    comes from the handshake's `auth.token`, else from the second word of its
    `authorization` header (no scheme check); `next` receives an `AuthError` or nothing.
    `jwt.verify` and `JWT_SECRET` are parameters. */
module SocketAuth {
  import opened Base
  import opened Text
  import opened AuthMiddleware

  const LoginPrompt := "Please login to access this resource"
  const NoTokenMessage := "No token provided"
  const NoSecretMessage := "JWT_SECRET is not set; cannot verify token"
  const FetchingName := "Fetching..."

  /** `new AuthError(message)`: every one carries the same `data.content`. */
  datatype AuthError = AuthError(message: string, content: string)

  function MakeAuthError(message: string): (e: AuthError)
    ensures e.message == message && e.content == LoginPrompt
  {
    AuthError(message, LoginPrompt)
  }

  /** The handshake fields the middleware reads. */
  datatype Handshake = Handshake(authToken: Option<string>, authorization: Option<string>)

  /** `socket.data` after a successful check. */
  datatype SocketData = SocketData(userId: Option<string>, username: string)

  /** `next(err)` or `next()` with the socket's data set. */
  datatype Outcome = Refused(error: AuthError) | Admitted(data: SocketData)

  /** `handshake.auth.token || handshake.headers.authorization?.split(" ")[1]`, with the
      empty string falsy. */
  function TokenOf(h: Handshake): (r: Option<string>)
    ensures r.Some? ==> r.value != ""
    ensures h.authToken.Some? && h.authToken.value != "" ==> r == h.authToken
  {
    if h.authToken.Some? && h.authToken.value != "" then h.authToken
    else match h.authorization
      case None => None
      case Some(a) =>
        match SecondWord(a)
        case Some(t) => if t == "" then None else Some(t)
        case None => None
  }

  /** Without an `auth.token`, any scheme word is accepted in the header: what follows its
      first space, up to the next, is the token. */
  lemma HeaderTokenIgnoresScheme(scheme: string, rest: string)
    requires ' ' !in scheme
    ensures var t := UpToSpace(rest);
            TokenOf(Handshake(None, Some(scheme + [' '] + rest))) == if t == "" then None else Some(t)
  {
    SecondWordAfter(scheme, rest);
  }

  /** The middleware: no token, then no secret, then a failed verification each refuse with
      an `AuthError`; a verified token admits the socket under a placeholder name. A
      payload without an `id` (a string payload has none) admits it with no user id. */
  function Authenticate(h: Handshake, secret: Option<string>, verify: Verifier): (r: Outcome)
    ensures r.Refused? ==> r.error.content == LoginPrompt
    ensures TokenOf(h).None? ==> r == Refused(MakeAuthError(NoTokenMessage))
    ensures TokenOf(h).Some? && (secret.None? || secret == Some("")) ==> r == Refused(MakeAuthError(NoSecretMessage))
    ensures (TokenOf(h).Some? && secret.Some? && secret.value != "" && verify(TokenOf(h).value, secret.value).VerifyFailed?)
              ==> r == Refused(MakeAuthError(verify(TokenOf(h).value, secret.value).message))
    ensures r.Admitted? <==> TokenOf(h).Some? && secret.Some? && secret.value != ""
                             && !verify(TokenOf(h).value, secret.value).VerifyFailed?
    ensures r.Admitted? ==> r.data.username == FetchingName
                            && var v := verify(TokenOf(h).value, secret.value);
                               r.data.userId == (if v.ObjectPayload? then v.id else None)
  {
    match TokenOf(h)
    case None => Refused(MakeAuthError(NoTokenMessage))
    case Some(token) =>
      if secret.None? || secret.value == "" then Refused(MakeAuthError(NoSecretMessage))
      else match verify(token, secret.value)
        case VerifyFailed(m) => Refused(MakeAuthError(m))
        case StringPayload(_) => Admitted(SocketData(None, FetchingName))
        case ObjectPayload(id, _) => Admitted(SocketData(id, FetchingName))
  }

  /** The HTTP and socket checks agree on a well-formed bearer header when the handshake has
      no `auth.token`: both pass exactly when the token verifies to an object payload, and
      then with the same user id. */
  lemma BearerAgreesWithHttp(token: string, secret: string, verify: Verifier)
    requires token != "" && ' ' !in token && secret != ""
    requires !verify(token, secret).StringPayload?
    ensures var http := AuthMiddleware.Authenticate(Some(BearerPrefix + token), Some(secret), verify);
            var sock := Authenticate(Handshake(None, Some(BearerPrefix + token)), Some(secret), verify);
            && (http.Next? <==> sock.Admitted?)
            && (http.Next? ==> http.user.id == sock.data.userId)
  {
    BearerRoundTrip(token, secret, verify);
    assert BearerPrefix + token == "Bearer" + [' '] + token;
    HeaderTokenIgnoresScheme("Bearer", token);
  }
}

=== FILE: text.dfy ===
/** JavaScript string semantics the handlers depend on, on `string == seq<char>`:
    the white-space class shared by `String.prototype.trim` and the regular-expression
    class `\s`, `trim`, `split` with a one-character separator, `join`, `startsWith`,
    `includes`, `slice(0, n)`, ASCII lower-casing and decimal rendering of numbers. */
module Text {
  import opened Base

  /** ECMAScript WhiteSpace and LineTerminator code points. */
  predicate IsSpace(c: char) {
    || c == '\t' || c == '\n' || c == '\U{000B}' || c == '\U{000C}' || c == '\r' || c == ' '
    || c == '\U{00A0}' || c == '\U{1680}' || ('\U{2000}' <= c <= '\U{200A}')
    || c == '\U{2028}' || c == '\U{2029}' || c == '\U{202F}' || c == '\U{205F}'
    || c == '\U{3000}' || c == '\U{FEFF}'
  }

  predicate AllSpace(s: string) {
    forall i :: 0 <= i < |s| ==> IsSpace(s[i])
  }

  /** Neither end of `s` is white space. */
  predicate IsTrimmed(s: string) {
    |s| == 0 || (!IsSpace(s[0]) && !IsSpace(s[|s| - 1]))
  }

  /** `s.trim()`: white space removed from both ends, and only from the ends. */
  function Trim(s: string): (r: string)
    ensures |r| <= |s|
    ensures IsTrimmed(r)
    ensures |r| == 0 <==> AllSpace(s)
    decreases |s|
  {
    if |s| > 0 && IsSpace(s[0]) then
      assert s == [s[0]] + s[1..];
      Trim(s[1..])
    else if |s| > 0 && IsSpace(s[|s| - 1]) then
      assert s == s[..|s| - 1] + [s[|s| - 1]];
      Trim(s[..|s| - 1])
    else s
  }

  /** Trimming a trimmed string changes nothing. */
  lemma TrimIdempotent(s: string)
    ensures Trim(Trim(s)) == Trim(s)
  {
    var t := Trim(s);
    assert IsTrimmed(t);
  }

  /** Trimming leaves a trimmed string as it is. */
  lemma TrimOfTrimmed(s: string)
    requires IsTrimmed(s)
    ensures Trim(s) == s
  {
  }

  /** Trimming only drops white space: every other character of `s` survives, and nothing
      is added. */
  lemma {:induction false} TrimChars(s: string)
    ensures forall c :: c in Trim(s) ==> c in s
    ensures forall c :: c in s && !IsSpace(c) ==> c in Trim(s)
    decreases |s|
  {
    if |s| > 0 && IsSpace(s[0]) {
      TrimChars(s[1..]);
      assert s == [s[0]] + s[1..];
    } else if |s| > 0 && IsSpace(s[|s| - 1]) {
      TrimChars(s[..|s| - 1]);
      assert s == s[..|s| - 1] + [s[|s| - 1]];
    }
  }

  /** `s.indexOf(c)` as an option. */
  function IndexOf(s: string, c: char): (r: Option<nat>)
    ensures r.None? <==> c !in s
    ensures r.Some? ==> r.value < |s| && s[r.value] == c && c !in s[..r.value]
    decreases |s|
  {
    if |s| == 0 then None
    else if s[0] == c then Some(0)
    else match IndexOf(s[1..], c)
      case None => None
      case Some(i) => assert s[..i + 1] == [s[0]] + s[1..][..i]; Some(i + 1)
  }

  /** The first `c` of `a + [c] + b` ends `a` when `a` holds none. */
  lemma IndexOfAfter(a: string, c: char, b: string)
    requires c !in a
    ensures IndexOf(a + [c] + b, c) == Some(|a|)
  {
    var s := a + [c] + b;
    assert s[|a|] == c;
    assert s[..|a|] == a;
  }

  /** Splitting `a + [c] + b` at its first `c` gives `a` and `b` back. */
  lemma SplitAtFirst(a: string, c: char, b: string)
    requires c !in a
    ensures var s := a + [c] + b;
            IndexOf(s, c) == Some(|a|) && s[..|a|] == a && s[|a| + 1..] == b
  {
    IndexOfAfter(a, c, b);
    var s := a + [c] + b;
    assert s[..|a|] == a;
    assert s[|a| + 1..] == b;
  }

  /** `s.split(sep)` for a one-character separator: always at least one part, and no part
      contains the separator. */
  function Split(s: string, sep: char): (parts: seq<string>)
    ensures |parts| >= 1
    ensures forall k :: 0 <= k < |parts| ==> sep !in parts[k]
    decreases |s|
  {
    match IndexOf(s, sep)
    case None => [s]
    case Some(i) => [s[..i]] + Split(s[i + 1..], sep)
  }

  /** `parts.join(sep)`. */
  function Join(parts: seq<string>, sep: char): string
    requires |parts| >= 1
    decreases |parts|
  {
    if |parts| == 1 then parts[0] else parts[0] + [sep] + Join(parts[1..], sep)
  }

  /** Splitting a joined list gives the list back when no part holds the separator. */
  lemma {:induction false} SplitJoin(parts: seq<string>, sep: char)
    requires |parts| >= 1
    requires forall k :: 0 <= k < |parts| ==> sep !in parts[k]
    ensures Split(Join(parts, sep), sep) == parts
    decreases |parts|
  {
    if |parts| == 1 {
    } else {
      var p := parts[0];
      SplitAtFirst(p, sep, Join(parts[1..], sep));
      SplitJoin(parts[1..], sep);
      assert parts == [p] + parts[1..];
    }
  }

  /** Joining the parts of a split restores the string. */
  lemma {:induction false} JoinSplit(s: string, sep: char)
    ensures Join(Split(s, sep), sep) == s
    decreases |s|
  {
    var k := IndexOf(s, sep);
    if k.Some? {
      var i := k.value;
      var rest := Split(s[i + 1..], sep);
      assert Split(s, sep) == [s[..i]] + rest;
      JoinSplit(s[i + 1..], sep);
      JoinCons(s[..i], rest, sep);
      assert s == s[..i] + [sep] + s[i + 1..];
    }
  }

  lemma JoinCons(x: string, rest: seq<string>, sep: char)
    requires |rest| >= 1
    ensures Join([x] + rest, sep) == x + [sep] + Join(rest, sep)
  {
    assert ([x] + rest)[1..] == rest;
  }

  predicate StartsWith(s: string, p: string) {
    |p| <= |s| && s[..|p|] == p
  }

  /** `s.includes(p)`. */
  predicate Contains(s: string, p: string)
    decreases |s|
  {
    StartsWith(s, p) || (|s| > 0 && Contains(s[1..], p))
  }

  /** An occurrence of `p` at index `i` makes `s` contain `p`. */
  lemma {:induction false} ContainsAt(s: string, p: string, i: nat)
    requires i + |p| <= |s| && s[i..i + |p|] == p
    ensures Contains(s, p)
    decreases i
  {
    if i == 0 {
      assert s[..|p|] == p;
    } else {
      assert s[1..][i - 1..i - 1 + |p|] == s[i..i + |p|];
      ContainsAt(s[1..], p, i - 1);
    }
  }

  /** A string that contains `p` has an occurrence of it at some index. */
  lemma {:induction false} ContainsWitness(s: string, p: string) returns (i: nat)
    requires Contains(s, p)
    ensures i + |p| <= |s| && s[i..i + |p|] == p
    decreases |s|
  {
    if StartsWith(s, p) {
      i := 0;
    } else {
      var j := ContainsWitness(s[1..], p);
      i := j + 1;
      assert s[i..i + |p|] == s[1..][j..j + |p|];
    }
  }

  /** When no character of `a` can start an occurrence of `p`, an occurrence of `p` in
      `a + b` lies entirely within `b`. */
  lemma {:induction false} ContainsAfterPrefix(a: string, b: string, p: string)
    requires |p| > 0 && p[0] !in a
    ensures Contains(a + b, p) <==> Contains(b, p)
    decreases |a|
  {
    if |a| == 0 {
      assert a + b == b;
    } else {
      assert (a + b)[1..] == a[1..] + b;
      assert (a + b)[0] != p[0];
      ContainsAfterPrefix(a[1..], b, p);
    }
  }

  /** `s.slice(0, n)`. */
  function Take(s: string, n: nat): (r: string)
    ensures |r| <= n && |r| <= |s| && r == s[..|r|]
    ensures |s| <= n ==> r == s
  {
    if |s| <= n then s else s[..n]
  }

  function LowerChar(c: char): char {
    if 'A' <= c <= 'Z' then (c as int + 32) as char else c
  }

  /** `s.toLowerCase()` restricted to ASCII letters. */
  function LowerAscii(s: string): (r: string)
    ensures |r| == |s|
    ensures forall i :: 0 <= i < |s| ==> r[i] == LowerChar(s[i])
  {
    seq(|s|, i requires 0 <= i < |s| => LowerChar(s[i]))
  }

  predicate IsDigit(c: char) {
    '0' <= c <= '9'
  }

  predicate AllDigits(s: string) {
    forall i :: 0 <= i < |s| ==> IsDigit(s[i])
  }

  /** `String(n)` for a natural number. */
  function NatToString(n: nat): (r: string)
    ensures |r| >= 1 && AllDigits(r)
    decreases n
  {
    if n < 10 then [('0' as int + n) as char]
    else NatToString(n / 10) + [('0' as int + n % 10) as char]
  }

  /** The number a string of decimal digits denotes. */
  function DecimalValue(s: string): nat
    requires AllDigits(s)
    decreases |s|
  {
    if |s| == 0 then 0
    else DecimalValue(s[..|s| - 1]) * 10 + (s[|s| - 1] as int - '0' as int)
  }

  /** Rendering then reading a number gives it back, so distinct numbers render
      differently. */
  lemma {:induction false} NatToStringRoundTrip(n: nat)
    ensures DecimalValue(NatToString(n)) == n
    decreases n
  {
    if n >= 10 {
      NatToStringRoundTrip(n / 10);
      var s := NatToString(n);
      assert s[..|s| - 1] == NatToString(n / 10);
    }
  }
}

=== FILE: theme.dfy ===
/** The theme setting of `Frontend_React/src/context/ThemeContext.jsx`: the chosen mode,
    stored under `theme-mode`, and the theme actually applied, where `system` defers to
    the operating system's preference. Storage and the media query are parameters. */
module Theme {
  const Light := "light"
  const Dark := "dark"
  const System := "system"
  const StorageKey := "theme-mode"

  /** One of `THEME_MODES`' values. */
  predicate IsMode(mode: string) {
    mode == Light || mode == Dark || mode == System
  }

  /** The initial mode: the stored one when it is set and non-empty, whatever it is, else
      `system`. */
  function InitialMode(saved: map<string, string>): (mode: string)
    ensures StorageKey in saved && saved[StorageKey] != "" ==> mode == saved[StorageKey]
    ensures StorageKey !in saved || saved[StorageKey] == "" ==> mode == System
    ensures mode != ""
  {
    if StorageKey in saved && saved[StorageKey] != "" then saved[StorageKey] else System
  }

  /** `toggleTheme`: only a known mode is taken; anything else is ignored. */
  function ToggleTheme(current: string, requested: string): (mode: string)
    ensures IsMode(requested) ==> mode == requested
    ensures !IsMode(requested) ==> mode == current
  {
    if IsMode(requested) then requested else current
  }

  /** The system preference, from `(prefers-color-scheme: dark)`. */
  function SystemPreference(prefersDark: bool): (pref: string)
    ensures pref == Dark || pref == Light
  {
    if prefersDark then Dark else Light
  }

  /** `effectiveTheme`: the system's preference in `system` mode, else the mode itself. */
  function EffectiveTheme(mode: string, prefersDark: bool): (theme: string)
    ensures mode == System ==> theme == SystemPreference(prefersDark)
    ensures mode != System ==> theme == mode
  {
    if mode == System then SystemPreference(prefersDark) else mode
  }

  /** The storage after the effect that applies the theme: the mode written back. */
  function Persist(saved: map<string, string>, mode: string): (r: map<string, string>)
    ensures StorageKey in r && r[StorageKey] == mode
    ensures forall k :: k in saved && k != StorageKey ==> k in r && r[k] == saved[k]
  {
    saved[StorageKey := mode]
  }

  /** For a known mode, the applied theme is always light or dark, and toggling keeps the
      mode known. */
  lemma KnownModesApplyLightOrDark(mode: string, requested: string, prefersDark: bool)
    requires IsMode(mode)
    ensures EffectiveTheme(mode, prefersDark) in {Light, Dark}
    ensures IsMode(ToggleTheme(mode, requested))
  {
  }

  /** A stored value that is not a mode is taken as it is and applied as it is, until a
      known mode is chosen. */
  lemma UnknownStoredModeIsApplied(saved: map<string, string>, prefersDark: bool)
    requires StorageKey in saved && saved[StorageKey] != "" && !IsMode(saved[StorageKey])
    ensures EffectiveTheme(InitialMode(saved), prefersDark) == saved[StorageKey]
    ensures EffectiveTheme(InitialMode(saved), prefersDark) !in {Light, Dark}
  {
  }

  /** The mode survives a reload: what is persisted is what is read back. */
  lemma ModePersists(saved: map<string, string>, requested: string)
    ensures var mode := ToggleTheme(InitialMode(saved), requested);
            InitialMode(Persist(saved, mode)) == mode
  {
  }
}

=== FILE: translation_cache.dfy ===
/** The in-process translation cache of `translation.service.ts`: a JavaScript `Map` from
    a string key to `{value, expiresAt}`, bounded to 1000 entries by deleting the
    earliest-inserted key, with a one-hour time-to-live checked on lookup. The clock is a
    parameter (milliseconds). */
module TranslationCache {
  import opened Base
  import opened Text

  const MaxCacheSize: nat := 1000
  const CacheTtlMs: nat := 60 * 60 * 1000

  /** The key string `${text}:${sourceLocale ?? 'auto'}:${targetLocale}`. */
  function CacheKey(text: string, source: Option<string>, target: string): (k: string)
    ensures |k| > 0
  {
    text + ":" + source.GetOr("auto") + ":" + target
  }

  datatype Entry = Entry(value: string, expiresAt: int)

  /** A JavaScript `Map`: `order` lists its keys in insertion order (re-setting an existing
      key keeps its position), `entries` holds the values. */
  datatype Cache = Cache(order: seq<string>, entries: map<string, Entry>)

  /** The keys of `order` are exactly those of `entries`, each once, none is empty (every
      key is built by `CacheKey`), and there are at most `MaxCacheSize` of them. */
  ghost predicate Valid(c: Cache) {
    && NoDuplicates(c.order)
    && (forall k :: k in c.order <==> k in c.entries)
    && "" !in c.order
    && |c.order| <= MaxCacheSize
  }

  function Size(c: Cache): nat {
    |c.order|
  }

  const Empty: Cache := Cache([], map[])

  lemma EmptyValid()
    ensures Valid(Empty) && Size(Empty) == 0
  {
  }

  function Remove(s: seq<string>, x: string): (r: seq<string>)
    ensures forall y :: y in r <==> y in s && y != x
    ensures NoDuplicates(s) ==> NoDuplicates(r)
    ensures NoDuplicates(s) && x in s ==> |r| == |s| - 1
    ensures x !in s ==> r == s
    decreases |s|
  {
    if |s| == 0 then []
    else if s[0] == x then Remove(s[1..], x)
    else
      var r := Remove(s[1..], x);
      assert NoDuplicates(s) ==> s[0] !in s[1..] && s[0] !in r;
      [s[0]] + r
  }

  /** `cacheTranslation`: set the entry to expire one TTL after `now`; when the map then
      holds more than `MaxCacheSize` keys, delete its first key. */
  function Insert(c: Cache, text: string, source: Option<string>, target: string,
                  translated: string, now: int): (c': Cache)
    requires Valid(c)
    ensures Valid(c')
    ensures var k := CacheKey(text, source, target);
            k in c'.entries && c'.entries[k] == Entry(translated, now + CacheTtlMs)
    ensures Size(c') <= Size(c) + 1
    ensures forall k :: k in c'.entries && k != CacheKey(text, source, target) ==>
              k in c.entries && c'.entries[k] == c.entries[k]
    ensures forall k' :: k' in c.entries && k' !in c'.entries ==>
              k' == c.order[0] && CacheKey(text, source, target) !in c.entries
              && Size(c) >= MaxCacheSize
  {
    var k := CacheKey(text, source, target);
    var order := if k in c.entries then c.order else c.order + [k];
    var entries := c.entries[k := Entry(translated, now + CacheTtlMs)];
    assert NoDuplicates(order);
    assert forall j :: j in order <==> j in entries;
    if |order| > MaxCacheSize && order[0] != "" then
      var first := order[0];
      assert first != k;
      var entries' := map j | j in entries && j != first :: entries[j];
      Cache(order[1..], entries')
    else
      Cache(order, entries)
  }

  /** `getCached`: the value of a present, unexpired entry; a present but expired entry
      is deleted. */
  function Lookup(c: Cache, text: string, source: Option<string>, target: string,
                  now: int): (r: (Option<string>, Cache))
    requires Valid(c)
    ensures Valid(r.1)
    ensures var k := CacheKey(text, source, target);
            r.0.Some? <==> k in c.entries && now < c.entries[k].expiresAt
    ensures var k := CacheKey(text, source, target);
            r.0.Some? ==> r.0.value == c.entries[k].value && r.1 == c
    ensures var k := CacheKey(text, source, target);
            r.0.None? ==> r.1.entries == c.entries - {k} && r.1.order == Remove(c.order, k)
  {
    var k := CacheKey(text, source, target);
    if k in c.entries then
      if now < c.entries[k].expiresAt then (Some(c.entries[k].value), c)
      else (None, Cache(Remove(c.order, k), c.entries - {k}))
    else
      (None, c)
  }

  /** The entry just inserted always survives the eviction, and it is found by a lookup
      until exactly one TTL has elapsed. */
  lemma LookupAfterInsert(c: Cache, text: string, source: Option<string>, target: string,
                          translated: string, now: int, later: int)
    requires Valid(c)
    ensures var c' := Insert(c, text, source, target, translated, now);
            Lookup(c', text, source, target, later).0 ==
              (if later < now + CacheTtlMs then Some(translated) else None)
  {
  }

  /** Inserting a new key into a full cache evicts exactly the earliest-inserted key, and
      the key order becomes the old order without it, followed by the new key. */
  lemma InsertEvictsOldest(c: Cache, text: string, source: Option<string>, target: string,
                           translated: string, now: int)
    requires Valid(c) && Size(c) == MaxCacheSize
    requires CacheKey(text, source, target) !in c.entries
    ensures var c' := Insert(c, text, source, target, translated, now);
            c'.order == c.order[1..] + [CacheKey(text, source, target)]
            && c.order[0] !in c'.entries
            && Size(c') == MaxCacheSize
  {
  }

  /** The key is not injective: a colon inside the text or source locale can make two
      different (text, source, target) triples share one cache entry. */
  lemma CacheKeyCollides()
    ensures CacheKey("a:b", Some("c"), "fr-FR") == CacheKey("a", Some("b:c"), "fr-FR")
  {
  }
}

=== FILE: translation_service.dfy ===
/** The translation service of `Backend_TS/src/services/translation.service.ts`: error
    classification for retries, the per-language attempt loop with exponential backoff,
    `translateText` (skip rule, cache, result map and `onChunk` calls) and `translateSingle`.
    Time is an explicit clock that only the backoff sleeps advance; the provider is a
    parameter answering each request of each attempt. */
module TranslationService {
  import opened Base
  import opened Text
  import opened Locales
  import opened TranslationCache
  import opened LingoClient

  const MaxRetries: nat := 3
  const BaseDelayMs: nat := 1500

  /** The translation provider as seen by the service: the API key the client was
      initialised with, the transport answering attempt `n` of a request, and `JSON.parse`. */
  datatype Provider = Provider(apiKey: Option<string>, transport: (Request, nat) -> Exchange,
                               parse: string -> Option<Reply>)

  predicate NoKey(p: Provider) {
    p.apiKey.None? || p.apiKey == Some("")
  }

  /** One `localizeText` call, made as attempt `attempt` at clock `stamp`. */
  function Call(p: Provider, text: string, source: Option<string>, target: string,
                stamp: nat, attempt: nat): Result<string, Failure> {
    LocalizeText(p.apiKey, text, source, target, stamp, req => p.transport(req, attempt), p.parse)
  }

  /** The calls of one language's attempt loop, as a function of clock reading and attempt
      number. */
  function Caller(p: Provider, text: string, source: Option<string>, target: string)
    : (nat, nat) -> Result<string, Failure>
  {
    (stamp: nat, attempt: nat) => Call(p, text, source, target, stamp, attempt)
  }

  /** `isRetryableError`: a socket-level failure, recognised by its message or by the code of
      its cause. */
  predicate IsRetryableError(e: Failure) {
    || Contains(e.message, "terminated")
    || Contains(e.message, "timed out")
    || Contains(e.message, "ECONNRESET")
    || e.causeCode == Some("UND_ERR_SOCKET")
    || e.causeCode == Some("ECONNRESET")
    || e.causeCode == Some("ETIMEDOUT")
  }

  /** The 30-second request timeout of the client is a retryable failure. */
  lemma TimeoutIsRetryable()
    ensures IsRetryableError(Failure(TimeoutMessage, None))
  {
    assert TimeoutMessage[8..8 + |"timed out"|] == "timed out";
    ContainsAt(TimeoutMessage, "timed out", 8);
  }

  /** A 5xx rejection is retryable exactly when the quoted body itself holds one of the
      three keywords: the `Server error (N): ` prefix can never start one. */
  lemma ServerErrorRetryableIff(status: nat, body: string, parse: string -> Option<Reply>)
    requires status >= 500
    ensures Classify(status, body, parse).Err?
    ensures var q := Take(body, ErrorBodyLimit);
            IsRetryableError(Classify(status, body, parse).error) <==>
              Contains(q, "terminated") || Contains(q, "timed out") || Contains(q, "ECONNRESET")
  {
    var prefix := ServerErrorPrefix(status);
    var q := Take(body, ErrorBodyLimit);
    var digits := NatToString(status);
    assert prefix == "Server error (" + digits + "): ";
    assert 't' !in prefix by {
      assert forall i :: 0 <= i < |digits| ==> IsDigit(digits[i]);
    }
    assert 'E' !in prefix by {
      assert forall i :: 0 <= i < |digits| ==> IsDigit(digits[i]);
    }
    assert Classify(status, body, parse).error.message == prefix + q;
    ContainsAfterPrefix(prefix, q, "terminated");
    ContainsAfterPrefix(prefix, q, "timed out");
    ContainsAfterPrefix(prefix, q, "ECONNRESET");
  }

  function Pow2(n: nat): (r: nat)
    ensures r >= 1
  {
    if n == 0 then 1 else 2 * Pow2(n - 1)
  }

  /** The sleep after an attempt: `1500 * 2^attempt` ms after a retryable failure that is
      not the last attempt, no sleep otherwise (a success, a non-retryable failure, or the
      last attempt). */
  function Backoff(out: Result<string, Failure>, attempt: nat): (ms: nat)
    ensures ms > 0 <==> out.Err? && attempt < MaxRetries && IsRetryableError(out.error)
    ensures ms > 0 ==> ms == BaseDelayMs * Pow2(attempt)
  {
    if out.Err? && attempt < MaxRetries && IsRetryableError(out.error) then BaseDelayMs * Pow2(attempt)
    else 0
  }

  /** One attempt of the retry loop: the clock reading it was made at, what it produced,
      and how long the loop slept after it. */
  datatype Try = Try(stamp: nat, outcome: Result<string, Failure>, sleptMs: nat)

  /** The attempt loop from attempt number `attempt` on, starting at clock `clock`: it stops
      at the first success or after attempt `MaxRetries`, so a failure that is not the last
      attempt, retryable or not, is always followed by another attempt. */
  function Attempts(call: (nat, nat) -> Result<string, Failure>, clock: nat, attempt: nat)
    : (trace: seq<Try>)
    requires attempt <= MaxRetries
    ensures 1 <= |trace| <= MaxRetries + 1 - attempt
    ensures trace[0].stamp == clock
    ensures forall i :: 0 <= i < |trace| ==> trace[i].stamp >= clock
    ensures forall i :: 0 <= i < |trace| ==>
              && trace[i].outcome == call(trace[i].stamp, attempt + i)
              && trace[i].sleptMs == Backoff(trace[i].outcome, attempt + i)
    ensures forall i :: 0 <= i < |trace| - 1 ==>
              trace[i].outcome.Err? && trace[i + 1].stamp == trace[i].stamp + trace[i].sleptMs
    ensures trace[|trace| - 1].outcome.Ok? || |trace| == MaxRetries + 1 - attempt
    ensures trace[|trace| - 1].sleptMs == 0
    decreases MaxRetries - attempt
  {
    var out := call(clock, attempt);
    var t := Try(clock, out, Backoff(out, attempt));
    if out.Ok? || attempt == MaxRetries then [t]
    else
      var rest := Attempts(call, clock + t.sleptMs, attempt + 1);
      ConsTry(call, clock, attempt, t, rest);
      [t] + rest
  }

  /** A failed attempt in front of the trace of the attempts after it. */
  lemma ConsTry(call: (nat, nat) -> Result<string, Failure>, clock: nat, attempt: nat, t: Try, rest: seq<Try>)
    requires t.stamp == clock && t.outcome.Err?
    requires t.outcome == call(clock, attempt) && t.sleptMs == Backoff(t.outcome, attempt)
    requires |rest| >= 1 && rest[0].stamp == clock + t.sleptMs
    requires forall i :: 0 <= i < |rest| ==> rest[i].stamp >= clock + t.sleptMs
    requires forall i :: 0 <= i < |rest| ==>
               rest[i].outcome == call(rest[i].stamp, attempt + 1 + i)
               && rest[i].sleptMs == Backoff(rest[i].outcome, attempt + 1 + i)
    requires forall i :: 0 <= i < |rest| - 1 ==>
               rest[i].outcome.Err? && rest[i + 1].stamp == rest[i].stamp + rest[i].sleptMs
    ensures var trace := [t] + rest;
            && (forall i :: 0 <= i < |trace| ==> trace[i].stamp >= clock)
            && (forall i :: 0 <= i < |trace| ==>
                  trace[i].outcome == call(trace[i].stamp, attempt + i)
                  && trace[i].sleptMs == Backoff(trace[i].outcome, attempt + i))
            && (forall i :: 0 <= i < |trace| - 1 ==>
                  trace[i].outcome.Err? && trace[i + 1].stamp == trace[i].stamp + trace[i].sleptMs)
  {
    var trace := [t] + rest;
    forall i | 1 <= i < |trace| ensures trace[i] == rest[i - 1] && attempt + i == attempt + 1 + (i - 1) {
    }
  }

  /** The value the loop produced, if any attempt succeeded. */
  function Succeeded(trace: seq<Try>): Option<string> {
    if |trace| > 0 && trace[|trace| - 1].outcome.Ok? then Some(trace[|trace| - 1].outcome.value)
    else None
  }

  function TotalSleep(trace: seq<Try>): nat
    decreases |trace|
  {
    if |trace| == 0 then 0 else trace[0].sleptMs + TotalSleep(trace[1..])
  }

  /** The backoff sleeps of one language add up to at most 1500 + 3000 + 6000 ms. */
  lemma TotalSleepBound(call: (nat, nat) -> Result<string, Failure>, clock: nat)
    ensures TotalSleep(Attempts(call, clock, 0)) <= 10500
  {
    var trace := Attempts(call, clock, 0);
    SleepsBounded(trace, 0);
  }

  /** The sleeps of a run of attempts numbered from `attempt`, each at most its backoff
      and zero from attempt `MaxRetries` on, add up to at most `1500 * (2^3 - 2^attempt)`. */
  lemma {:induction false} SleepsBounded(trace: seq<Try>, attempt: nat)
    requires attempt <= MaxRetries
    requires forall i :: 0 <= i < |trace| ==> trace[i].sleptMs == Backoff(trace[i].outcome, attempt + i)
    ensures TotalSleep(trace) <= BaseDelayMs * (Pow2(MaxRetries) - Pow2(attempt))
    decreases |trace|
  {
    if |trace| > 0 {
      Pow2Monotone(attempt, MaxRetries);
      if attempt < MaxRetries {
        SleepsBounded(trace[1..], attempt + 1);
        assert Pow2(attempt + 1) == 2 * Pow2(attempt);
      } else {
        assert trace[0].sleptMs == 0;
        SleepsZero(trace[1..], attempt + 1);
      }
    }
  }

  lemma {:induction false} SleepsZero(trace: seq<Try>, attempt: nat)
    requires attempt >= MaxRetries
    requires forall i :: 0 <= i < |trace| ==> trace[i].sleptMs == Backoff(trace[i].outcome, attempt + i)
    ensures TotalSleep(trace) == 0
    decreases |trace|
  {
    if |trace| > 0 {
      SleepsZero(trace[1..], attempt + 1);
    }
  }

  lemma {:induction false} Pow2Monotone(a: nat, b: nat)
    requires a <= b
    ensures Pow2(a) <= Pow2(b)
    decreases b - a
  {
    if a < b {
      Pow2Monotone(a + 1, b);
    }
  }

  /** The loop's clock after a run of attempts is its start plus all the sleeps. */
  lemma AttemptsClock(call: (nat, nat) -> Result<string, Failure>, clock: nat)
    ensures var trace := Attempts(call, clock, 0);
            trace[|trace| - 1].stamp == clock + TotalSleep(trace)
  {
    ChainClock(Attempts(call, clock, 0));
  }

  lemma {:induction false} ChainClock(trace: seq<Try>)
    requires |trace| >= 1 && trace[|trace| - 1].sleptMs == 0
    requires forall i :: 0 <= i < |trace| - 1 ==> trace[i + 1].stamp == trace[i].stamp + trace[i].sleptMs
    ensures trace[|trace| - 1].stamp == trace[0].stamp + TotalSleep(trace)
    decreases |trace|
  {
    if |trace| > 1 {
      ChainClock(trace[1..]);
    }
  }

  /** Without an API key every attempt is rejected, so no language is ever produced by the
      provider. */
  lemma NoKeyNeverSucceeds(p: Provider, text: string, source: Option<string>, target: string,
                           clock: nat)
    requires NoKey(p)
    ensures Succeeded(Attempts(Caller(p, text, source, target), clock, 0)).None?
    ensures |Attempts(Caller(p, text, source, target), clock, 0)| == MaxRetries + 1
  {
    var trace := Attempts(Caller(p, text, source, target), clock, 0);
    var last := trace[|trace| - 1];
    assert last.outcome == Call(p, text, source, target, last.stamp, |trace| - 1);
  }

  /** The source locale of a request: `toLocale(sourceLang, null)`. */
  function SourceLocale(sourceLang: string): Option<string> {
    ToLocale(sourceLang, None)
  }

  /** The target locale of a language: `toLocale(lang, null) ?? lang`. */
  function TargetLocale(lang: string): (t: string)
    ensures t == "" <==> lang == ""
  {
    ToLocale(lang, None).GetOr(lang)
  }

  /** What `translateText` did for one entry of `targetLangs`. */
  datatype LangLog = Skipped | CacheHit(value: string) | Attempted(start: nat, trace: seq<Try>)

  function Outcome(l: LangLog): Option<string> {
    match l
    case Skipped => None
    case CacheHit(v) => Some(v)
    case Attempted(_, trace) => Succeeded(trace)
  }

  /** Some entry of `langs` equal to `lang` produced a translation. */
  ghost predicate Produced(langs: seq<string>, logs: seq<LangLog>, lang: string) {
    exists i :: 0 <= i < |langs| && i < |logs| && langs[i] == lang && Outcome(logs[i]).Some?
  }

  lemma ProducedSnoc(langs: seq<string>, logs: seq<LangLog>, l: string, x: LangLog, lang: string)
    requires |langs| == |logs|
    ensures Produced(langs + [l], logs + [x], lang) <==>
              Produced(langs, logs, lang) || (l == lang && Outcome(x).Some?)
  {
    if Produced(langs + [l], logs + [x], lang) {
      var i :| 0 <= i < |langs| + 1 && i < |logs| + 1 && (langs + [l])[i] == lang
               && Outcome((logs + [x])[i]).Some?;
      if i < |langs| {
        assert langs[i] == lang && Outcome(logs[i]).Some?;
      }
    }
    if Produced(langs, logs, lang) {
      var i :| 0 <= i < |langs| && i < |logs| && langs[i] == lang && Outcome(logs[i]).Some?;
      assert (langs + [l])[i] == lang && (logs + [x])[i] == logs[i];
    }
    if l == lang && Outcome(x).Some? {
      assert (langs + [l])[|langs|] == lang && (logs + [x])[|langs|] == x;
    }
  }

  /** `cacheTranslation` of a translation the attempt loop obtained, if any. */
  function Remember(c: Cache, text: string, source: Option<string>, target: string,
                    got: Option<string>, at: nat): (c': Cache)
    requires Valid(c)
    ensures Valid(c')
    ensures got.None? ==> c' == c
    ensures got.Some? ==> CacheKey(text, source, target) in c'.entries
                          && c'.entries[CacheKey(text, source, target)] == Entry(got.value, at + CacheTtlMs)
  {
    if got.Some? then Insert(c, text, source, target, got.value, at) else c
  }

  /** The provider path shared by `translateText` and `translateSingle`: the attempt loop
      runs from the current clock, and a translation it obtains is cached at the clock
      reading after the loop. */
  function Fetch(text: string, source: Option<string>, target: string, p: Provider,
                 c: Cache, clock: nat): (r: (LangLog, Cache, nat))
    requires Valid(c)
    ensures Valid(r.1) && r.0.Attempted?
    ensures r.0.start == clock && r.0.trace == Attempts(Caller(p, text, source, target), clock, 0)
    ensures r.2 == r.0.trace[|r.0.trace| - 1].stamp
    ensures r.1 == Remember(c, text, source, target, Succeeded(r.0.trace), r.2)
  {
    var trace := Attempts(Caller(p, text, source, target), clock, 0);
    var after := trace[|trace| - 1].stamp;
    (Attempted(clock, trace), Remember(c, text, source, target, Succeeded(trace), after), after)
  }

  /** A target that is not skipped: a non-empty unexpired cached value is used as is
      (`if (cached)` treats an empty string as a miss); otherwise the provider is asked,
      after the lookup has dropped an expired entry. */
  function Step(text: string, source: Option<string>, target: string, p: Provider,
                c: Cache, clock: nat): (r: (LangLog, Cache, nat))
    requires Valid(c)
    ensures Valid(r.1) && r.2 >= clock && !r.0.Skipped?
    ensures var hit := Lookup(c, text, source, target, clock).0;
            r.0.CacheHit? <==> hit.Some? && hit.value != ""
    ensures r.0.CacheHit? ==> r == (CacheHit(Lookup(c, text, source, target, clock).0.value), c, clock)
    ensures r.0.Attempted? ==> r == Fetch(text, source, target, p, Lookup(c, text, source, target, clock).1, clock)
  {
    var (hit, c1) := Lookup(c, text, source, target, clock);
    if hit.Some? && hit.value != "" then (CacheHit(hit.value), c1, clock)
    else Fetch(text, source, target, p, c1, clock)
  }

  /** The observable result of one `translateText` call: the returned map, the `onChunk`
      calls in order, what happened to each target language, and the cache and clock
      afterwards. */
  datatype Run = Run(results: map<string, string>, chunks: seq<(string, string)>,
                     logs: seq<LangLog>, cache: Cache, clock: nat)

  /** One iteration of `translateText`'s loop, for target language `lang`; `resolve` maps a
      language to its target locale. */
  function Advance(text: string, source: Option<string>, resolve: string -> string, p: Provider,
                   run: Run, lang: string): (r: Run)
    requires Valid(run.cache)
    ensures Valid(r.cache) && r.clock >= run.clock
    ensures |r.logs| == |run.logs| + 1 && r.logs[..|run.logs|] == run.logs
    ensures LogOk(text, source, resolve, p, lang, r.logs[|run.logs|])
    ensures Recorded(run, lang, r.logs[|run.logs|], r)
  {
    var target := resolve(lang);
    var (e, c, clock) := if Some(target) == source then (Skipped, run.cache, run.clock)
                         else Step(text, source, target, p, run.cache, run.clock);
    NoKeyOutcome(text, source, target, p, run.cache, run.clock);
    var logs := run.logs + [e];
    assert logs[..|run.logs|] == run.logs;
    match Outcome(e)
    case Some(v) => Run(run.results[lang := v], run.chunks + [(lang, v)], logs, c, clock)
    case None => Run(run.results, run.chunks, logs, c, clock)
  }

  lemma NoKeyOutcome(text: string, source: Option<string>, target: string, p: Provider, c: Cache, clock: nat)
    requires Valid(c)
    ensures var e := Step(text, source, target, p, c, clock).0;
            NoKey(p) && e.Attempted? ==> Outcome(e).None?
  {
    var e := Step(text, source, target, p, c, clock).0;
    if NoKey(p) && e.Attempted? {
      NoKeyNeverSucceeds(p, text, source, target, e.start);
    }
  }

  /** What the loop did for one target language `lang`: skip it exactly when its locale is
      the source locale, use only a non-empty cached value, or run the attempt loop for its
      locale; without an API key the attempt loop never succeeds. */
  ghost predicate LogOk(text: string, source: Option<string>, resolve: string -> string, p: Provider,
                        lang: string, e: LangLog) {
    && (e.Skipped? <==> Some(resolve(lang)) == source)
    && (e.CacheHit? ==> e.value != "")
    && (e.Attempted? ==> e.trace == Attempts(Caller(p, text, source, resolve(lang)), e.start, 0))
    && (NoKey(p) && e.Attempted? ==> Outcome(e).None?)
  }

  /** What holds after the loop has handled the prefix `langs` of the target languages. */
  ghost predicate RunInv(text: string, source: Option<string>, resolve: string -> string, p: Provider,
                         langs: seq<string>, now: nat, run: Run) {
    && Valid(run.cache) && run.clock >= now
    && |run.logs| == |langs|
    && (forall j :: 0 <= j < |langs| ==> LogOk(text, source, resolve, p, langs[j], run.logs[j]))
    && ResultsInv(langs, run)
  }

  /** The map and the `onChunk` calls agree with the per-language outcomes. */
  ghost predicate ResultsInv(langs: seq<string>, run: Run)
    requires |run.logs| == |langs|
  {
    KeysInv(langs, run) && ChunksInv(run) && UniqueInv(langs, run)
  }

  ghost predicate KeysInv(langs: seq<string>, run: Run)
    requires |run.logs| == |langs|
  {
    && (forall lang :: lang in run.results ==> lang in langs)
    && (forall lang :: lang in run.results <==> Produced(langs, run.logs, lang))
  }

  ghost predicate ChunksInv(run: Run) {
    && (forall lang :: lang in run.results ==> (lang, run.results[lang]) in run.chunks)
    && (forall ch :: ch in run.chunks ==> ch.0 in run.results)
  }

  ghost predicate UniqueInv(langs: seq<string>, run: Run) {
    NoDuplicates(langs) ==>
      |run.chunks| == |run.results|
      && forall a, b :: 0 <= a < b < |run.chunks| ==> run.chunks[a].0 != run.chunks[b].0
  }

  /** How one iteration changes the map and the chunks, given its log entry `e`. */
  ghost predicate Recorded(run: Run, lang: string, e: LangLog, r: Run) {
    && (Outcome(e).Some? ==> r.results == run.results[lang := Outcome(e).value]
                             && r.chunks == run.chunks + [(lang, Outcome(e).value)])
    && (Outcome(e).None? ==> r.results == run.results && r.chunks == run.chunks)
  }

  lemma AdvanceKeepsResults(langs: seq<string>, run: Run, lang: string, r: Run)
    requires |run.logs| == |langs| && ResultsInv(langs, run)
    requires |r.logs| == |run.logs| + 1 && r.logs == run.logs + [r.logs[|langs|]]
    requires Recorded(run, lang, r.logs[|langs|], r)
    ensures ResultsInv(langs + [lang], r)
  {
    var e := r.logs[|langs|];
    KeysStep(langs, run, lang, e, r);
    ChunksStep(run, lang, e, r);
    UniqueStep(langs, run, lang, e, r);
  }

  lemma KeysStep(langs: seq<string>, run: Run, lang: string, e: LangLog, r: Run)
    requires |run.logs| == |langs| && KeysInv(langs, run)
    requires r.logs == run.logs + [e] && Recorded(run, lang, e, r)
    ensures KeysInv(langs + [lang], r)
  {
    ProducedSnocAll(langs, run.logs, lang, e);
  }

  lemma ChunksStep(run: Run, lang: string, e: LangLog, r: Run)
    requires ChunksInv(run) && Recorded(run, lang, e, r)
    ensures ChunksInv(r)
  {
  }

  lemma UniqueStep(langs: seq<string>, run: Run, lang: string, e: LangLog, r: Run)
    requires |run.logs| == |langs| && KeysInv(langs, run) && ChunksInv(run) && UniqueInv(langs, run)
    requires Recorded(run, lang, e, r)
    ensures UniqueInv(langs + [lang], r)
  {
    if NoDuplicates(langs + [lang]) {
      assert NoDuplicates(langs) by {
        forall a, b | 0 <= a < b < |langs| ensures langs[a] != langs[b] {
          assert (langs + [lang])[a] == langs[a] && (langs + [lang])[b] == langs[b];
        }
      }
      if Outcome(e).Some? {
        assert lang !in langs by {
          forall a | 0 <= a < |langs| ensures langs[a] != lang {
            assert (langs + [lang])[a] == langs[a] && (langs + [lang])[|langs|] == lang;
          }
        }
        assert lang !in run.results;
      }
    }
  }

  lemma AdvanceKeepsInv(text: string, source: Option<string>, resolve: string -> string, p: Provider,
                        langs: seq<string>, langs': seq<string>, now: nat, run: Run, lang: string)
    requires RunInv(text, source, resolve, p, langs, now, run)
    requires langs' == langs + [lang]
    ensures RunInv(text, source, resolve, p, langs', now, Advance(text, source, resolve, p, run, lang))
  {
    var r := Advance(text, source, resolve, p, run, lang);
    assert r.logs == run.logs + [r.logs[|langs|]];
    forall j | 0 <= j < |langs|
      ensures langs'[j] == langs[j] && r.logs[j] == run.logs[j]
    {
    }
    AdvanceKeepsResults(langs, run, lang, r);
  }

  /** The loop of `translateText` over `langs`, from an empty map and no chunks. */
  function Translate(text: string, source: Option<string>, resolve: string -> string, p: Provider,
                     langs: seq<string>, cache: Cache, now: nat): (run: Run)
    requires Valid(cache)
    ensures Valid(run.cache) && run.clock >= now
    ensures |run.logs| == |langs|
    decreases |langs|
  {
    if |langs| == 0 then Run(map[], [], [], cache, now)
    else Advance(text, source, resolve, p, Translate(text, source, resolve, p, langs[..|langs| - 1], cache, now),
                 langs[|langs| - 1])
  }

  /** The loop invariant holds after any number of target languages. */
  lemma {:induction false} TranslateInv(text: string, source: Option<string>, resolve: string -> string,
                                        p: Provider, langs: seq<string>, cache: Cache, now: nat)
    requires Valid(cache)
    ensures RunInv(text, source, resolve, p, langs, now, Translate(text, source, resolve, p, langs, cache, now))
    decreases |langs|
  {
    if |langs| > 0 {
      var init := langs[..|langs| - 1];
      var last := langs[|langs| - 1];
      TranslateInv(text, source, resolve, p, init, cache, now);
      var prev := Translate(text, source, resolve, p, init, cache, now);
      SplitLast(langs);
      AdvanceKeepsInv(text, source, resolve, p, init, langs, now, prev, last);
    }
  }

  /** `translateText`, with the locale of the source language and of each target. */
  function TranslateText(text: string, sourceLang: string, targetLangs: seq<string>,
                         p: Provider, cache: Cache, now: nat): (run: Run)
    requires Valid(cache)
    ensures Valid(run.cache) && run.clock >= now
    ensures |run.logs| == |targetLangs|
  {
    Translate(text, SourceLocale(sourceLang), TargetLocale, p, targetLangs, cache, now)
  }

  /** The skip rule: exactly the targets whose locale equals the source locale are skipped;
      every other target is served by a non-empty cached value or by the attempt loop. */
  lemma TranslateTextSkips(text: string, sourceLang: string, targetLangs: seq<string>,
                           p: Provider, cache: Cache, now: nat)
    requires Valid(cache)
    ensures var run := TranslateText(text, sourceLang, targetLangs, p, cache, now);
            forall i :: 0 <= i < |targetLangs| ==>
              && (run.logs[i].Skipped? <==> Some(TargetLocale(targetLangs[i])) == SourceLocale(sourceLang))
              && (run.logs[i].CacheHit? ==> run.logs[i].value != "")
              && (run.logs[i].Attempted? ==>
                    run.logs[i].trace == Attempts(Caller(p, text, SourceLocale(sourceLang),
                                                         TargetLocale(targetLangs[i])), run.logs[i].start, 0))
  {
    TranslateInv(text, SourceLocale(sourceLang), TargetLocale, p, targetLangs, cache, now);
  }

  /** The returned map holds exactly the languages some entry of `targetLangs` obtained a
      translation for; a language that failed every attempt is absent. */
  lemma TranslateTextResults(text: string, sourceLang: string, targetLangs: seq<string>,
                             p: Provider, cache: Cache, now: nat)
    requires Valid(cache)
    ensures var run := TranslateText(text, sourceLang, targetLangs, p, cache, now);
            && (forall lang :: lang in run.results ==> lang in targetLangs)
            && (forall lang :: lang in run.results <==> Produced(targetLangs, run.logs, lang))
  {
    TranslateInv(text, SourceLocale(sourceLang), TargetLocale, p, targetLangs, cache, now);
  }

  /** `onChunk` is called with each language of the map and its final text, and only for
      languages of the map; without repeated target languages, exactly once per language. */
  lemma TranslateTextChunks(text: string, sourceLang: string, targetLangs: seq<string>,
                            p: Provider, cache: Cache, now: nat)
    requires Valid(cache)
    ensures var run := TranslateText(text, sourceLang, targetLangs, p, cache, now);
            && (forall lang :: lang in run.results ==> (lang, run.results[lang]) in run.chunks)
            && (forall c :: c in run.chunks ==> c.0 in run.results)
            && (NoDuplicates(targetLangs) ==>
                  |run.chunks| == |run.results|
                  && forall a, b :: 0 <= a < b < |run.chunks| ==> run.chunks[a].0 != run.chunks[b].0)
  {
    TranslateInv(text, SourceLocale(sourceLang), TargetLocale, p, targetLangs, cache, now);
  }

  /** Without an API key, the provider never contributes: every language in the map came
      from the cache. */
  lemma TranslateTextNoKey(text: string, sourceLang: string, targetLangs: seq<string>,
                           p: Provider, cache: Cache, now: nat)
    requires Valid(cache) && NoKey(p)
    ensures var run := TranslateText(text, sourceLang, targetLangs, p, cache, now);
            forall i :: 0 <= i < |targetLangs| && Outcome(run.logs[i]).Some? ==> run.logs[i].CacheHit?
  {
    TranslateInv(text, SourceLocale(sourceLang), TargetLocale, p, targetLangs, cache, now);
  }

  lemma ProducedSnocAll(langs: seq<string>, logs: seq<LangLog>, l: string, x: LangLog)
    requires |langs| == |logs|
    ensures forall lang :: Produced(langs + [l], logs + [x], lang) <==>
              Produced(langs, logs, lang) || (l == lang && Outcome(x).Some?)
  {
    forall lang
      ensures Produced(langs + [l], logs + [x], lang) <==>
                Produced(langs, logs, lang) || (l == lang && Outcome(x).Some?)
    {
      ProducedSnoc(langs, logs, l, x, lang);
    }
  }

  /** The result of `translateSingle`, with the cache and clock afterwards. */
  datatype Single = Single(text: string, cache: Cache, clock: nat)

  /** `translateSingle` once the locales are resolved: the input itself for an empty target
      or one equal to the source locale, a non-empty unexpired cached value, the provider's
      translation (then cached), or the input again once every attempt has failed. */
  function SingleFor(text: string, source: Option<string>, target: string, p: Provider,
                     cache: Cache, now: nat): (r: Single)
    requires Valid(cache)
    ensures Valid(r.cache) && r.clock >= now
    ensures target == "" || Some(target) == source ==> r == Single(text, cache, now)
    ensures var hit := Lookup(cache, text, source, target, now).0;
            target != "" && Some(target) != source && hit.Some? && hit.value != "" ==>
              r == Single(hit.value, cache, now)
  {
    if target == "" || Some(target) == source then Single(text, cache, now)
    else
      var (hit, c1) := Lookup(cache, text, source, target, now);
      if hit.Some? && hit.value != "" then Single(hit.value, c1, now)
      else
        var trace := Attempts(Caller(p, text, source, target), now, 0);
        var after := trace[|trace| - 1].stamp;
        Single(Succeeded(trace).GetOr(text), Remember(c1, text, source, target, Succeeded(trace), after), after)
  }

  /** When neither the skip nor the cache applies, `translateSingle` returns the first
      translation the attempt loop obtains, cached for one hour from the clock reading
      after the loop, or the input once every attempt has failed. */
  lemma SingleForProvider(text: string, source: Option<string>, target: string, p: Provider,
                          cache: Cache, now: nat)
    requires Valid(cache)
    requires target != "" && Some(target) != source
    requires var hit := Lookup(cache, text, source, target, now).0;
             hit.None? || hit.value == ""
    ensures var r := SingleFor(text, source, target, p, cache, now);
            var trace := Attempts(Caller(p, text, source, target), now, 0);
            && r.clock == trace[|trace| - 1].stamp
            && (Succeeded(trace).None? ==> r.text == text)
            && (Succeeded(trace).Some? ==>
                  r.text == Succeeded(trace).value
                  && CacheKey(text, source, target) in r.cache.entries
                  && r.cache.entries[CacheKey(text, source, target)] == Entry(r.text, r.clock + CacheTtlMs))
  {
  }

  /** `translateSingle`: the source locale is `toLocale(sourceLang, null)`, the target locale
      `toLocale(targetLang, null) ?? targetLang`; an empty target language returns the
      input untouched. */
  function TranslateSingle(text: string, sourceLang: string, targetLang: string, p: Provider,
                           cache: Cache, now: nat): (r: Single)
    requires Valid(cache)
    ensures Valid(r.cache) && r.clock >= now
    ensures targetLang == "" ==> r == Single(text, cache, now)
    ensures Some(TargetLocale(targetLang)) == SourceLocale(sourceLang) ==> r == Single(text, cache, now)
  {
    SingleFor(text, SourceLocale(sourceLang), TargetLocale(targetLang), p, cache, now)
  }

  /** A translation obtained from the provider is served from the cache by the next
      `translateSingle` of the same text and languages within one hour, whatever the
      provider would answer then. */
  lemma TranslateSingleThenCached(text: string, sourceLang: string, targetLang: string,
                                  p: Provider, q: Provider, cache: Cache, now: nat, later: nat)
    requires Valid(cache)
    requires CacheKey(text, SourceLocale(sourceLang), TargetLocale(targetLang)) !in cache.entries
    requires Succeeded(Attempts(Caller(p, text, SourceLocale(sourceLang), TargetLocale(targetLang)), now, 0)).Some?
    requires var r := TranslateSingle(text, sourceLang, targetLang, p, cache, now);
             r.text != "" && later < r.clock + CacheTtlMs
    ensures var r := TranslateSingle(text, sourceLang, targetLang, p, cache, now);
            TranslateSingle(text, sourceLang, targetLang, q, r.cache, later).text == r.text
  {
    var r := TranslateSingle(text, sourceLang, targetLang, p, cache, now);
    var source := SourceLocale(sourceLang);
    var target := TargetLocale(targetLang);
    if targetLang != "" && Some(target) != source {
      var (hit, c1) := Lookup(cache, text, source, target, now);
      assert c1 == cache;
      LookupAfterInsert(c1, text, source, target, r.text, r.clock, later);
    }
  }
}

=== FILE: upload_config.dfy ===
/** The upload rules of `Backend_TS/src/config/multer.config.ts`: the stored file name
    (timestamp, a dash, the sanitised base name, the original extension), the image-only
    MIME filter and the 5 MiB size limit. The clock and `path.extname`/`path.basename` are
    parameters: the name arrives already split into base and extension. */
module UploadConfig {
  import opened Base
  import opened Text

  const MaxFileSize: nat := 5 * 1024 * 1024
  const NotAnImageMessage := "Only image files are allowed!"
  /** Multer's message for its `LIMIT_FILE_SIZE` error. */
  const TooLargeMessage := "File too large"

  const AllowedMimeTypes: set<string> := {"image/jpeg", "image/jpg", "image/png", "image/gif", "image/webp"}

  predicate IsAsciiAlnum(c: char) {
    ('a' <= c <= 'z') || ('A' <= c <= 'Z') || ('0' <= c <= '9')
  }

  /** A character the sanitised name may hold. */
  predicate IsSafe(c: char) {
    ('a' <= c <= 'z') || ('0' <= c <= '9') || c == '_'
  }

  /** JavaScript's `length`: characters outside the Basic Multilingual Plane take two UTF-16
      code units. */
  function Utf16Length(s: string): (n: nat)
    ensures |s| <= n <= 2 * |s|
    decreases |s|
  {
    if |s| == 0 then 0 else (if s[0] as int > 0xFFFF then 2 else 1) + Utf16Length(s[1..])
  }

  /** `.replace(/[^a-z0-9]/gi, '_').toLowerCase()`: ASCII letters lower-cased, digits kept,
      every other code unit (so both halves of a surrogate pair) replaced by `_`. */
  function Sanitize(s: string): (r: string)
    ensures |r| == Utf16Length(s)
    ensures forall i :: 0 <= i < |r| ==> IsSafe(r[i])
    decreases |s|
  {
    if |s| == 0 then []
    else
      var head := if IsAsciiAlnum(s[0]) then [LowerChar(s[0])]
                  else if s[0] as int > 0xFFFF then "__" else "_";
      head + Sanitize(s[1..])
  }

  /** A name that is already safe is left as it is. */
  lemma {:induction false} SanitizeSafe(s: string)
    requires forall i :: 0 <= i < |s| ==> IsSafe(s[i])
    ensures Sanitize(s) == s
    decreases |s|
  {
    if |s| > 0 {
      SanitizeSafe(s[1..]);
    }
  }

  /** Sanitising twice is sanitising once. */
  lemma SanitizeIdempotent(s: string)
    ensures Sanitize(Sanitize(s)) == Sanitize(s)
  {
    SanitizeSafe(Sanitize(s));
  }

  /** The `filename` callback: `${Date.now()}-${sanitized}${ext}`. */
  function StoredName(now: nat, base: string, ext: string): (r: string)
    ensures |r| == |NatToString(now)| + 1 + Utf16Length(base) + |ext|
    ensures r[..|NatToString(now)|] == NatToString(now) && r[|NatToString(now)|] == '-'
    ensures r[|r| - |ext|..] == ext
  {
    NatToString(now) + "-" + Sanitize(base) + ext
  }

  /** The stored name can be read back: the digits before the first dash are the upload
      time, and the rest up to the extension is the sanitised base. */
  lemma StoredNameRoundTrip(now: nat, base: string, ext: string)
    ensures var r := StoredName(now, base, ext);
            var k := IndexOf(r, '-');
            && k == Some(|NatToString(now)|)
            && AllDigits(r[..k.value]) && DecimalValue(r[..k.value]) == now
            && r[k.value + 1..|r| - |ext|] == Sanitize(base)
  {
    var ts := NatToString(now);
    var rest := Sanitize(base) + ext;
    assert StoredName(now, base, ext) == ts + "-" + rest;
    NoDashInDigits(ts);
    DashAfterDigits(ts, rest);
    NatToStringRoundTrip(now);
    Slices(ts, Sanitize(base), ext);
  }

  lemma Slices(ts: string, mid: string, ext: string)
    ensures var r := ts + "-" + mid + ext;
            r[..|ts|] == ts && r[|ts| + 1..|r| - |ext|] == mid
  {
  }

  lemma NoDashInDigits(ts: string)
    requires AllDigits(ts)
    ensures '-' !in ts
  {
  }

  lemma DashAfterDigits(ts: string, rest: string)
    requires '-' !in ts
    ensures IndexOf(ts + "-" + rest, '-') == Some(|ts|)
  {
    var r := ts + "-" + rest;
    assert r[|ts|] == '-';
    assert r[..|ts|] == ts;
  }

  /** `file.mimetype.match(/^image\/(jpeg|jpg|png|gif|webp)$/)`. */
  predicate IsImageMime(mime: string) {
    mime in AllowedMimeTypes
  }

  datatype Upload = Accepted(filename: string) | Refused(message: string)

  /** An upload: the MIME filter runs first, then the size limit is enforced while the file
      streams in, then the file is stored under its generated name. */
  function HandleUpload(mime: string, size: nat, now: nat, base: string, ext: string): (r: Upload)
    ensures r.Accepted? <==> IsImageMime(mime) && size <= MaxFileSize
    ensures !IsImageMime(mime) ==> r == Refused(NotAnImageMessage)
    ensures IsImageMime(mime) && size > MaxFileSize ==> r == Refused(TooLargeMessage)
    ensures r.Accepted? ==> r.filename == StoredName(now, base, ext)
  {
    if !IsImageMime(mime) then Refused(NotAnImageMessage)
    else if size > MaxFileSize then Refused(TooLargeMessage)
    else Accepted(StoredName(now, base, ext))
  }

  /** The filter is exact: case matters and nothing may surround the type. */
  lemma MimeFilterExamples()
    ensures IsImageMime("image/png") && IsImageMime("image/jpg")
    ensures !IsImageMime("image/PNG") && !IsImageMime("image/svg+xml") && !IsImageMime(" image/png")
  {
  }
}

=== FILE: user_model.dfy ===
/** The `User` collection of `Backend_TS/src/models/user.model.ts`: an account with a
    unique username, a unique email, a password (stored hashed by its callers), a role from
    `user`/`admin` and a default profile picture; `User.create` against an
    insertion-ordered collection. Document ids and the clock are parameters. */
module UserModel {
  import opened Base

  const DefaultProfilePicture := "https://res.cloudinary.com/demo/image/upload/v1584462242/avatar_default.jpg"

  datatype Role = UserRole | AdminRole

  /** The `enum` check of the `role` path. */
  function ParseRole(s: string): (r: Option<Role>)
    ensures r == Some(UserRole) <==> s == "user"
    ensures r == Some(AdminRole) <==> s == "admin"
  {
    if s == "user" then Some(UserRole) else if s == "admin" then Some(AdminRole) else None
  }

  function RoleName(r: Role): (s: string)
    ensures ParseRole(s) == Some(r)
  {
    match r
    case UserRole => "user"
    case AdminRole => "admin"
  }

  /** A stored account; `password` is whatever the caller stored there. */
  datatype User = User(id: string, username: string, email: string, password: string,
                       role: Role, profilePicture: string, createdAt: nat)

  /** What a caller hands to `User.create`; `None` is a path left `undefined`. */
  datatype Draft = Draft(username: string, email: string, password: string,
                         role: Option<string>, profilePicture: Option<string>)

  type Users = seq<User>

  /** The required paths are set (Mongoose's `required` refuses `""` as well). */
  predicate Stored(u: User) {
    u.username != "" && u.email != "" && u.password != ""
  }

  /** The collection invariants: required paths, distinct ids, and the two unique indexes. */
  ghost predicate Valid(us: Users) {
    && (forall i :: 0 <= i < |us| ==> Stored(us[i]))
    && (forall i, j :: 0 <= i < j < |us| ==> us[i].id != us[j].id)
    && (forall i, j :: 0 <= i < j < |us| ==> us[i].username != us[j].username)
    && (forall i, j :: 0 <= i < j < |us| ==> us[i].email != us[j].email)
  }

  predicate HasId(us: Users, id: string) {
    exists i :: 0 <= i < |us| && us[i].id == id
  }

  predicate HasEmail(us: Users, email: string) {
    exists i :: 0 <= i < |us| && us[i].email == email
  }

  /** `User.findOne({username})`: the first account, at or after `from`, with exactly that
      username (the path has no `trim` setter). */
  function FindByUsername(us: Users, username: string, from: nat := 0): (r: Option<nat>)
    requires from <= |us|
    ensures r.Some? ==> from <= r.value < |us| && us[r.value].username == username
    ensures r.Some? ==> forall k :: from <= k < r.value ==> us[k].username != username
    ensures r.None? <==> forall i :: from <= i < |us| ==> us[i].username != username
  {
    FirstIndex(us, (u: User) => u.username == username, from)
  }

  datatype CreateError = ValidationError | DuplicateKey

  /** The schema's validators accept the draft: every required path is non-empty and a given
      role is one of the enum values. */
  predicate Admissible(d: Draft) {
    d.username != "" && d.email != "" && d.password != ""
    && (d.role.None? || ParseRole(d.role.value).Some?)
  }

  /** `User.create`: validation, then the unique indexes on `username` and `email`, then the
      insert with the defaults applied (`user`, the default picture). */
  function Create(us: Users, d: Draft, id: string, now: nat): (r: Result<(User, Users), CreateError>)
    ensures !Admissible(d) <==> r == Err(ValidationError)
    ensures (Admissible(d) && (FindByUsername(us, d.username).Some? || HasEmail(us, d.email)))
              <==> r == Err(DuplicateKey)
    ensures r.Ok? ==> var (u, us') := r.value;
            && us' == us + [u]
            && u.id == id && u.username == d.username && u.email == d.email
            && u.password == d.password && u.createdAt == now
            && u.role == (if d.role.Some? then ParseRole(d.role.value).value else UserRole)
            && u.profilePicture == d.profilePicture.GetOr(DefaultProfilePicture)
  {
    if !Admissible(d) then Err(ValidationError)
    else if FindByUsername(us, d.username).Some? || HasEmail(us, d.email) then Err(DuplicateKey)
    else
      var role := if d.role.Some? then ParseRole(d.role.value).value else UserRole;
      var u := User(id, d.username, d.email, d.password, role, d.profilePicture.GetOr(DefaultProfilePicture), now);
      Ok((u, us + [u]))
  }

  /** A successful create keeps the collection valid, and the new account is the one
      `findOne` returns for its username from then on. */
  lemma CreateKeepsValid(us: Users, d: Draft, id: string, now: nat)
    requires Valid(us) && !HasId(us, id)
    requires Create(us, d, id, now).Ok?
    ensures var (u, us') := Create(us, d, id, now).value;
            Valid(us') && FindByUsername(us', d.username) == Some(|us|)
  {
    var (u, us') := Create(us, d, id, now).value;
    forall i | 0 <= i < |us'| ensures Stored(us'[i]) {
      if i < |us| { assert us'[i] == us[i]; }
    }
    forall i, j | 0 <= i < j < |us'|
      ensures us'[i].id != us'[j].id && us'[i].username != us'[j].username && us'[i].email != us'[j].email
    {
      assert us'[i] == us[i];
      if j == |us| { assert us[i].email != d.email; }
    }
    FindAfterAppend(us, u);
  }

  /** An account appended under a username nobody has is found at the end. */
  lemma FindAfterAppend(us: Users, u: User)
    requires FindByUsername(us, u.username).None?
    ensures FindByUsername(us + [u], u.username) == Some(|us|)
  {
    var us' := us + [u];
    assert forall i :: 0 <= i < |us| ==> us'[i] == us[i];
    assert us'[|us|] == u;
  }

  /** The unique indexes at work: creating the same draft twice fails the second time. */
  lemma CreateTwiceRejected(us: Users, d: Draft, id: string, id2: string, now: nat, later: nat)
    requires Create(us, d, id, now).Ok?
    ensures Create(Create(us, d, id, now).value.1, d, id2, later) == Err(DuplicateKey)
  {
    var us' := Create(us, d, id, now).value.1;
    assert us'[|us|].email == d.email;
  }
}
